=== FILE: README.md ===
# eagle-automation bill-of-materials core, modelled in Dafny

This project models the bill-of-materials (BOM) half of eagle-automation, a
set of Python 2 tools that drive the EAGLE PCB CAD program:

- **The parts catalogue.** A YAML map from part number to a record with a
  Description, a Category, a Preferred sourcing option and optional
  Alternatives. The model covers its validation, saving, insertion and the
  category queries.
- **Part lines.** Each placed part of a schematic becomes a descriptor. If
  its part number is catalogued, the descriptor is copied from the
  catalogue; otherwise it is an "Unspecified" fallback. Parts with equal
  descriptors are grouped into one line.
- **Rendering a line.** A line becomes a row with a quantity and a
  compressed list of reference designators ("R1-3", "R5").
- **The fan-out writer `BOMWriter`.** It sends every row to one backend per
  output path (CSV, JSON, YAML, XLSX, ODS), chosen by the path's extension.
- **The two BOM exporters.** One works from pyeagle part lines. The legacy
  one works from the JSON a ULP writes and groups devices by prefix,
  package and value.
- **The EAGLE command line.** The script-driven exporters (PNG, PDF, library
  directory, legacy BOM) build a script, and it runs as `eagle -C<script>;QUIT <input>`.

Modules, one concept each, follow the source files:

| module | file | models |
|---|---|---|
| `Results` | results.dfy | the exceptions the core raises, `Result`, `Outcome`, `Option` |
| `Values` | values.dfy | the dynamically typed cell values (YAML scalars, dicts, lists) |
| `Text` | text.dfy | `str.split`/`join`, `lower`, `str(int)`/`int(str)`, string ordering |
| `Sorting` | sorting.dfy | `sorted` on integers and on a string key |
| `Common` | common.dfy | `eagle_automation/common.py` |
| `Designators` | designators.dfy | `PartLine._build_range` and the designator regex |
| `Grouping` | grouping.dfy | `dict.setdefault(k, []).append(v)` grouping in first-occurrence order |
| `Catalogue` | catalogue.dfy | `PartDatabase` validation, save, the category queries, `ComponentInsert.run` |
| `PartLines` | partlines.dfy | `PartLine`, `get_part_line`, `build_bom` |
| `BomOutput` | bom_output.dfy | `eagle_automation/bom_output.py` |
| `BomExport` | export.dfy | the shared `with BOMWriter` block and `PyEagleBOMExport.export` |
| `LegacyBom` | legacy_bom.dfy | `EagleScriptBOMExport.generate_bom_output` |
| `Scripts` | scripts.dfy | `write_script` of the script exporters and `EagleScriptExport.export` |

Effects become data:

- **Files.**
  - The catalogue file is a `CatalogueFile` value.
  - An output file is a `Backend`. It records its path, its format, its
    open/closed phase and the rows written to it. XLSX backends also record
    the line counter and the style of each line.
- **Failures of the environment.**
  - An open or close the environment refuses is a set of paths,
    `openRefused` and `closeRefused`.
  - The EAGLE program and its subprocess call are left out. The model stops
    at the argument vector it would receive.
- **Iteration order.** Python dict iteration order is unspecified.
  - Where it decides an outcome, the order is a parameter: `order` enumerates
    the catalogue's keys.
  - Where the code builds a dict, the order is first occurrence.

Two behaviours of the code are worth stating up front:

- **Compressed ranges.** A range is written prefix, first number, last
  number (`'{}{}-{}'`), so R1, R2, R3 compress to "R1-3"
  (`Designators.BuildRangeExample`).
- **Closing after a failure.**
  - `__exit__` stops at the first close that raises
    (`BomOutput.ExitStopsAtFailure`).
  - A failed open leaves the `with` block before `__exit__` runs, so
    nothing is closed.

## Model

| member | source | states |
|---|---|---|
| Common.RunEnd | eagle_automation/common.py:7 | a run of the groupby ends at the first index whose value minus its position differs from the run's start |
| Common.KeyStep | eagle_automation/common.py:7 | two neighbours share a groupby key exactly when the second is the first plus one |
| Common.RangesFrom | eagle_automation/common.py:6-9 | each yielded pair is (first, last) of a run: first <= last; neighbouring pairs come from different runs; the first pair starts at the first element and the last ends at the last element |
| Common.IntervalOfRun | eagle_automation/common.py:7-9 | a run of the groupby is exactly the integers from its first to its last value |
| Common.RangesRoundTrip | eagle_automation/common.py:6-9 | expanding the (first, last) pairs gives back the input sequence, for any input |
| Common.RangesMaximal | eagle_automation/common.py:6-9 | on strictly increasing input, consecutive pairs are separated by a gap, so no two runs could merge |
| Common.RangesMembers | eagle_automation/common.py:8-9 | every endpoint of a pair is an element of the input |
| Common.RangesRepeatedValue | eagle_automation/common.py:7 | a repeated value starts a new run: [1, 1, 2] gives (1, 1), (1, 2) |
| Common.GetExtension | eagle_automation/common.py:12-13 | the extension holds no dot and no upper-case letter, and is no longer than the path |
| Common.GetExtensionAfterLastDot | eagle_automation/common.py:12-13 | the extension is the lower-cased text after the last dot |
| Common.GetExtensionNoDot | eagle_automation/common.py:12-13 | a path without a dot is its own extension, lower-cased |
| Common.GetExtensionIdempotent | eagle_automation/common.py:12-13 | taking the extension of an extension changes nothing |
| Text.JoinSplit | eagle_automation/export.py:82 | splitting on a separator and joining again with it gives back the string |
| Text.SplitJoin | eagle_automation/export.py:82 | joining separator-free parts and splitting again gives back the parts |
| Text.Lower | eagle_automation/common.py:13 | lower-casing maps every character on its own and keeps the length |
| Text.LowerIdempotent | eagle_automation/common.py:13 | lower-casing twice is lower-casing once |
| Text.DigitsRoundTrip | eagle_automation/components.py:78 | reading the decimal digits of `str(n)` gives back n |
| Text.ParseInt | eagle_automation/components.py:78 | `int()` accepts exactly digits alone, or a sign followed by optional whitespace and at least one digit, as Python 2 does |
| Text.ParseIntSpaceAfterSign | eagle_automation/components.py:78 | "- 5" reads as -5 |
| Text.ParseIntRoundTrip | eagle_automation/components.py:78 | `int(str(i)) == i` for every integer, negative ones included |
| Text.LexLeTotal | eagle_automation/export.py:244 | the string order used to sort part lines is total |
| Text.LexLeTransitive | eagle_automation/export.py:244 | the string order is transitive |
| Text.LexLeAntisymmetric | eagle_automation/export.py:244 | the string order is antisymmetric |
| Sorting.SortInts | eagle_automation/components.py:81 | `sorted(part_nums)` is ascending and a permutation of its input |
| Sorting.SortIntsMembers | eagle_automation/components.py:81 | sorting neither adds nor drops a value |
| Sorting.AscendingDistinct | eagle_automation/components.py:81 | a sorted sequence without repeats is strictly increasing |
| Sorting.SortBy | eagle_automation/export.py:244 | sorting part lines by part number gives an ordered permutation of the lines |
| Designators.LetterRunEnd | eagle_automation/components.py:37 | the `[a-zA-Z]+` group ends at the first non-letter |
| Designators.DigitRunEnd | eagle_automation/components.py:37 | the `\d+` group ends at the first non-digit |
| Designators.Strip | eagle_automation/components.py:78 | stripped text neither starts nor ends with white space |
| Designators.PyInt | eagle_automation/components.py:78 | `int()` of the substituted text succeeds exactly when the stripped text is an integer literal |
| Designators.SplitWellFormed | eagle_automation/components.py:72-78 | on letters followed by digits, the prefix substitution gives the letters and the number substitution gives the digits' value |
| Designators.DesignatorRoundTrip | eagle_automation/components.py:72-78 | splitting a designator built from a prefix and `str(n)` gives back that prefix and n |
| Designators.TrailingLetterMalformed | eagle_automation/components.py:72-78 | on "R1A" the substitutions keep the trailing letter, giving prefix "RA" and a number text that `int()` rejects |
| Designators.FirstUnnumbered | eagle_automation/components.py:78 | names the first designator whose number text `int()` rejects; every earlier one is accepted |
| Designators.Numbers | eagle_automation/components.py:78 | all numbers, in order, when every designator has one; otherwise the error of the first one that has none |
| Designators.Tokens | eagle_automation/components.py:81-85 | one token per pair: prefix and number for a single part, prefix and "first-last" for a run |
| Designators.BuildRange | eagle_automation/components.py:65-85 | succeeds exactly on a non-empty list with one prefix and all numbers readable; reports mixed prefixes, an empty list (`part_prefixes[0]`) and a bad number as distinct errors |
| Designators.TokenRoundTrip | eagle_automation/components.py:82-85 | a token parses back to its (first, last) pair |
| Designators.ExpandTokensOfPairs | eagle_automation/components.py:81-85 | expanding the tokens of any pairs gives the integers the pairs cover |
| Designators.BuildRangeRoundTrip | eagle_automation/components.py:65-85 | expanding the compressed designators gives back the sorted part numbers |
| Designators.BuildRangeMaximal | eagle_automation/components.py:81 | with distinct part numbers, no two tokens could be merged into one run |
| Designators.Rendered | eagle_automation/components.py:72-78 | builds designators from a prefix and numbers |
| Designators.RenderedNumbers | eagle_automation/components.py:72-78 | designators built from one prefix share that prefix and read back as their numbers |
| Designators.ExampleSort | eagle_automation/components.py:81 | sorting [3, 1, 2, 5] gives [1, 2, 3, 5] |
| Designators.ExampleRuns | eagle_automation/components.py:66-69 | [1, 2, 3, 5] has the runs (1, 3) and (5, 5) |
| Designators.ExampleTokens | eagle_automation/components.py:82-85 | those runs under prefix R read "R1-3", "R5" |
| Designators.ExampleCompress | eagle_automation/components.py:78-85 | the numbers 3, 1, 2, 5 compress to "R1-3", "R5" |
| Designators.BuildRangeExample | eagle_automation/components.py:65-85 | R3, R1, R2, R5 compress to "R1-3", "R5" |
| Grouping.Find | eagle_automation/components.py:163 | locates the group of a key, or reports that none has it |
| Grouping.Add | eagle_automation/components.py:163 | `setdefault(k, ...).append(v)` appends to the existing group of k, or adds a new group at the end; every other group is unchanged and keys stay distinct |
| Grouping.Group | eagle_automation/components.py:158-165 | grouping gives distinct keys and no more groups than items |
| Grouping.GroupKeysExact | eagle_automation/components.py:158-165 | the group keys are exactly the keys of the items |
| Grouping.GroupContents | eagle_automation/components.py:158-165 | each group holds, in order, exactly the values of the items with its key |
| Grouping.GroupMember | eagle_automation/components.py:163 | every grouped value comes from an item with the group's key |
| Grouping.GroupNonEmpty | eagle_automation/components.py:163 | no group is empty |
| Grouping.GroupTotal | eagle_automation/components.py:158-165 | the group sizes add up to the number of items |
| Catalogue.KeyTestMeansKeySetOk | eagle_automation/components.py:106 | the two-sided set comparison accepts exactly the full key set, with Alternatives optional |
| Catalogue.CheckAlternatives | eagle_automation/components.py:118-126 | passes exactly when every alternative is a mapping with the three part keys |
| Catalogue.CheckRecord | eagle_automation/components.py:105-126 | passes exactly on a well-shaped record; the inconsistent-keys error is raised exactly when the key set is wrong |
| Catalogue.ValidateDb | eagle_automation/components.py:104-126 | passes exactly when every record is well shaped; otherwise fails with the error of the first ill-shaped record in iteration order |
| Catalogue.ValidateDbExact | eagle_automation/components.py:104-126 | when the order lists every key, validation passes exactly on a valid catalogue |
| Catalogue.SaveAsWritten | eagle_automation/components.py:99-102 | the code as written: an invalid catalogue fails validation and leaves the file alone; a valid one truncates the file and then fails on `yaml.save` |
| Catalogue.SaveAsWrittenLosesCatalogue | eagle_automation/components.py:99-102 | a valid one-record catalogue is erased by the code as written and kept by the corrected save |
| Catalogue.Save | eagle_automation/components.py:99-102 | the corrected save writes a valid catalogue to the file and refuses an invalid one without touching the file |
| Catalogue.SaveLoadRoundTrip | eagle_automation/components.py:99-102 | a successful save leaves a file whose content is the catalogue and validates again |
| Catalogue.InsertComponent | eagle_automation/components.py:277-286 | adds the new name only when it is absent, with the given category and description; every existing record is unchanged |
| Catalogue.InsertedComponentRejected | eagle_automation/components.py:281 | a record inserted with `Preferred=[]` fails validation because the Preferred list has no keys |
| Catalogue.Categories | eagle_automation/components.py:169-170 | the category set holds the category of every record and nothing else; a list or mapping Category makes `set()` raise TypeError |
| Catalogue.Items | eagle_automation/components.py:173 | the items are the (key, record) pairs in iteration order |
| Catalogue.PartsFromCategory | eagle_automation/components.py:172-173 | the filter keeps exactly the items of the given category |
| Catalogue.KnownCategoryListed | eagle_automation/components.py:169-173 | every known category lists at least one part |
| Catalogue.ListedCategoryKnown | eagle_automation/components.py:169-173 | a category that lists a part is among the categories whenever they can be collected |
| Catalogue.PartsFromCategoryEmpty | eagle_automation/components.py:169-173 | whenever the categories can be collected, a category lists no part exactly when it is not among them |
| Catalogue.GroupAdjacent | eagle_automation/components.py:178-180 | `groupby` splits the input into non-empty groups that concatenate back to it, every member carrying its group's key |
| Catalogue.GroupAdjacentMaximal | eagle_automation/components.py:178-180 | neighbouring groups have different keys |
| Catalogue.GroupAdjacentNames | eagle_automation/components.py:178-180 | the group names are exactly the keys of the input |
| Catalogue.GroupAdjacentSorted | eagle_automation/components.py:178-180 | on sorted input, group names are strictly increasing, so each key has exactly one group |
| Catalogue.KeysOfPermutation | eagle_automation/components.py:178 | sorting does not change which keys occur |
| Catalogue.ItemCategories | eagle_automation/components.py:169-180 | the keys of the items are exactly the known categories |
| Catalogue.GroupByCategoryNames | eagle_automation/components.py:175-180 | one group per known category, in increasing order |
| Catalogue.GroupByCategoryMembers | eagle_automation/components.py:175-180 | the groups hold every item exactly once, each under its own category |
| PartLines.Lookup | eagle_automation/components.py:63 | a key of the line dict is found exactly when the descriptor carries it |
| PartLines.MergedAttributes | eagle_automation/components.py:159-160 | the technology's attributes updated by the part's own: the part's values win, the key set is the union; an unknown technology is an error |
| PartLines.GetPartLine | eagle_automation/components.py:130-152 | a catalogued part number gives a fitted line with the catalogue's description and Preferred sourcing; otherwise the "Unspecified"/"any" fallback; package, value and device always come from the part |
| PartLines.GetPartLineKeys | eagle_automation/components.py:130-152 | both branches carry every line field; Status exactly on the catalogued branch |
| PartLines.Cell | eagle_automation/components.py:49-63 | Quantity always renders; RefDes renders plainly always and as ranges exactly when the ranges build; any other key renders exactly when the dict has it, else a missing-key error |
| PartLines.FirstBadKey | eagle_automation/components.py:51-63 | names the first key whose cell fails; every earlier cell renders |
| PartLines.GetLine | eagle_automation/components.py:49-63 | succeeds exactly when every requested cell renders, giving them in key order; otherwise fails with the first failing cell's error |
| PartLines.QuantityCounts | eagle_automation/components.py:59-60 | the Quantity cell reads back as the number of inserted parts |
| PartLines.RefDesPlainRoundTrip | eagle_automation/components.py:56-57 | the plain RefDes cell splits back into the inserted part names |
| PartLines.DescriptorCell | eagle_automation/components.py:62-63 | a descriptor key renders as the descriptor's value |
| PartLines.FirstUnbuilt | eagle_automation/components.py:158-163 | names the first part whose technology is unknown or whose line cannot be hashed; every earlier part gets through the loop |
| PartLines.Keyed | eagle_automation/components.py:158-161 | pairs each part's descriptor with its name, in order |
| PartLines.Entries | eagle_automation/components.py:158-163 | gives every part's (descriptor, name) when every part gets through the loop; otherwise the first failing part raises KeyError for an unknown technology, or TypeError when its line holds a list or mapping |
| PartLines.Lines | eagle_automation/components.py:163-165 | one part line per group, holding the group's descriptor and names |
| PartLines.BuildBom | eagle_automation/components.py:154-165 | succeeds exactly when every part's technology is known and every line can be hashed; otherwise reports the first failing part's error |
| PartLines.ScalarCatalogueBuilds | eagle_automation/components.py:154-165 | with a catalogue of scalar values, building fails only on an unknown technology |
| PartLines.UnhashableDescriptionFails | eagle_automation/components.py:158-163 | a valid catalogue whose Description is a list or mapping makes `hash(part_line)` raise TypeError |
| PartLines.BuildBomDistinct | eagle_automation/components.py:163 | no two lines share a descriptor |
| PartLines.BuildBomDescriptors | eagle_automation/components.py:158-165 | the line descriptors are exactly the descriptors of the parts |
| PartLines.BuildBomLines | eagle_automation/components.py:163 | each line holds, in order, the names of exactly the parts with its descriptor |
| PartLines.BuildBomQuantity | eagle_automation/components.py:158-165 | the line quantities add up to the number of parts |
| PartLines.BuildBomNonEmpty | eagle_automation/components.py:163 | every line has at least one part |
| PartLines.TotalOfLines | eagle_automation/components.py:163-165 | the quantities of the lines equal the sizes of the groups |
| BomOutput.StripDot | eagle_automation/bom_output.py:40-41 | a leading dot is removed and nothing else changes |
| BomOutput.Register | eagle_automation/bom_output.py:36-44 | every listed extension, without its dot, maps to the class; other registrations are untouched |
| BomOutput.RegisteredOne | eagle_automation/bom_output.py:39-42 | a single extension registers as itself without its dot |
| BomOutput.DefaultRegistryContents | eagle_automation/bom_output.py:62-171 | the five backends register csv, json, yaml, xlsx and ods |
| BomOutput.RegisterReplaces | eagle_automation/bom_output.py:41-42 | a later registration of an extension replaces the earlier one |
| BomOutput.OpenBackend | eagle_automation/bom_output.py:51-53 | opening a backend starts it empty, at line 0 |
| BomOutput.WriteBackend | eagle_automation/bom_output.py:143-153 | a row is appended; an XLSX backend styles it title, shaded or plain by header flag and line parity, and advances its line |
| BomOutput.FirstUnsupported | eagle_automation/bom_output.py:14-21 | names the first path whose extension no backend handles |
| BomOutput.NewWriter | eagle_automation/bom_output.py:14-21 | one backend per path, in order, chosen by the lower-cased extension; an unknown extension is an error naming it |
| BomOutput.FirstRefused | eagle_automation/bom_output.py:23-30 | names the first output whose open or close fails |
| BomOutput.RunSweep | eagle_automation/bom_output.py:23-30 | the open and close loops succeed exactly when no output refuses, and then step every output; otherwise they fail on the first refusal |
| BomOutput.RunSweepFail | eagle_automation/bom_output.py:23-30 | outputs before the refusing one have been stepped, and it and later ones are left as they were |
| BomOutput.ExitStopsAtFailure | eagle_automation/bom_output.py:28-30 | once a close fails, `__exit__` fails and every later output stays open |
| BomOutput.WriteRow | eagle_automation/bom_output.py:32-34 | a row goes to every backend, in order |
| BomOutput.WriteRows | eagle_automation/bom_output.py:32-34 | writing rows keeps every backend open and their number unchanged |
| BomOutput.StylesOfAt | eagle_automation/bom_output.py:143-153 | the k-th row written from line n gets the style of header flag and line n + k |
| BomOutput.WriteRowsEach | eagle_automation/bom_output.py:32-34 | writing rows to the writer is writing them to each backend on its own |
| BomOutput.WriteAllContents | eagle_automation/bom_output.py:32-34 | a backend receives exactly the written rows, in order |
| BomOutput.WriteAllLines | eagle_automation/bom_output.py:141-153 | an XLSX backend counts one line per row and styles each by its line |
| BomOutput.WriteAllNoLines | eagle_automation/bom_output.py:62-121 | the other backends keep no line counter or styles |
| BomOutput.Session | eagle_automation/bom_output.py:14-34 | a `with` block succeeds exactly when every extension is supported and no open or close fails |
| BomOutput.SessionOutputs | eagle_automation/bom_output.py:88-121 | after the block, every backend is closed at its path, and a JSON or YAML output holds exactly the rows written |
| BomOutput.SessionStyles | eagle_automation/bom_output.py:141-153 | after the block, an XLSX output has one styled line per row, each styled by its header flag and line number |
| BomOutput.SessionBackend | eagle_automation/bom_output.py:14-34 | each output is its backend opened, written with all rows and closed |
| BomExport.Framed | eagle_automation/export.py:240-253 | the header is written first with `header=True`, then each data row |
| BomExport.Emit | eagle_automation/bom_output.py:14-34 | the writer is built and opened before any row, so an unsupported path or refused open wins; a table error ends the block through `__exit__`, where a failing close replaces it |
| BomExport.EmitOutputs | eagle_automation/bom_output.py:88-121 | a successful block leaves every output closed, and a JSON or YAML output holds the header then the table |
| BomExport.EmitStyles | eagle_automation/bom_output.py:143-153 | an XLSX output has the header as title at line 0, then data lines shaded on even and plain on odd line numbers |
| BomExport.RenderableIff | eagle_automation/export.py:245-251 | the seven cells of a part line render exactly when its designators compress; otherwise the error is the compression's |
| BomExport.DescriptorCellOk | eagle_automation/components.py:130-152 | every descriptor cell the exporter asks for exists on both branches of a line |
| BomExport.FirstUnrenderable | eagle_automation/export.py:244-253 | names the first line whose designators do not compress |
| BomExport.NumberedRows | eagle_automation/export.py:244-253 | row i is `str(first + i)` followed by the line's cells; the first line that cannot render decides the error |
| BomExport.BomRows | eagle_automation/export.py:244-253 | succeeds exactly when every part builds and every line renders, otherwise the first failing part's error comes first; one row per line |
| BomExport.SortedRenderable | eagle_automation/export.py:244 | sorting lines does not change whether all of them render |
| BomExport.BomRowCells | eagle_automation/export.py:242-253 | row i reads back as number i + 1, part number, quantity, fitted flag, manufacturer, reference, description and compressed designators of the i-th line by part number |
| BomExport.BomRowIs | eagle_automation/export.py:244-253 | row i is its number followed by `get_line` of the i-th sorted line |
| BomExport.LineCells | eagle_automation/components.py:49-63 | the seven cells of a renderable line, key by key |
| BomExport.BomRowsOrdered | eagle_automation/export.py:244 | the rows are in non-decreasing part-number order |
| BomExport.BomRowsLines | eagle_automation/export.py:244 | the sorted lines are a permutation of the built lines, one row each |
| BomExport.Export | eagle_automation/export.py:238-255 | an invalid catalogue fails with the validation error of the first ill-shaped record in `order` before anything is written; otherwise the export succeeds exactly when the rows build and every output opens and closes |
| BomExport.ExportOutputs | eagle_automation/export.py:238-255 | every JSON or YAML output holds the header and then one row per part line |
| LegacyBom.StripLetters | eagle_automation/export.py:190 | removing `[a-zA-Z]*` leaves no letter and never lengthens the text |
| LegacyBom.StripLettersAppend | eagle_automation/export.py:190 | letter removal works piece by piece |
| LegacyBom.LegacyNumber | eagle_automation/export.py:190 | the designator's number exists exactly when the letter-free, stripped text is an integer literal |
| LegacyBom.LegacyNumberWellFormed | eagle_automation/export.py:190 | letters followed by digits read as the digits' value |
| LegacyBom.StripDesignator | eagle_automation/export.py:190 | removing letters from letters followed by digits leaves the digits |
| LegacyBom.LegacyNumberTrailingLetter | eagle_automation/export.py:190 | "R1A" reads as 1 here, while the pyeagle exporter's designator regex rejects it |
| LegacyBom.LegacyNumberSpaceAfterSign | eagle_automation/export.py:190 | the designator "R- 5" reads as -5 |
| LegacyBom.FirstLegacyUnnumbered | eagle_automation/export.py:190 | names the first device whose designator has no number |
| LegacyBom.LegacyNumbers | eagle_automation/export.py:190 | all device numbers, in order, or the error of the first device without one |
| LegacyBom.TokenCommaFree | eagle_automation/export.py:195 | a range token holds no comma |
| LegacyBom.RangeTextRoundTrip | eagle_automation/export.py:190-195 | splitting the Devices text on commas and expanding each token gives back the device numbers in their original order |
| LegacyBom.RangeTextUnsorted | eagle_automation/export.py:190 | the numbers are not sorted first: [2, 1] gives "2,1" while [1, 2] gives "1-2" |
| LegacyBom.KeyedBy | eagle_automation/export.py:176-177 | pairs each device with its prefix, package or value |
| LegacyBom.ValueGroups | eagle_automation/export.py:188 | one group per value under a given prefix and package |
| LegacyBom.LegacyGroupsDevices | eagle_automation/export.py:175-188 | the groups hold as many devices as the ULP listed |
| LegacyBom.GroupByMembers | eagle_automation/export.py:177 | every grouped device comes from the input and carries the group's field |
| LegacyBom.GroupByCovers | eagle_automation/export.py:177 | every device lands in some group |
| LegacyBom.LegacyItemGrouped | eagle_automation/export.py:175-188 | every device of the ULP output appears in some prefix/package/value group |
| LegacyBom.LegacyGroupsFaithful | eagle_automation/export.py:175-188 | every device of a group has the group's prefix, package and value, and comes from the input |
| LegacyBom.LegacyGroupsNonEmpty | eagle_automation/export.py:175-188 | no prefix/package/value group is empty, so every row has a first device to take the description from |
| LegacyBom.LegacyRow | eagle_automation/export.py:190-196 | a group's row has six cells with Nb equal to its device count; it fails exactly when some designator has no number |
| LegacyBom.LegacyRows | eagle_automation/export.py:184-197 | one row per group in order; otherwise the error of a group with an unnumbered device, every earlier group being numbered |
| LegacyBom.LegacyTable | eagle_automation/export.py:175-197 | the table builds exactly when every device is numbered, one row per group |
| LegacyBom.LegacyTableNumbered | eagle_automation/export.py:175-190 | every group is numbered exactly when every device is |
| LegacyBom.LegacyTableIsRows | eagle_automation/export.py:175-197 | the table is the rows of the prefix/package/value groups |
| LegacyBom.NbSumOfRows | eagle_automation/export.py:194 | the Nb column adds up to the number of devices in the groups |
| LegacyBom.LegacyNbTotal | eagle_automation/export.py:175-197 | the Nb column adds up to the number of devices the ULP listed |
| LegacyBom.LegacyRowCells | eagle_automation/export.py:191-196 | a row is prefix, package, value, device count, the Devices range text and the first device's description |
| LegacyBom.LegacyExport | eagle_automation/export.py:169-197 | the legacy BOM is written exactly when every designator is numbered and every output is supported, opens and closes |
| LegacyBom.LegacyExportOutputs | eagle_automation/export.py:179-197 | a JSON or YAML output holds the legacy header and then one row per group |
| Scripts.Zip | eagle_automation/export.py:121 | `zip` pairs positions up to the shorter list |
| Scripts.Distinct | eagle_automation/export.py:308 | building the set keeps every element once and no other |
| Scripts.PdfLayers | eagle_automation/export.py:308 | the PDF layers are the union of the requested and the document layers, each once |
| Scripts.LayerCommands | eagle_automation/export.py:121-128 | three commands per output |
| Scripts.FirstRejected | eagle_automation/export.py:122 | names the first PNG output path that does not end in ".png" |
| Scripts.Body | eagle_automation/export.py:121-128 | three commands per (layers, output) pair; a PNG output without ".png" fails |
| Scripts.BodyAt | eagle_automation/export.py:121-128 | command 3k + m of the body is command m of the k-th pair |
| Scripts.Head | eagle_automation/export.py:109-119 | a board gives "DISPLAY ALL", "RATSNEST"; a schematic is accepted only by PNG; anything else is a bad extension |
| Scripts.PictureScript | eagle_automation/export.py:105-130 | the PNG and PDF scripts build exactly for an accepted extension and accepted outputs; their length is the head plus three per output |
| Scripts.PictureScriptCommands | eagle_automation/export.py:121-128 | the k-th output's three commands, spelled out: DISPLAY None, DISPLAY of its layers, and the PNG or PDF export command |
| Scripts.PictureScriptSlice | eagle_automation/export.py:121-128 | the k-th output's commands sit right after the head, at offset 3k |
| Scripts.DpiText | eagle_automation/config.py:64 | the resolution renders as "400" |
| Scripts.PngSchematicShape | eagle_automation/export.py:114-117 | a schematic PNG script starts with "EDIT .s<page>" and has one more command than three per output |
| Scripts.DirectoryScript | eagle_automation/export.py:281-290 | a library gives one "EXPORT DIRECTORY <first output>" command; other inputs are a bad extension and no output is an error |
| Scripts.LegacyBomScript | eagle_automation/export.py:199-227 | only a schematic is accepted; there must be an output, and only the last one is checked for a double quote; the script runs the ULP and the BOM paths are the zipped outputs |
| Scripts.LegacyBomScriptChecksLast | eagle_automation/export.py:213 | a double quote in an earlier output path is not caught |
| Scripts.WriteScript | eagle_automation/export.py:65-70 | a successful script is never empty |
| Scripts.ScriptStringRoundTrip | eagle_automation/export.py:80-82 | the `-C` argument splits back into the commands followed by QUIT when no command holds a `;` |
| Scripts.EagleCommand | eagle_automation/export.py:65-84 | the command line exists exactly when the script builds: eagle, `-C` with the script, then the input path |
| Scripts.EagleCommandScript | eagle_automation/export.py:80-84 | the `-C` argument reads back as the script's commands followed by QUIT |
| Scripts.PngScriptSeparable | eagle_automation/export.py:105-130 | with `;`-free layer names and paths, no PNG command contains a `;` |
| Values.Cells | eagle_automation/export.py:181 | a header row is the column names as string cells, in order |

## Left out

- File and library I/O:
  - Reading the YAML catalogue and loading the schematic with pyeagle are
    left out. The catalogue is a map and the placed parts are a sequence.
  - The input-file check at export.py:67 is not modelled.
  - Reading the ULP's `bom.json` is left out, and its items are a sequence.
  - The bytes the CSV, JSON, YAML, XLSX and ODS libraries produce are left
    out. A backend records the rows and, for XLSX, the line styles.
  - The CSV delimiter and the ODS sheet calls are not modelled.
- Processes and the file system:
  - The subprocess that runs EAGLE is left out.
  - The output-file unlink before export, the temporary ULP directory,
    writing the ULP template and `clean()` are left out.
  - The model stops at the argument vector.
- Other parts of the repository are outside this core:
  - CAM export and the command-line parser.
  - The other catalogue commands: alternative, show, list.
  - diff.py, drill.py and pea.py.
- EagleBOMExport (export.py:258-273) is left out. It falls back between the
  two BOM exporters by catching exceptions.
- Python dict iteration order is left out because it is unspecified.
  Validation takes an `order` parameter instead; the BOM lines and the legacy
  groups take first-occurrence order.
- Parts whose device has no package are left out. `PlacedPart.package` is
  a plain string, so such a part cannot be represented. The ULP template
  skips these parts (export.py:152). `get_part_line` reads
  `part.device.package.name` without a guard (components.py:136 and :145).
  pyeagle is not part of this model, so what it yields for a missing
  package, and so which error would follow, is not known here.
- Python hash values and their collisions are left out. `build_bom` keys
  its dict by `hash(tuple(self.values()))`. The model groups by descriptor
  equality, which agrees when no two distinct descriptors collide. The
  TypeError the hash raises on a list or mapping value is modelled.
- Python 2's mixed-type comparison in `sorted` is left out. Part numbers are
  strings.
- Catalogue.GroupByCategoryNames: holds for catalogues whose every Category
  is a string, and `GroupByCategory` requires this. Python 2 sorts values of
  different types by type name, and integers with booleans by value. That
  ordering is not modelled.
- Catalogue.GroupByCategoryMembers: holds for string categories only, for
  the same reason.
- Output that only informs the user is left out:
  - the `print` calls of the legacy exporter (export.py:185, 187, 189);
  - ComponentInsert's confirmation (components.py:286);
  - the log messages, e.g. export.py:255.
- The configuration values EAGLE, DPI and DOCUMENT_LAYERS are fixed to
  their config.py defaults (`Scripts.Eagle`, `Scripts.Dpi`,
  `Scripts.DocumentLayers`). The `-c <name=value>` option of pea.py:7 that
  overrides them is not modelled.
- A table error part-way through a `with` block is modelled only as its
  error. The rows already written before it, and what a JSON or YAML
  backend flushes of them on close, are not modelled.
- config.PARTNUM does not appear in config.py. The attribute key for the
  part number is the parameter `partnumKey`.
- Scripts.PdfLayers: states only that each layer of the union appears
  exactly once, not the order. The order of a Python set is unspecified.
- Scripts.WriteScript: states only that a successful script is non-empty.
  The per-exporter contracts are on PictureScript, DirectoryScript and
  LegacyBomScript.
- PartLines.GetPartLine: requires a valid catalogue. The catalogue is
  validated when it is loaded, before any part line is built.
- BomOutput.WriteRow: requires every backend to be open. Rows are written
  only inside the `with` block, after every open has succeeded.
- Catalogue.Categories: the set is a set of model values, so `Int(1)` and
  `Bool(true)` are two categories. Python's `set()` merges them, because
  `1 == True` and both hash alike. A catalogue with `Category: 1` on one
  record and `Category: yes` on another therefore has one category in Python
  and two here. `PartsFromCategory` compares with the model's equality in
  the same way, where Python's `==` would match both.
- YAML null and floating-point values have no `Value` constructor. An empty
  `Alternatives:` or `Category: 1.5` cannot be represented. The code uses
  `None` only in ways the other scalars share: it is falsy, not iterable,
  has no `keys()`, and is hashable.

## Findings

| source | as written | input that shows it | evidently intended | confidence | as-written member | corrected member |
|---|---|---|---|---|---|---|
| eagle_automation/components.py:99-102 | `save` opens the catalogue file for writing, which truncates it, and then calls `yaml.save`, which PyYAML does not provide, so an AttributeError follows | any valid catalogue, e.g. one record "900001" | write the catalogue with `yaml.dump`, keeping the file's content equal to the catalogue | not executed | Catalogue.SaveAsWritten, Catalogue.SaveAsWrittenLosesCatalogue | Catalogue.Save, Catalogue.SaveLoadRoundTrip |

The model also keeps several behaviours of the code as written that a
reader might not expect. None is corrected:

- An inserted component has `Preferred=[]` and so fails validation
  (`Catalogue.InsertedComponentRejected`).
- An empty designator list fails at `part_prefixes[0]`
  (`Designators.BuildRange`, error `NoDesignators`).
- The legacy exporter does not sort device numbers before compressing them
  (`LegacyBom.RangeTextUnsorted`).
- The two exporters read "R1A" differently (`LegacyBom.LegacyNumberTrailingLetter`,
  `Designators.TrailingLetterMalformed`).
- The legacy script checks only the last output path for a double quote
  (`Scripts.LegacyBomScriptChecksLast`).

=== FILE: bom_output.dfy ===
/** eagle_automation/bom_output.py: the extension-keyed registry of output
    formats and BOMWriter, the fan-out writer that drives one backend per
    output path. Backends are modelled by the state they keep (the rows they
    received, the XLSX line counter and cell formats), not by the bytes the
    output libraries produce. */
module BomOutput {
  import opened Results
  import opened Values
  import opened Common

  datatype Format = Csv | Json | Yaml | Xlsx | Ods

  /** `BOMWriter.extensions`: extension without its dot, to format. */
  type Registry = map<string, Format>

  /* ---------------------------------------------------------------- register */

  /** One leading dot is dropped from a registered extension. */
  function StripDot(e: string): (r: string)
    ensures |e| > 0 && e[0] == '.' ==> e == "." + r
    ensures !(|e| > 0 && e[0] == '.') ==> r == e
  {
    if |e| > 0 && e[0] == '.' then e[1..] else e
  }

  function Registered(exts: seq<string>): set<string>
  {
    set i | 0 <= i < |exts| :: StripDot(exts[i])
  }

  /** `BOMWriter.register(*exts)` applied to a class of format `f`; a later
      registration of the same extension replaces an earlier one. */
  function Register(reg: Registry, exts: seq<string>, f: Format): (r: Registry)
    ensures r.Keys == reg.Keys + Registered(exts)
    ensures forall e :: e in Registered(exts) ==> r[e] == f
    ensures forall e :: e in reg && e !in Registered(exts) ==> r[e] == reg[e]
    decreases |exts|
  {
    if |exts| == 0 then reg
    else
      var r := Register(reg[StripDot(exts[0]) := f], exts[1..], f);
      assert Registered(exts) == {StripDot(exts[0])} + Registered(exts[1..]) by {
        assert forall i :: 1 <= i < |exts| ==> exts[i] == exts[1..][i - 1];
        assert forall i :: 0 <= i < |exts[1..]| ==> exts[1..][i] == exts[i + 1];
      }
      r
  }

  /** The registrations of the module, in declaration order. */
  function DefaultRegistry(): Registry
  {
    var r := Register(map[], [".csv"], Csv);
    var r := Register(r, [".json"], Json);
    var r := Register(r, [".yaml"], Yaml);
    var r := Register(r, [".xlsx"], Xlsx);
    Register(r, [".ods"], Ods)
  }

  lemma {:induction false} RegisteredOne(e: string)
    ensures Registered([e]) == {StripDot(e)}
  {
    assert [e][0] == e;
  }

  /** The module registers exactly five extensions, each to its own backend. */
  lemma {:induction false} DefaultRegistryContents()
    ensures DefaultRegistry() == map["csv" := Csv, "json" := Json, "yaml" := Yaml, "xlsx" := Xlsx, "ods" := Ods]
  {
    RegisteredOne(".csv");
    RegisteredOne(".json");
    RegisteredOne(".yaml");
    RegisteredOne(".xlsx");
    RegisteredOne(".ods");
    assert StripDot(".csv") == "csv";
    assert StripDot(".json") == "json";
    assert StripDot(".yaml") == "yaml";
    assert StripDot(".xlsx") == "xlsx";
    assert StripDot(".ods") == "ods";
  }

  /** Registering an extension again hands it to the newer class. */
  lemma {:induction false} RegisterReplaces(reg: Registry, e: string, f: Format, g: Format)
    ensures Register(Register(reg, [e], f), [e], g)[StripDot(e)] == g
  {
    RegisteredOne(e);
  }

  /* ---------------------------------------------------------------- backends */

  datatype Phase = Created | Opened | Closed

  /** The cell format of an XLSX row: the title format for a header, the
      alternate shading on even lines, none otherwise. */
  datatype Style = Title | Shaded | Plain

  /** One output backend: the path it writes, its format, where it is in its
      life cycle, the rows it has received, and for XLSX the format chosen
      for each row and the line counter. */
  datatype Backend = Backend(
    path: string,
    format: Format,
    phase: Phase,
    rows: seq<Row>,
    styles: seq<Style>,
    line: nat)

  function StyleFor(header: bool, line: nat): Style
  {
    if header then Title else if line % 2 == 0 then Shaded else Plain
  }

  /** `open()`: the file is opened and the buffers and counter start empty. */
  function OpenBackend(b: Backend): (r: Backend)
    ensures r.path == b.path && r.format == b.format
    ensures r.phase == Opened && r.rows == [] && r.styles == [] && r.line == 0
  {
    b.(phase := Opened, rows := [], styles := [], line := 0)
  }

  /** `writerow(row, header)`. */
  function WriteBackend(b: Backend, row: Row, header: bool): (r: Backend)
    ensures r.path == b.path && r.format == b.format && r.phase == b.phase
    ensures r.rows == b.rows + [row]
    ensures b.format == Xlsx ==> r.line == b.line + 1 && r.styles == b.styles + [StyleFor(header, b.line)]
    ensures b.format != Xlsx ==> r.line == b.line && r.styles == b.styles
  {
    if b.format == Xlsx then
      b.(rows := b.rows + [row], styles := b.styles + [StyleFor(header, b.line)], line := b.line + 1)
    else
      b.(rows := b.rows + [row])
  }

  /** `close()`. */
  function CloseBackend(b: Backend): (r: Backend)
    ensures r == b.(phase := Closed)
  {
    b.(phase := Closed)
  }

  /** What a closed JSON or YAML backend writes out: its whole buffer. */
  function Emitted(b: Backend): (r: seq<Row>)
    requires b.format == Json || b.format == Yaml
    requires b.phase == Closed
  {
    b.rows
  }

  /* ---------------------------------------------------------------- BOMWriter */

  predicate AllSupported(reg: Registry, paths: seq<string>)
  {
    forall i :: 0 <= i < |paths| ==> GetExtension(paths[i]) in reg
  }

  function FirstUnsupported(reg: Registry, paths: seq<string>): (i: nat)
    requires !AllSupported(reg, paths)
    ensures i < |paths| && GetExtension(paths[i]) !in reg
    ensures forall j :: 0 <= j < i ==> GetExtension(paths[j]) in reg
  {
    if GetExtension(paths[0]) !in reg then 0
    else
      var i := FirstUnsupported(reg, paths[1..]);
      assert paths[..i + 1] == [paths[0]] + paths[1..][..i];
      i + 1
  }

  /** `BOMWriter(paths)`: one backend per path, in path order, none of them
      opened; the first path whose extension is not registered raises. */
  function NewWriter(reg: Registry, paths: seq<string>): (r: Result<seq<Backend>>)
    ensures r.Ok? <==> AllSupported(reg, paths)
    ensures r.Ok? ==> |r.value| == |paths|
                      && forall i :: 0 <= i < |paths| ==>
                           r.value[i] == Backend(paths[i], reg[GetExtension(paths[i])], Created, [], [], 0)
    ensures r.Err? ==> r.error == UnsupportedFormat(GetExtension(paths[FirstUnsupported(reg, paths)]))
  {
    if |paths| == 0 then Ok([])
    else
      var ext := GetExtension(paths[0]);
      if ext !in reg then Err(UnsupportedFormat(ext))
      else
        var rest :- NewWriter(reg, paths[1..]);
        assert forall i :: 1 <= i < |paths| ==> paths[1..][i - 1] == paths[i];
        Ok([Backend(paths[0], reg[ext], Created, [], [], 0)] + rest)
  }

  /** The two sweeps over the backends: `__enter__` opens, `__exit__` closes. */
  datatype Sweep = Opening | Closing

  function Step(s: Sweep, b: Backend): Backend
  {
    match s
    case Opening => OpenBackend(b)
    case Closing => CloseBackend(b)
  }

  function StepFailed(s: Sweep, path: string): Error
  {
    match s
    case Opening => OpenFailed(path)
    case Closing => CloseFailed(path)
  }

  /** No backend's path is among the paths the file system refuses. */
  predicate NoneRefused(ws: seq<Backend>, refused: set<string>)
  {
    forall i :: 0 <= i < |ws| ==> ws[i].path !in refused
  }

  function FirstRefused(ws: seq<Backend>, refused: set<string>): (k: nat)
    requires !NoneRefused(ws, refused)
    ensures k < |ws| && ws[k].path in refused
    ensures forall j :: 0 <= j < k ==> ws[j].path !in refused
  {
    if ws[0].path in refused then 0
    else
      var k := FirstRefused(ws[1..], refused);
      assert forall j :: 1 <= j <= k ==> ws[j] == ws[1..][..k][j - 1];
      k + 1
  }

  /** Opens or closes every backend in order, with no guard: the first
      backend whose file operation fails raises, and the backends after it are
      left as they were. `refused` is the set of paths whose operation fails. */
  function RunSweep(s: Sweep, ws: seq<Backend>, refused: set<string>): (r: (seq<Backend>, Outcome<Error>))
    ensures |r.0| == |ws|
    ensures r.1.Pass? <==> NoneRefused(ws, refused)
    ensures r.1.Pass? ==> forall i :: 0 <= i < |ws| ==> r.0[i] == Step(s, ws[i])
    ensures r.1.Fail? ==> r.1.error == StepFailed(s, ws[FirstRefused(ws, refused)].path)
  {
    if |ws| == 0 then ([], Pass)
    else if ws[0].path in refused then (ws, Fail(StepFailed(s, ws[0].path)))
    else
      var rest := RunSweep(s, ws[1..], refused);
      var out := [Step(s, ws[0])] + rest.0;
      assert forall i :: 1 <= i < |ws| ==> ws[1..][i - 1] == ws[i] && out[i] == rest.0[i - 1];
      (out, rest.1)
  }

  /** A failed sweep has stepped every backend before the first refused one
      and left that one and every later one as it was. */
  lemma {:induction false} RunSweepFail(s: Sweep, ws: seq<Backend>, refused: set<string>, j: nat)
    requires !NoneRefused(ws, refused)
    requires j < |ws|
    ensures j < FirstRefused(ws, refused) ==> RunSweep(s, ws, refused).0[j] == Step(s, ws[j])
    ensures j >= FirstRefused(ws, refused) ==> RunSweep(s, ws, refused).0[j] == ws[j]
    decreases j
  {
    if ws[0].path !in refused && j > 0 {
      RunSweepFail(s, ws[1..], refused, j - 1);
      assert ws[j] == ws[1..][j - 1];
    }
  }

  /** `__enter__`. */
  function Enter(ws: seq<Backend>, refused: set<string>): (r: (seq<Backend>, Outcome<Error>))
  {
    RunSweep(Opening, ws, refused)
  }

  /** `__exit__`. */
  function Exit(ws: seq<Backend>, refused: set<string>): (r: (seq<Backend>, Outcome<Error>))
  {
    RunSweep(Closing, ws, refused)
  }

  /** A close that fails leaves every later backend unclosed. */
  lemma {:induction false} ExitStopsAtFailure(ws: seq<Backend>, refused: set<string>, i: nat)
    requires i < |ws| && ws[i].path in refused
    requires forall j :: 0 <= j < |ws| ==> ws[j].phase == Opened
    ensures Exit(ws, refused).1.Fail?
    ensures forall j :: i < j < |ws| ==> Exit(ws, refused).0[j].phase == Opened
  {
    forall j | i < j < |ws|
      ensures Exit(ws, refused).0[j].phase == Opened
    {
      RunSweepFail(Closing, ws, refused, j);
    }
  }

  predicate AllOpened(ws: seq<Backend>)
  {
    forall i :: 0 <= i < |ws| ==> ws[i].phase == Opened
  }

  /** `writerow(row, header)`: the same row and header flag go to every
      backend, in order. Rows are only written inside the `with` block, after
      every backend was opened. */
  function WriteRow(ws: seq<Backend>, row: Row, header: bool): (r: seq<Backend>)
    requires AllOpened(ws)
    ensures AllOpened(r)
    ensures |r| == |ws|
    ensures forall i :: 0 <= i < |ws| ==> r[i] == WriteBackend(ws[i], row, header)
  {
    seq(|ws|, i requires 0 <= i < |ws| => WriteBackend(ws[i], row, header))
  }

  /** A sequence of `writerow` calls, each a row and its header flag. */
  function WriteRows(ws: seq<Backend>, rows: seq<(Row, bool)>): (r: seq<Backend>)
    requires AllOpened(ws)
    ensures AllOpened(r)
    ensures |r| == |ws|
    decreases |rows|
  {
    if |rows| == 0 then ws
    else WriteRows(WriteRow(ws, rows[0].0, rows[0].1), rows[1..])
  }

  function RowsOf(rows: seq<(Row, bool)>): (r: seq<Row>)
    ensures |r| == |rows|
    ensures forall k :: 0 <= k < |rows| ==> r[k] == rows[k].0
  {
    seq(|rows|, k requires 0 <= k < |rows| => rows[k].0)
  }

  /** The XLSX format of each written row, `line` being the counter before the first. */
  function StylesOf(rows: seq<(Row, bool)>, line: nat): (r: seq<Style>)
    ensures |r| == |rows|
    decreases |rows|
  {
    if |rows| == 0 then [] else [StyleFor(rows[0].1, line)] + StylesOf(rows[1..], line + 1)
  }

  /** Row `k` is formatted by its own header flag and the parity of line `line + k`. */
  lemma {:induction false} StylesOfAt(rows: seq<(Row, bool)>, line: nat, k: nat)
    requires k < |rows|
    ensures StylesOf(rows, line)[k] == StyleFor(rows[k].1, line + k)
    decreases k
  {
    if k > 0 {
      StylesOfAt(rows[1..], line + 1, k - 1);
    }
  }

  /** The rows as one backend receives them. */
  function WriteAll(b: Backend, rows: seq<(Row, bool)>): Backend
    decreases |rows|
  {
    if |rows| == 0 then b else WriteAll(WriteBackend(b, rows[0].0, rows[0].1), rows[1..])
  }

  /** The fan-out gives every backend the same rows. */
  lemma {:induction false} WriteRowsEach(ws: seq<Backend>, rows: seq<(Row, bool)>, i: nat)
    requires AllOpened(ws)
    requires i < |ws|
    ensures WriteRows(ws, rows)[i] == WriteAll(ws[i], rows)
    decreases |rows|
  {
    if |rows| > 0 {
      var ws' := WriteRow(ws, rows[0].0, rows[0].1);
      WriteRowsEach(ws', rows[1..], i);
    }
  }

  /** What a backend holds after a sequence of rows: every row, header rows
      included, in write order. */
  lemma {:induction false} WriteAllContents(b: Backend, rows: seq<(Row, bool)>)
    ensures var r := WriteAll(b, rows);
            r.path == b.path && r.format == b.format && r.phase == b.phase && r.rows == b.rows + RowsOf(rows)
    decreases |rows|
  {
    if |rows| > 0 {
      var b' := WriteBackend(b, rows[0].0, rows[0].1);
      WriteAllContents(b', rows[1..]);
      assert RowsOf(rows) == [rows[0].0] + RowsOf(rows[1..]);
    }
  }

  /** The XLSX counter advances by one per row, and each row is formatted by
      its header flag and the parity of its line. */
  lemma {:induction false} WriteAllLines(b: Backend, rows: seq<(Row, bool)>)
    requires b.format == Xlsx
    ensures WriteAll(b, rows).line == b.line + |rows|
    ensures WriteAll(b, rows).styles == b.styles + StylesOf(rows, b.line)
  {
    WriteAllCount(b, rows);
    WriteAllStyles(b, rows);
  }

  lemma {:induction false} WriteAllCount(b: Backend, rows: seq<(Row, bool)>)
    requires b.format == Xlsx
    ensures WriteAll(b, rows).line == b.line + |rows|
    decreases |rows|
  {
    if |rows| > 0 {
      WriteAllCount(WriteBackend(b, rows[0].0, rows[0].1), rows[1..]);
    }
  }

  lemma {:induction false} WriteAllStyles(b: Backend, rows: seq<(Row, bool)>)
    requires b.format == Xlsx
    ensures WriteAll(b, rows).styles == b.styles + StylesOf(rows, b.line)
    decreases |rows|
  {
    if |rows| > 0 {
      var b' := WriteBackend(b, rows[0].0, rows[0].1);
      var first := StyleFor(rows[0].1, b.line);
      WriteAllStyles(b', rows[1..]);
      assert (b.styles + [first]) + StylesOf(rows[1..], b.line + 1)
          == b.styles + ([first] + StylesOf(rows[1..], b.line + 1));
    }
  }

  /** The other backends keep no counter. */
  lemma {:induction false} WriteAllNoLines(b: Backend, rows: seq<(Row, bool)>)
    requires b.format != Xlsx
    ensures WriteAll(b, rows).line == b.line && WriteAll(b, rows).styles == b.styles
    decreases |rows|
  {
    if |rows| > 0 {
      WriteAllNoLines(WriteBackend(b, rows[0].0, rows[0].1), rows[1..]);
    }
  }

  /** A whole `with BOMWriter(paths)` block: construct, open, write the rows,
      close. Opening fails for the paths in `openRefused`, closing for those
      in `closeRefused`; a failed open skips the rows and the closes. */
  function Session(reg: Registry, paths: seq<string>, rows: seq<(Row, bool)>,
                   openRefused: set<string>, closeRefused: set<string>): (r: Result<seq<Backend>>)
    ensures r.Ok? ==> |r.value| == |paths|
    ensures r.Ok? <==> && AllSupported(reg, paths)
                       && (forall i :: 0 <= i < |paths| ==> paths[i] !in openRefused)
                       && (forall i :: 0 <= i < |paths| ==> paths[i] !in closeRefused)
  {
    var ws :- NewWriter(reg, paths);
    assert forall i :: 0 <= i < |paths| ==> ws[i].path == paths[i];
    var entered := Enter(ws, openRefused);
    if entered.1.Fail? then Err(entered.1.error)
    else
      var written := WriteRows(entered.0, rows);
      WritePreservesPaths(entered.0, rows);
      var exited := Exit(written, closeRefused);
      if exited.1.Fail? then Err(exited.1.error)
      else Ok(exited.0)
  }

  lemma {:induction false} WritePreservesPaths(ws: seq<Backend>, rows: seq<(Row, bool)>)
    requires AllOpened(ws)
    ensures forall i :: 0 <= i < |ws| ==> WriteRows(ws, rows)[i].path == ws[i].path
  {
    forall i | 0 <= i < |ws|
      ensures WriteRows(ws, rows)[i].path == ws[i].path
    {
      WriteRowsEach(ws, rows, i);
      WriteAllContents(ws[i], rows);
    }
  }

  /** After a successful block every backend is closed, and every JSON or
      YAML output holds exactly the rows written, header rows included, in
      write order. */
  lemma {:induction false} SessionOutputs(reg: Registry, paths: seq<string>, rows: seq<(Row, bool)>,
                       openRefused: set<string>, closeRefused: set<string>, i: nat)
    requires Session(reg, paths, rows, openRefused, closeRefused).Ok?
    requires i < |paths|
    ensures var b := Session(reg, paths, rows, openRefused, closeRefused).value[i];
            && b.path == paths[i] && b.phase == Closed
            && b.format == reg[GetExtension(paths[i])]
            && ((b.format == Json || b.format == Yaml) ==> Emitted(b) == RowsOf(rows))
  {
    SessionBackend(reg, paths, rows, openRefused, closeRefused, i);
    var live := OpenBackend(Backend(paths[i], reg[GetExtension(paths[i])], Created, [], [], 0));
    WriteAllContents(live, rows);
  }

  /** After a successful block an XLSX sheet has one line per row written,
      each formatted by its header flag and the parity of its line. */
  lemma {:induction false} SessionStyles(reg: Registry, paths: seq<string>, rows: seq<(Row, bool)>,
                       openRefused: set<string>, closeRefused: set<string>, i: nat, k: nat)
    requires Session(reg, paths, rows, openRefused, closeRefused).Ok?
    requires i < |paths|
    requires Session(reg, paths, rows, openRefused, closeRefused).value[i].format == Xlsx
    requires k < |rows|
    ensures var b := Session(reg, paths, rows, openRefused, closeRefused).value[i];
            && b.line == |rows| && |b.styles| == |rows|
            && b.styles[k] == StyleFor(rows[k].1, k)
  {
    SessionBackend(reg, paths, rows, openRefused, closeRefused, i);
    var live := OpenBackend(Backend(paths[i], reg[GetExtension(paths[i])], Created, [], [], 0));
    WriteAllContents(live, rows);
    WriteAllLines(live, rows);
    StylesOfAt(rows, 0, k);
  }

  /** Backend `i` of a successful block is opened, given every row, and closed. */
  lemma {:induction false} SessionBackend(reg: Registry, paths: seq<string>, rows: seq<(Row, bool)>,
                       openRefused: set<string>, closeRefused: set<string>, i: nat)
    requires Session(reg, paths, rows, openRefused, closeRefused).Ok?
    requires i < |paths|
    ensures GetExtension(paths[i]) in reg
    ensures Session(reg, paths, rows, openRefused, closeRefused).value[i]
         == CloseBackend(WriteAll(OpenBackend(Backend(paths[i], reg[GetExtension(paths[i])], Created, [], [], 0)), rows))
  {
    var ws := NewWriter(reg, paths).value;
    var entered := Enter(ws, openRefused).0;
    WriteRowsEach(entered, rows, i);
  }
}

=== FILE: catalogue.dfy ===
/** eagle_automation/components.py, class PartDatabase and ComponentInsert:
    the part catalogue, its shape validation, saving, insertion and the
    category queries.

    The catalogue is a mapping from part number to record; a record maps
    field names to loosely typed values, so that the shape checks of
    `validate_db` can be stated on the very key sets they compare. Python
    walks the catalogue in dict order, which the program does not control;
    operations whose result depends on that order take it as a parameter
    `order` that enumerates the catalogue's keys. */
module Catalogue {
  import opened Results
  import opened Values
  import opened Text
  import opened Sorting

  type Record = map<string, Value>
  type Database = map<string, Record>

  /** PartDatabase.KEYS */
  const RecordKeys: set<string> := {"Description", "Category", "Preferred", "Alternatives"}
  /** PartDatabase.PART_KEYS */
  const PartKeys: set<string> := {"Status", "Manufacturer", "Reference"}

  /* ---------------------------------------------------------------- shape */

  /** One sourcing option: a mapping with exactly Status, Manufacturer and Reference. */
  predicate IsSpec(v: Value)
  {
    v.Dict? && v.d.Keys == PartKeys
  }

  /** The alternatives field is acceptable when it is falsy or a list of sourcing options. */
  predicate AlternativesOk(v: Value)
  {
    !Truthy(v) || (v.List? && forall i :: 0 <= i < |v.l| ==> IsSpec(v.l[i]))
  }

  predicate KeySetOk(rec: Record)
  {
    rec.Keys == RecordKeys || rec.Keys == RecordKeys - {"Alternatives"}
  }

  /** The shape every catalogue record must have, stated declaratively. */
  predicate WellShaped(rec: Record)
  {
    && KeySetOk(rec)
    && IsSpec(rec["Preferred"])
    && ("Alternatives" in rec ==> AlternativesOk(rec["Alternatives"]))
  }

  predicate Valid(db: Database)
  {
    forall k :: k in db ==> WellShaped(db[k])
  }

  /** `order` lists every part number of `db` exactly once. */
  predicate Enumerates(order: seq<string>, db: Database)
  {
    && (forall k :: k in db ==> k in order)
    && (forall k :: k in order ==> k in db)
    && (forall a, b :: 0 <= a < b < |order| ==> order[a] != order[b])
  }

  /** The key test of validate_db, written as the source writes it: the
      record's keys, or its keys plus 'Alternatives', make up KEYS. */
  lemma {:induction false} KeyTestMeansKeySetOk(rec: Record)
    ensures (rec.Keys == RecordKeys || rec.Keys + {"Alternatives"} == RecordKeys) <==> KeySetOk(rec)
  {
    if rec.Keys + {"Alternatives"} == RecordKeys && rec.Keys != RecordKeys {
      assert "Alternatives" !in rec.Keys;
      assert rec.Keys == RecordKeys - {"Alternatives"};
    }
  }

  /** The loop over the alternatives list, from index `i` on. */
  function CheckAlternatives(item: string, alts: seq<Value>, i: nat): (r: Outcome<Error>)
    requires i <= |alts|
    ensures r.Pass? <==> forall j :: i <= j < |alts| ==> IsSpec(alts[j])
    ensures r.Fail? ==> r.error == NotAMapping || (r.error.DatabaseInvalid? && r.error.why.BadAlternative?)
    decreases |alts| - i
  {
    if i == |alts| then Pass
    else if !alts[i].Dict? then Fail(NotAMapping)
    else if alts[i].d.Keys != PartKeys then Fail(DatabaseInvalid(item, BadAlternative(i)))
    else CheckAlternatives(item, alts, i + 1)
  }

  /** The checks validate_db makes on one record, in the source's order. A
      `Preferred` that is not a mapping makes `.keys()` raise AttributeError
      before any DatabaseInvalid; an alternatives field that is a non-empty
      string or mapping is iterated and fails the same way, and a number
      cannot be iterated at all. */
  function CheckRecord(item: string, rec: Record): (r: Outcome<Error>)
    ensures r.Pass? <==> WellShaped(rec)
    ensures r == Fail(DatabaseInvalid(item, InconsistentKeys)) <==> !KeySetOk(rec)
  {
    KeyTestMeansKeySetOk(rec);
    if !(rec.Keys == RecordKeys || rec.Keys + {"Alternatives"} == RecordKeys) then
      Fail(DatabaseInvalid(item, InconsistentKeys))
    else
      var preferred := rec["Preferred"];
      if !preferred.Dict? then Fail(NotAMapping)
      else if preferred.d.Keys != PartKeys then Fail(DatabaseInvalid(item, BadPreferred))
      else if "Alternatives" in rec && Truthy(rec["Alternatives"]) then
        match rec["Alternatives"]
        case List(alts) => CheckAlternatives(item, alts, 0)
        case Int(_) => Fail(NotIterable)
        case Bool(_) => Fail(NotIterable)
        case Str(_) => Fail(NotAMapping)
        case Dict(_) => Fail(NotAMapping)
      else Pass
  }

  /** validate_db: checks the records in iteration order and raises the first
      error, which is the error of the first ill-shaped record. */
  function ValidateDb(db: Database, order: seq<string>): (r: Outcome<Error>)
    requires forall k :: k in order ==> k in db
    ensures r.Pass? <==> forall i :: 0 <= i < |order| ==> WellShaped(db[order[i]])
    ensures r.Fail? ==> exists i :: 0 <= i < |order| && r == CheckRecord(order[i], db[order[i]])
                                  && forall j :: 0 <= j < i ==> WellShaped(db[order[j]])
  {
    var oks := seq(|order|, i requires 0 <= i < |order| => WellShaped(db[order[i]]));
    assert forall i :: 0 <= i < |order| ==> oks[i] == WellShaped(db[order[i]]);
    if false in oks then
      var i := FirstFalse(oks);
      assert !oks[i] && forall j :: 0 <= j < i ==> oks[j];
      CheckRecord(order[i], db[order[i]])
    else
      assert forall i :: 0 <= i < |order| ==> oks[i];
      Pass
  }

  /** Whatever the iteration order, validation passes exactly on a valid catalogue. */
  lemma {:induction false} ValidateDbExact(db: Database, order: seq<string>)
    requires Enumerates(order, db)
    ensures ValidateDb(db, order).Pass? <==> Valid(db)
  {
    if ValidateDb(db, order).Pass? {
      forall k | k in db
        ensures WellShaped(db[k])
      {
        var i :| 0 <= i < |order| && order[i] == k;
      }
    }
  }

  /* ---------------------------------------------------------------- save */

  /** The catalogue file on disk: the catalogue it holds, or an emptied file. */
  datatype CatalogueFile = Holds(content: Database) | Emptied

  /** PartDatabase.save as written: it validates first, so an invalid
      catalogue never touches the file; then it opens the file for writing,
      which empties it, and calls `yaml.save`, which PyYAML does not define,
      so the call raises AttributeError and leaves the file empty. */
  function SaveAsWritten(db: Database, order: seq<string>, file: CatalogueFile): (r: (CatalogueFile, Outcome<Error>))
    requires Enumerates(order, db)
    ensures !Valid(db) ==> r.0 == file && r.1.Fail? && r.1 == ValidateDb(db, order)
    ensures Valid(db) ==> r.0 == Emptied && r.1 == Fail(NoSuchAttribute)
  {
    ValidateDbExact(db, order);
    var check := ValidateDb(db, order);
    if check.Fail? then (file, check)
    else (Emptied, Fail(NoSuchAttribute))
  }

  /** PartDatabase.save as intended: validate, then write the whole catalogue. */
  function Save(db: Database, order: seq<string>, file: CatalogueFile): (r: (CatalogueFile, Outcome<Error>))
    requires Enumerates(order, db)
    ensures !Valid(db) ==> r.0 == file && r.1.Fail?
    ensures Valid(db) ==> r.0 == Holds(db) && r.1 == Pass
  {
    ValidateDbExact(db, order);
    var check := ValidateDb(db, order);
    if check.Fail? then (file, check) else (Holds(db), Pass)
  }

  /** Loading what `Save` wrote validates and gives back the same catalogue. */
  lemma {:induction false} SaveLoadRoundTrip(db: Database, order: seq<string>, file: CatalogueFile)
    requires Enumerates(order, db)
    requires Save(db, order, file).1.Pass?
    ensures Save(db, order, file).0 == Holds(db)
    ensures ValidateDb(Save(db, order, file).0.content, order).Pass?
  {
    ValidateDbExact(db, order);
  }

  /** A well-shaped record with one sourcing option and no alternatives. */
  function SampleRecord(): Record
  {
    var spec := Dict(map["Status" := Str("Active"), "Manufacturer" := Str("any"), "Reference" := Str("any")]);
    map["Description" := Str("10k resistor"), "Category" := Str("Resistor"),
        "Preferred" := spec, "Alternatives" := List([])]
  }

  /** Saving a valid one-part catalogue as written destroys the copy on disk,
      where the intended save keeps it. */
  lemma {:induction false} SaveAsWrittenLosesCatalogue()
    ensures var db := map["900001" := SampleRecord()];
            && Valid(db)
            && SaveAsWritten(db, ["900001"], Holds(db)).0 == Emptied
            && Save(db, ["900001"], Holds(db)).0 == Holds(db)
  {
    var db := map["900001" := SampleRecord()];
    var rec := SampleRecord();
    assert rec.Keys == RecordKeys;
    assert rec["Preferred"].d.Keys == PartKeys;
    assert !Truthy(rec["Alternatives"]);
    assert WellShaped(rec);
    assert Enumerates(["900001"], db);
  }

  /* ---------------------------------------------------------------- insert */

  /** The record ComponentInsert.run creates: the sourcing fields are empty lists. */
  function NewComponent(category: string, description: string): Record
  {
    map["Category" := Str(category), "Description" := Str(description),
        "Preferred" := List([]), "Alternatives" := List([])]
  }

  /** ComponentInsert.run: insert the new record only when the part number is absent. */
  function InsertComponent(db: Database, name: string, category: string, description: string): (r: Database)
    ensures r.Keys == db.Keys + {name}
    ensures forall k :: k in db ==> r[k] == db[k]
    ensures name !in db ==> && "Category" in r[name] && r[name]["Category"] == Str(category)
                            && "Description" in r[name] && r[name]["Description"] == Str(description)
  {
    if name in db then db else db[name := NewComponent(category, description)]
  }

  /** The record ComponentInsert creates cannot pass validation: its
      Preferred is a list, so `.keys()` raises before any shape check. */
  lemma {:induction false} InsertedComponentRejected(db: Database, name: string, category: string, description: string)
    requires name !in db
    ensures CheckRecord(name, InsertComponent(db, name, category, description)[name]) == Fail(NotAMapping)
    ensures !Valid(InsertComponent(db, name, category, description))
  {
    var rec := NewComponent(category, description);
    assert rec.Keys == RecordKeys;
    assert !IsSpec(rec["Preferred"]);
  }

  /* ---------------------------------------------------------------- categories */

  predicate HasCategories(db: Database)
  {
    forall k :: k in db ==> "Category" in db[k]
  }

  /** get_categories: the set of the Category values. Building the set
      hashes every value, which raises TypeError on a list or a mapping. */
  function Categories(db: Database): (r: Result<set<Value>>)
    requires HasCategories(db)
    ensures r.Ok? <==> forall k :: k in db ==> Hashable(db[k]["Category"])
    ensures r.Err? ==> r.error == Unhashable
    ensures r.Ok? ==> forall k :: k in db ==> db[k]["Category"] in r.value
    ensures r.Ok? ==> forall c :: c in r.value ==> exists k :: k in db && db[k]["Category"] == c
  {
    if forall k :: k in db ==> Hashable(db[k]["Category"]) then Ok(set k | k in db :: db[k]["Category"])
    else Err(Unhashable)
  }

  /** `self.items()` in iteration order. */
  function Items(db: Database, order: seq<string>): (r: seq<(string, Record)>)
    requires forall k :: k in order ==> k in db
    ensures |r| == |order|
    ensures forall i :: 0 <= i < |order| ==> r[i] == (order[i], db[order[i]])
  {
    seq(|order|, i requires 0 <= i < |order| => (order[i], db[order[i]]))
  }

  /** get_parts_from_category: the items whose Category equals `c`, in iteration order. */
  function PartsFromCategory(db: Database, order: seq<string>, c: Value): (r: seq<(string, Record)>)
    requires forall k :: k in order ==> k in db
    requires HasCategories(db)
    ensures forall e :: e in r <==> e in Items(db, order) && e.1["Category"] == c
  {
    if |order| == 0 then []
    else
      var rest := PartsFromCategory(db, order[1..], c);
      assert Items(db, order) == [(order[0], db[order[0]])] + Items(db, order[1..]);
      if db[order[0]]["Category"] == c then [(order[0], db[order[0]])] + rest else rest
  }

  lemma {:induction false} KnownCategoryListed(db: Database, order: seq<string>, c: Value)
    requires Enumerates(order, db)
    requires HasCategories(db)
    requires Categories(db).Ok? && c in Categories(db).value
    ensures |PartsFromCategory(db, order, c)| > 0
  {
    var k :| k in db && db[k]["Category"] == c;
    var i :| 0 <= i < |order| && order[i] == k;
    var e := Items(db, order)[i];
    assert e in Items(db, order) && e.1["Category"] == c;
    assert e in PartsFromCategory(db, order, c);
  }

  lemma {:induction false} ListedCategoryKnown(db: Database, order: seq<string>, c: Value)
    requires forall k :: k in order ==> k in db
    requires HasCategories(db)
    requires |PartsFromCategory(db, order, c)| > 0
    ensures Categories(db).Ok? ==> c in Categories(db).value
  {
    var e := PartsFromCategory(db, order, c)[0];
    assert e in Items(db, order);
    var i :| 0 <= i < |order| && Items(db, order)[i] == e;
    assert db[order[i]]["Category"] == c;
  }

  /** A category lists some part exactly when it is one of the catalogue's
      categories; an unknown category lists nothing. */
  lemma {:induction false} PartsFromCategoryEmpty(db: Database, order: seq<string>, c: Value)
    requires Enumerates(order, db)
    requires HasCategories(db)
    ensures Categories(db).Ok? ==> (PartsFromCategory(db, order, c) == [] <==> c !in Categories(db).value)
  {
    if Categories(db).Ok? && c in Categories(db).value {
      KnownCategoryListed(db, order, c);
    }
    if |PartsFromCategory(db, order, c)| > 0 {
      ListedCategoryKnown(db, order, c);
    }
  }

  /* ---------------------------------------------------------------- group by category */

  /** Every Category is a string, so the categories can be sorted. */
  predicate StringCategories(db: Database)
  {
    forall k :: k in db ==> "Category" in db[k] && db[k]["Category"].Str?
  }

  /** `cat_key`, for string categories. */
  function CategoryOf(e: (string, Record)): string
  {
    if "Category" in e.1 && e.1["Category"].Str? then e.1["Category"].s else ""
  }

  function Flatten<T>(gs: seq<(string, seq<T>)>): seq<T>
  {
    if |gs| == 0 then [] else gs[0].1 + Flatten(gs[1..])
  }

  function Names<T>(gs: seq<(string, seq<T>)>): set<string>
  {
    if |gs| == 0 then {} else {gs[0].0} + Names(gs[1..])
  }

  function KeysOf<T>(xs: seq<T>, key: T -> string): set<string>
  {
    if |xs| == 0 then {} else {key(xs[0])} + KeysOf(xs[1..], key)
  }

  /** Group names strictly increase, so no name heads two groups. */
  predicate StrictlyIncreasingNames<T>(gs: seq<(string, seq<T>)>)
  {
    forall i, j :: 0 <= i < j < |gs| ==> LexLe(gs[i].0, gs[j].0) && gs[i].0 != gs[j].0
  }

  /** The group after `i` starts a new name. */
  predicate NameChanges<T>(gs: seq<(string, seq<T>)>, i: int)
    requires 0 <= i < |gs| - 1
  {
    gs[i].0 != gs[i + 1].0
  }

  /** `itertools.groupby(xs, key)`: maximal stretches of adjacent elements with equal keys. */
  function GroupAdjacent<T>(xs: seq<T>, key: T -> string): (gs: seq<(string, seq<T>)>)
    ensures Flatten(gs) == xs
    ensures |gs| == 0 <==> |xs| == 0
    ensures |gs| > 0 ==> gs[0].0 == key(xs[0])
    ensures forall i :: 0 <= i < |gs| ==> |gs[i].1| > 0
    ensures forall i, j :: 0 <= i < |gs| && 0 <= j < |gs[i].1| ==> key(gs[i].1[j]) == gs[i].0
  {
    if |xs| == 0 then []
    else
      var rest := GroupAdjacent(xs[1..], key);
      assert xs == [xs[0]] + xs[1..];
      if |rest| > 0 && rest[0].0 == key(xs[0]) then
        var gs := [(rest[0].0, [xs[0]] + rest[0].1)] + rest[1..];
        assert rest == [rest[0]] + rest[1..];
        FlattenCons(rest[0], rest[1..]);
        FlattenCons(gs[0], rest[1..]);
        gs
      else
        var gs := [(key(xs[0]), [xs[0]])] + rest;
        FlattenCons(gs[0], rest);
        gs
  }

  /** Groups are maximal: two neighbouring groups never share a name. */
  lemma {:induction false} GroupAdjacentMaximal<T>(xs: seq<T>, key: T -> string)
    ensures forall i :: 0 <= i < |GroupAdjacent(xs, key)| - 1 ==> NameChanges(GroupAdjacent(xs, key), i)
  {
    if |xs| > 0 {
      GroupAdjacentMaximal(xs[1..], key);
      var gs := GroupAdjacent(xs, key);
      var rest := GroupAdjacent(xs[1..], key);
      forall i | 0 <= i < |gs| - 1
        ensures NameChanges(gs, i)
      {
        if |rest| > 0 && rest[0].0 == key(xs[0]) {
          assert gs[i + 1] == rest[i + 1];
          assert NameChanges(rest, i);
        } else if i > 0 {
          assert gs[i] == rest[i - 1] && gs[i + 1] == rest[i];
          assert NameChanges(rest, i - 1);
        }
      }
    }
  }

  lemma {:induction false} FlattenCons<T>(g: (string, seq<T>), gs: seq<(string, seq<T>)>)
    ensures Flatten([g] + gs) == g.1 + Flatten(gs)
  {
    assert ([g] + gs)[1..] == gs;
  }

  lemma {:induction false} GroupAdjacentNames<T>(xs: seq<T>, key: T -> string)
    ensures Names(GroupAdjacent(xs, key)) == KeysOf(xs, key)
  {
    if |xs| > 0 {
      GroupAdjacentNames(xs[1..], key);
      var gs := GroupAdjacent(xs, key);
      var rest := GroupAdjacent(xs[1..], key);
      if |rest| > 0 && rest[0].0 == key(xs[0]) {
        assert gs[1..] == rest[1..];
        assert Names(rest) == {rest[0].0} + Names(rest[1..]);
      } else {
        assert gs[1..] == rest;
      }
    }
  }

  /** Grouping a sorted sequence gives strictly increasing group names. */
  lemma {:induction false} GroupAdjacentSorted<T>(xs: seq<T>, key: T -> string)
    requires SortedBy(xs, key)
    ensures StrictlyIncreasingNames(GroupAdjacent(xs, key))
  {
    if |xs| > 1 {
      var rest := GroupAdjacent(xs[1..], key);
      assert SortedBy(xs[1..], key) by {
        forall a, b | 0 <= a < b < |xs[1..]|
          ensures LexLe(key(xs[1..][a]), key(xs[1..][b]))
        {
          assert xs[1..][a] == xs[a + 1] && xs[1..][b] == xs[b + 1];
        }
      }
      GroupAdjacentSorted(xs[1..], key);
      assert StrictlyIncreasingNames(rest);
      var gs := GroupAdjacent(xs, key);
      assert rest[0].0 == key(xs[1]);
      assert LexLe(key(xs[0]), key(xs[1]));
      if rest[0].0 == key(xs[0]) {
        assert gs[1..] == rest[1..];
        assert forall i :: 0 <= i < |gs| ==> gs[i].0 == rest[i].0;
      } else {
        assert gs[1..] == rest;
        forall i, j | 0 <= i < j < |gs|
          ensures LexLe(gs[i].0, gs[j].0) && gs[i].0 != gs[j].0
        {
          assert gs[j].0 == rest[j - 1].0;
          if i > 0 {
            assert gs[i].0 == rest[i - 1].0;
          } else if j > 1 {
            assert LexLe(rest[0].0, rest[j - 1].0) && rest[0].0 != rest[j - 1].0;
            LexLeTransitive(key(xs[0]), rest[0].0, rest[j - 1].0);
            if gs[0].0 == gs[j].0 {
              LexLeAntisymmetric(key(xs[0]), rest[0].0);
            }
          }
        }
      }
    }
  }

  lemma {:induction false} KeysOfMember<T>(xs: seq<T>, key: T -> string, c: string)
    ensures c in KeysOf(xs, key) <==> exists i :: 0 <= i < |xs| && key(xs[i]) == c
  {
    if |xs| > 0 {
      KeysOfMember(xs[1..], key, c);
      if c in KeysOf(xs[1..], key) {
        var i :| 0 <= i < |xs[1..]| && key(xs[1..][i]) == c;
        assert key(xs[i + 1]) == c;
      }
      if exists i :: 0 <= i < |xs| && key(xs[i]) == c {
        var i :| 0 <= i < |xs| && key(xs[i]) == c;
        if i > 0 {
          assert key(xs[1..][i - 1]) == c;
        }
      }
    }
  }

  /** Reordering a sequence does not change the set of its keys. */
  lemma {:induction false} KeysOfPermutation<T>(xs: seq<T>, ys: seq<T>, key: T -> string)
    requires multiset(xs) == multiset(ys)
    ensures KeysOf(xs, key) == KeysOf(ys, key)
  {
    forall c | c in KeysOf(xs, key)
      ensures c in KeysOf(ys, key)
    {
      KeysOfMember(xs, key, c);
      KeysOfMember(ys, key, c);
      var i :| 0 <= i < |xs| && key(xs[i]) == c;
      assert xs[i] in multiset(ys);
      var m :| 0 <= m < |ys| && ys[m] == xs[i];
    }
    forall c | c in KeysOf(ys, key)
      ensures c in KeysOf(xs, key)
    {
      KeysOfMember(xs, key, c);
      KeysOfMember(ys, key, c);
      var i :| 0 <= i < |ys| && key(ys[i]) == c;
      assert ys[i] in multiset(xs);
      var m :| 0 <= m < |xs| && xs[m] == ys[i];
    }
  }

  /** The category names of the items are the string categories of the catalogue. */
  lemma {:induction false} ItemCategories(db: Database, order: seq<string>)
    requires Enumerates(order, db)
    requires StringCategories(db)
    ensures Categories(db).Ok?
    ensures forall c :: c in KeysOf(Items(db, order), CategoryOf) <==> Str(c) in Categories(db).value
  {
    var items := Items(db, order);
    forall c
      ensures c in KeysOf(items, CategoryOf) <==> Str(c) in Categories(db).value
    {
      KeysOfMember(items, CategoryOf, c);
      if c in KeysOf(items, CategoryOf) {
        var i :| 0 <= i < |items| && CategoryOf(items[i]) == c;
        assert db[order[i]]["Category"] == Str(c);
      }
      if Str(c) in Categories(db).value {
        var k :| k in db && db[k]["Category"] == Str(c);
        var m :| 0 <= m < |order| && order[m] == k;
        assert CategoryOf(items[m]) == c;
      }
    }
  }

  /** get_parts_groupby_category: the items sorted by category, then
      grouped. Categories are taken to be strings: Python 2's ordering of
      values of different types is not modelled. */
  function GroupByCategory(db: Database, order: seq<string>): seq<(string, seq<(string, Record)>)>
    requires forall k :: k in order ==> k in db
    requires StringCategories(db)
  {
    GroupAdjacent(SortBy(Items(db, order), CategoryOf), CategoryOf)
  }

  /** The groups come in strictly increasing category order and name exactly
      the catalogue's categories. */
  lemma {:induction false} GroupByCategoryNames(db: Database, order: seq<string>)
    requires Enumerates(order, db)
    requires StringCategories(db)
    ensures StrictlyIncreasingNames(GroupByCategory(db, order))
    ensures Categories(db).Ok?
    ensures forall c :: c in Names(GroupByCategory(db, order)) <==> Str(c) in Categories(db).value
  {
    var items := Items(db, order);
    var sorted := SortBy(items, CategoryOf);
    GroupAdjacentSorted(sorted, CategoryOf);
    GroupAdjacentNames(sorted, CategoryOf);
    KeysOfPermutation(sorted, items, CategoryOf);
    ItemCategories(db, order);
  }

  /** An item of the catalogue carries its category as a string. */
  lemma {:induction false} ItemCategory(db: Database, order: seq<string>, e: (string, Record))
    requires forall k :: k in order ==> k in db
    requires StringCategories(db)
    requires e in multiset(Items(db, order))
    ensures "Category" in e.1 && e.1["Category"] == Str(CategoryOf(e))
  {
    var items := Items(db, order);
    var m :| 0 <= m < |items| && items[m] == e;
    assert e.1 == db[order[m]];
  }

  /** Together the groups hold every item exactly once, and each group holds
      only items of its own category. */
  lemma {:induction false} GroupByCategoryMembers(db: Database, order: seq<string>)
    requires Enumerates(order, db)
    requires StringCategories(db)
    ensures multiset(Flatten(GroupByCategory(db, order))) == multiset(Items(db, order))
    ensures var gs := GroupByCategory(db, order);
            forall i, j :: 0 <= i < |gs| && 0 <= j < |gs[i].1| ==>
              "Category" in gs[i].1[j].1 && gs[i].1[j].1["Category"] == Str(gs[i].0)
  {
    var items := Items(db, order);
    var sorted := SortBy(items, CategoryOf);
    var gs := GroupByCategory(db, order);
    assert Flatten(gs) == sorted;
    forall i, j | 0 <= i < |gs| && 0 <= j < |gs[i].1|
      ensures "Category" in gs[i].1[j].1 && gs[i].1[j].1["Category"] == Str(gs[i].0)
    {
      var e := gs[i].1[j];
      assert CategoryOf(e) == gs[i].0;
      FlattenHolds(gs, i, j);
      assert e in multiset(sorted);
      ItemCategory(db, order, e);
    }
  }

  lemma {:induction false} FlattenHolds<T>(gs: seq<(string, seq<T>)>, i: nat, j: nat)
    requires i < |gs| && j < |gs[i].1|
    ensures gs[i].1[j] in Flatten(gs)
  {
    if i > 0 {
      FlattenHolds(gs[1..], i - 1, j);
      assert gs[1..][i - 1] == gs[i];
    }
  }
}

=== FILE: common.dfy ===
/** eagle_automation/common.py: run compression of integer sequences
    (`ranges`) and file-extension extraction (`get_extension`). */
module Common {
  import opened Text

  /* ---------------------------------------------------------------- ranges */

  /** The grouping key `ranges` hands to `itertools.groupby`: for the pair
      `(index, value)` produced by `enumerate`, the value minus the index. */
  function Key(xs: seq<int>, i: int): int
    requires 0 <= i < |xs|
  {
    xs[i] - i
  }

  /** Adjacent elements share a key exactly when the second is the successor of the first. */
  lemma {:induction false} KeyStep(xs: seq<int>, i: int)
    requires 0 <= i && i + 1 < |xs|
    ensures Key(xs, i + 1) == Key(xs, i) <==> xs[i + 1] == xs[i] + 1
  {
  }

  /** One past the last index of the `groupby` group that starts at `i`:
      the group is the maximal stretch of equal keys. */
  function RunEnd(xs: seq<int>, i: nat): (j: nat)
    requires i < |xs|
    ensures i < j <= |xs|
    ensures forall k :: i <= k < j ==> Key(xs, k) == Key(xs, i)
    ensures j < |xs| ==> Key(xs, j) != Key(xs, i)
    decreases |xs| - i
  {
    if i + 1 < |xs| && Key(xs, i + 1) == Key(xs, i) then RunEnd(xs, i + 1) else i + 1
  }

  /** Pair `k + 1` does not continue pair `k`: it is not the next integer. */
  predicate Breaks(r: seq<(int, int)>, k: int)
    requires 0 <= k < |r| - 1
  {
    r[k + 1].0 != r[k].1 + 1
  }

  /** Pair `k + 1` starts at least two past the end of pair `k`. */
  predicate Apart(r: seq<(int, int)>, k: int)
    requires 0 <= k < |r| - 1
  {
    r[k + 1].0 >= r[k].1 + 2
  }

  /** The `(first, last)` pairs `ranges` yields for the groups from index `i` on. */
  function RangesFrom(xs: seq<int>, i: nat): (r: seq<(int, int)>)
    requires i <= |xs|
    ensures |r| <= |xs| - i
    ensures |r| == 0 <==> i == |xs|
    ensures |r| > 0 ==> r[0].0 == xs[i] && r[|r| - 1].1 == xs[|xs| - 1]
    ensures forall k :: 0 <= k < |r| ==> r[k].0 <= r[k].1
    ensures forall k :: 0 <= k < |r| - 1 ==> Breaks(r, k)
    decreases |xs| - i
  {
    if i == |xs| then []
    else
      var j := RunEnd(xs, i);
      assert Key(xs, j - 1) == Key(xs, i);
      var rest := RangesFrom(xs, j);
      var r := [(xs[i], xs[j - 1])] + rest;
      assert forall k :: 0 <= k < |r| - 1 ==> Breaks(r, k) by {
        forall k | 0 <= k < |r| - 1
          ensures Breaks(r, k)
        {
          if k == 0 {
            KeyStep(xs, j - 1);
          } else {
            assert Breaks(rest, k - 1);
          }
        }
      }
      r
  }

  /** `ranges(xs)`, materialised: one pair per group of consecutive keys. */
  function Ranges(xs: seq<int>): seq<(int, int)>
  {
    RangesFrom(xs, 0)
  }

  /** The integers `a, a+1, ..., b` (empty when `a > b`). */
  function Interval(a: int, b: int): (r: seq<int>)
    ensures |r| == if a <= b then b - a + 1 else 0
    ensures forall k :: 0 <= k < |r| ==> r[k] == a + k
    decreases b - a
  {
    if a > b then [] else [a] + Interval(a + 1, b)
  }

  /** Every integer covered by a list of `(first, last)` pairs, in order. */
  function Expand(pairs: seq<(int, int)>): seq<int>
  {
    if |pairs| == 0 then [] else Interval(pairs[0].0, pairs[0].1) + Expand(pairs[1..])
  }

  /** A group of equal keys is an interval of consecutive integers. */
  lemma {:induction false} IntervalOfRun(xs: seq<int>, i: nat)
    requires i < |xs|
    ensures Interval(xs[i], xs[RunEnd(xs, i) - 1]) == xs[i..RunEnd(xs, i)]
  {
    var j := RunEnd(xs, i);
    assert Key(xs, j - 1) == Key(xs, i);
    var iv := Interval(xs[i], xs[j - 1]);
    forall k | 0 <= k < j - i
      ensures iv[k] == xs[i..j][k]
    {
      assert Key(xs, i + k) == Key(xs, i);
    }
  }

  /** The first pair covers the group starting at `i`; the rest start after it. */
  lemma {:induction false} RangesFromUnfold(xs: seq<int>, i: nat)
    requires i < |xs|
    ensures var j := RunEnd(xs, i);
            var r := RangesFrom(xs, i);
            && r[0] == (xs[i], xs[j - 1])
            && r[1..] == RangesFrom(xs, j)
  {
    var j := RunEnd(xs, i);
    assert RangesFrom(xs, i) == [(xs[i], xs[j - 1])] + RangesFrom(xs, j);
  }

  lemma {:induction false} RangesFromRoundTrip(xs: seq<int>, i: nat)
    requires i <= |xs|
    ensures Expand(RangesFrom(xs, i)) == xs[i..]
    decreases |xs| - i
  {
    if i < |xs| {
      RangesFromRoundTrip(xs, RunEnd(xs, i));
      RoundTripStep(xs, i);
    }
  }

  /** One group's step of the round trip: the group's interval followed by the
      rest of the input. */
  lemma {:induction false} RoundTripStep(xs: seq<int>, i: nat)
    requires i < |xs|
    requires Expand(RangesFrom(xs, RunEnd(xs, i))) == xs[RunEnd(xs, i)..]
    ensures Expand(RangesFrom(xs, i)) == xs[i..]
  {
    var j := RunEnd(xs, i);
    ExpandRangesFrom(xs, i);
    IntervalOfRun(xs, i);
    SplitAt(xs, i, j);
  }

  lemma {:induction false} ExpandRangesFrom(xs: seq<int>, i: nat)
    requires i < |xs|
    ensures var j := RunEnd(xs, i);
            Expand(RangesFrom(xs, i)) == Interval(xs[i], xs[j - 1]) + Expand(RangesFrom(xs, j))
  {
    RangesFromUnfold(xs, i);
  }

  lemma {:induction false} SplitAt(xs: seq<int>, i: nat, j: nat)
    requires i <= j <= |xs|
    ensures xs[i..] == xs[i..j] + xs[j..]
  {
  }

  /** Expanding the pairs `ranges` yields reproduces its input exactly, for
      every input: sorted or not, with repetitions or without. */
  lemma {:induction false} RangesRoundTrip(xs: seq<int>)
    ensures Expand(Ranges(xs)) == xs
  {
    RangesFromRoundTrip(xs, 0);
  }

  predicate StrictlyIncreasing(xs: seq<int>)
  {
    forall a, b :: 0 <= a < b < |xs| ==> xs[a] < xs[b]
  }

  lemma {:induction false} RangesFromGap(xs: seq<int>, i: nat)
    requires i <= |xs|
    requires StrictlyIncreasing(xs)
    ensures var r := RangesFrom(xs, i);
            forall k :: 0 <= k < |r| - 1 ==> Apart(r, k)
    decreases |xs| - i
  {
    if i < |xs| {
      var j := RunEnd(xs, i);
      RangesFromGap(xs, j);
      RangesFromUnfold(xs, i);
      var r := RangesFrom(xs, i);
      if j < |xs| {
        FirstGap(xs, i);
      }
      forall k | 1 <= k < |r| - 1
        ensures Apart(r, k)
      {
        assert Apart(r[1..], k - 1);
      }
    }
  }

  /** The first two pairs of increasing input are at least two apart. */
  lemma {:induction false} FirstGap(xs: seq<int>, i: nat)
    requires i < |xs| && RunEnd(xs, i) < |xs|
    requires StrictlyIncreasing(xs)
    ensures |RangesFrom(xs, i)| > 1 && Apart(RangesFrom(xs, i), 0)
  {
    var j := RunEnd(xs, i);
    var r := RangesFrom(xs, i);
    RangesFromUnfold(xs, i);
    RangesFromUnfold(xs, j);
    assert r[1] == r[1..][0];
    assert Breaks(r, 0);
    assert xs[j - 1] < xs[j];
  }

  /** On strictly increasing input the runs are maximal: the next run starts
      at least two past the end of the previous one. */
  lemma {:induction false} RangesMaximal(xs: seq<int>)
    requires StrictlyIncreasing(xs)
    ensures var r := Ranges(xs);
            forall k :: 0 <= k < |r| - 1 ==> Apart(r, k)
  {
    assert Ranges(xs) == RangesFrom(xs, 0);
    RangesFromGap(xs, 0);
  }

  lemma {:induction false} RangesFromMembers(xs: seq<int>, i: nat)
    requires i <= |xs|
    ensures var r := RangesFrom(xs, i);
            forall k :: 0 <= k < |r| ==> r[k].0 in xs[i..] && r[k].1 in xs[i..]
    decreases |xs| - i
  {
    if i < |xs| {
      var j := RunEnd(xs, i);
      RangesFromMembers(xs, j);
      var r := RangesFrom(xs, i);
      RangesFromUnfold(xs, i);
      assert xs[i..] == xs[i..j] + xs[j..];
      assert xs[j - 1] == xs[i..][j - 1 - i];
    }
  }

  /** Every value `ranges` yields is an element of its input. */
  lemma {:induction false} RangesMembers(xs: seq<int>)
    ensures var r := Ranges(xs);
            forall k :: 0 <= k < |r| ==> r[k].0 in xs && r[k].1 in xs
  {
    assert Ranges(xs) == RangesFrom(xs, 0);
    RangesFromMembers(xs, 0);
    assert xs[0..] == xs;
  }

  /** The grouping key is value minus index, not sortedness: a repeated value
      starts a new pair. */
  lemma {:induction false} RangesRepeatedValue()
    ensures Ranges([1, 1, 2]) == [(1, 1), (1, 2)]
  {
    var xs := [1, 1, 2];
    assert Key(xs, 1) != Key(xs, 0);
    assert RunEnd(xs, 0) == 1;
    assert Key(xs, 2) == Key(xs, 1);
    assert RunEnd(xs, 1) == 3;
    assert RangesFrom(xs, 3) == [];
  }

  /* ---------------------------------------------------------------- get_extension */

  /** `path.split(os.extsep)[-1].lower()` with `os.extsep == '.'`. */
  function GetExtension(path: string): (ext: string)
    ensures '.' !in ext
    ensures forall i :: 0 <= i < |ext| ==> !('A' <= ext[i] <= 'Z')
    ensures |ext| <= |path|
  {
    var pieces := Split(path, '.');
    JoinSplit(path, '.');
    LastPieceShorter(pieces);
    LowerKeeps(Last(pieces), '.');
    Lower(Last(pieces))
  }

  /** No piece is longer than the string it was split from. */
  lemma {:induction false} LastPieceShorter(pieces: seq<string>)
    requires |pieces| >= 1
    ensures |Last(pieces)| <= |Join(pieces, '.')|
  {
    if |pieces| > 1 {
      LastPieceShorter(pieces[1..]);
    }
  }

  /** The extension is the lower-cased text after the last dot. */
  lemma {:induction false} GetExtensionAfterLastDot(stem: string, ext: string)
    requires '.' !in ext
    ensures GetExtension(stem + "." + ext) == Lower(ext)
  {
    SplitLastAfter(stem, ext, '.');
    SplitNoSeparator(ext, '.');
  }

  /** A name without a dot is its own extension, lower-cased. */
  lemma {:induction false} GetExtensionNoDot(path: string)
    requires '.' !in path
    ensures GetExtension(path) == Lower(path)
  {
    SplitNoSeparator(path, '.');
  }

  lemma {:induction false} GetExtensionIdempotent(path: string)
    ensures GetExtension(GetExtension(path)) == GetExtension(path)
  {
    var ext := GetExtension(path);
    GetExtensionNoDot(ext);
    LowerIdempotent(Last(Split(path, '.')));
  }
}

=== FILE: designators.dfy ===
/** Reference designators ("R1", "C12") and their compression into ranges:
    `PartLine.SPLIT_PART` with its two substitutions and `_build_range` in
    eagle_automation/components.py. */
module Designators {
  import opened Results
  import opened Text
  import opened Sorting
  import opened Common

  /* ---------------------------------------------------------------- the SPLIT_PART substitution */

  predicate IsLetter(ch: char)
  {
    ('a' <= ch <= 'z') || ('A' <= ch <= 'Z')
  }

  /** The capture group a substitution keeps: `\1` (the letters) or `\2` (the digits). */
  datatype Capture = Letters | Digits

  /** One past the maximal run of ASCII letters starting at `i`. */
  function LetterRunEnd(s: string, i: nat): (j: nat)
    requires i <= |s|
    ensures i <= j <= |s|
    ensures forall k :: i <= k < j ==> IsLetter(s[k])
    ensures j < |s| ==> !IsLetter(s[j])
    decreases |s| - i
  {
    if i < |s| && IsLetter(s[i]) then LetterRunEnd(s, i + 1) else i
  }

  /** One past the maximal run of decimal digits starting at `i`. */
  function DigitRunEnd(s: string, i: nat): (j: nat)
    requires i <= |s|
    ensures i <= j <= |s|
    ensures forall k :: i <= k < j ==> IsDigit(s[k])
    ensures j < |s| ==> !IsDigit(s[j])
    decreases |s| - i
  {
    if i < |s| && IsDigit(s[i]) then DigitRunEnd(s, i + 1) else i
  }

  /** `([a-zA-Z]+)(\d+)` matches at `i` exactly when a non-empty letter run
      starting there is followed by a digit; the greedy letter run cannot
      give characters back, since a shorter run is followed by a letter. */
  predicate MatchesAt(s: string, i: nat)
    requires i <= |s|
  {
    var j := LetterRunEnd(s, i);
    i < j < |s| && IsDigit(s[j])
  }

  /** `SPLIT_PART.sub(group, s[i..])`: scanning left to right, every match is
      replaced by the kept group and every other character is copied. */
  function SubFrom(s: string, i: nat, g: Capture): (r: string)
    requires i <= |s|
    ensures |r| <= |s| - i
    decreases |s| - i
  {
    if i == |s| then ""
    else if MatchesAt(s, i) then
      var j := LetterRunEnd(s, i);
      var k := DigitRunEnd(s, j);
      (if g == Letters then s[i..j] else s[j..k]) + SubFrom(s, k, g)
    else [s[i]] + SubFrom(s, i + 1, g)
  }

  /** `SPLIT_PART.sub(r'\1', e)`. */
  function Prefix(e: string): string
  {
    SubFrom(e, 0, Letters)
  }

  /** `SPLIT_PART.sub(r'\2', e)`. */
  function NumberText(e: string): string
  {
    SubFrom(e, 0, Digits)
  }

  /** `s.strip()` with Python 2's whitespace set. */
  function Strip(s: string): (r: string)
    ensures |r| == 0 || (!IsSpace(r[0]) && !IsSpace(r[|r| - 1]))
    decreases |s|
  {
    if |s| > 0 && IsSpace(s[0]) then Strip(s[1..])
    else if |s| > 0 && IsSpace(s[|s| - 1]) then Strip(s[..|s| - 1])
    else s
  }

  /** `int(s)`: surrounding whitespace is ignored, the rest must be a decimal literal. */
  function PyInt(s: string): (r: Option<int>)
    ensures r.Some? <==> IsIntLiteral(Strip(s))
  {
    ParseInt(Strip(s))
  }

  predicate AllLetters(s: string)
  {
    forall k :: 0 <= k < |s| ==> IsLetter(s[k])
  }

  lemma {:induction false} LetterRunOfDesignator(letters: string, digits: string)
    requires AllLetters(letters)
    requires |digits| > 0 && AllDigits(digits)
    ensures LetterRunEnd(letters + digits, 0) == |letters|
  {
    var s := letters + digits;
    assert forall k :: 0 <= k < |letters| ==> s[k] == letters[k];
    assert s[|letters|] == digits[0];
  }

  lemma {:induction false} DigitRunOfDesignator(letters: string, digits: string)
    requires AllDigits(digits)
    ensures DigitRunEnd(letters + digits, |letters|) == |letters + digits|
  {
  }

  /** A well-formed designator, letters then digits, splits into exactly those two parts. */
  lemma {:induction false} SplitWellFormed(letters: string, digits: string)
    requires |letters| > 0 && AllLetters(letters)
    requires |digits| > 0 && AllDigits(digits)
    ensures Prefix(letters + digits) == letters
    ensures NumberText(letters + digits) == digits
    ensures NumberOf(letters + digits) == Some(DigitsValue(digits))
  {
    var s := letters + digits;
    LetterRunOfDesignator(letters, digits);
    DigitRunOfDesignator(letters, digits);
    assert IsDigit(s[|letters|]) by {
      assert s[|letters|] == digits[0];
    }
    assert MatchesAt(s, 0);
    assert s[0..|letters|] == letters;
    assert s[|letters|..|s|] == digits;
    assert SubFrom(s, 0, Letters) == letters + SubFrom(s, |s|, Letters);
    assert SubFrom(s, 0, Digits) == digits + SubFrom(s, |s|, Digits);
    assert !IsSpace(digits[0]) && !IsSpace(digits[|digits| - 1]) by {
      assert IsDigit(digits[0]) && IsDigit(digits[|digits| - 1]);
    }
    assert Strip(digits) == digits;
  }

  /** `"R" + str(n)` for a natural number is read back as prefix `"R"` and number `n`. */
  lemma {:induction false} DesignatorRoundTrip(prefix: string, n: nat)
    requires |prefix| > 0 && AllLetters(prefix)
    ensures Prefix(prefix + NatToString(n)) == prefix
    ensures NumberOf(prefix + NatToString(n)) == Some(n)
  {
    SplitWellFormed(prefix, NatToString(n));
    DigitsRoundTrip(n);
  }

  /** Trailing text after the digits makes the number unreadable. */
  lemma {:induction false} TrailingLetterMalformed()
    ensures Prefix("R1A") == "RA"
    ensures NumberOf("R1A") == None
  {
    var s := "R1A";
    assert LetterRunEnd(s, 2) == 3;
    assert LetterRunEnd(s, 0) == 1;
    assert MatchesAt(s, 0);
    assert DigitRunEnd(s, 1) == 2;
    assert !MatchesAt(s, 2);
    assert SubFrom(s, 2, Digits) == "A";
    assert SubFrom(s, 2, Letters) == "A";
    assert NumberText(s) == "1A";
    assert Strip("1A") == "1A";
    assert !IsDigit("1A"[1]);
  }

  /* ---------------------------------------------------------------- _build_range */

  predicate SamePrefix(l: seq<string>)
  {
    forall i :: 0 <= i < |l| ==> Prefix(l[i]) == Prefix(l[0])
  }

  /** `int(SPLIT_PART.sub(r'\2', e))`, or `None` where that raises ValueError. */
  function NumberOf(e: string): Option<int>
  {
    PyInt(NumberText(e))
  }

  /** Every designator of `l` carries a readable number. */
  predicate AllNumbered(l: seq<string>)
  {
    forall i :: 0 <= i < |l| ==> NumberOf(l[i]).Some?
  }

  /** The position of the first designator whose number `int()` rejects. */
  function FirstUnnumbered(l: seq<string>): (i: nat)
    requires !AllNumbered(l)
    ensures i < |l| && NumberOf(l[i]).None?
    ensures forall j :: 0 <= j < i ==> NumberOf(l[j]).Some?
  {
    if NumberOf(l[0]).None? then 0
    else
      var i := FirstUnnumbered(l[1..]);
      assert forall j :: 1 <= j <= i ==> l[j] == l[1..][j - 1];
      i + 1
  }

  /** The numbers of the designators, in order; the first one `int()`
      rejects is reported. */
  function Numbers(l: seq<string>): (r: Result<seq<int>>)
    ensures r.Ok? <==> AllNumbered(l)
    ensures r.Ok? ==> |r.value| == |l| && forall i :: 0 <= i < |l| ==> NumberOf(l[i]) == Some(r.value[i])
    ensures r.Err? ==> r == Err(MalformedDesignator(l[FirstUnnumbered(l)]))
  {
    if |l| == 0 then Ok([])
    else if NumberOf(l[0]).None? then Err(MalformedDesignator(l[0]))
    else
      var rest := Numbers(l[1..]);
      if rest.Err? then Err(rest.error)
      else Ok([NumberOf(l[0]).value] + rest.value)
  }

  /** The text of one range: `R4` for a single designator, `R1-3` for a run. */
  function Token(prefix: string, p: (int, int)): string
  {
    if p.0 == p.1 then prefix + IntToString(p.0)
    else prefix + IntToString(p.0) + "-" + IntToString(p.1)
  }

  function Tokens(prefix: string, pairs: seq<(int, int)>): (r: seq<string>)
    ensures |r| == |pairs|
    ensures forall k :: 0 <= k < |pairs| ==> r[k] == Token(prefix, pairs[k])
  {
    seq(|pairs|, k requires 0 <= k < |pairs| => Token(prefix, pairs[k]))
  }

  /** `list(_build_range(l))`. The checks run in the source's order: mixed
      prefixes raise before an empty list is indexed, and both before any
      number is parsed. */
  function BuildRange(l: seq<string>): (r: Result<seq<string>>)
    ensures r.Ok? <==> |l| > 0 && SamePrefix(l) && AllNumbered(l)
    ensures r == Err(InconsistentPrefixes) <==> !SamePrefix(l)
    ensures r == Err(NoDesignators) <==> |l| == 0
    ensures |l| > 0 && SamePrefix(l) && !AllNumbered(l) ==> r == Err(MalformedDesignator(l[FirstUnnumbered(l)]))
    ensures r.Ok? ==> 0 < |r.value| <= |l|
  {
    if !SamePrefix(l) then Err(InconsistentPrefixes)
    else if |l| == 0 then Err(NoDesignators)
    else
      var nums :- Numbers(l);
      var pairs := Ranges(SortInts(nums));
      assert |SortInts(nums)| == |nums| by {
        assert |multiset(SortInts(nums))| == |multiset(nums)|;
      }
      Ok(Tokens(Prefix(l[0]), pairs))
  }

  /** On success the tokens are exactly the rendered runs of the sorted numbers. */
  lemma {:induction false} BuildRangeShape(l: seq<string>)
    requires BuildRange(l).Ok?
    ensures Numbers(l).Ok?
    ensures BuildRange(l).value == Tokens(Prefix(l[0]), Ranges(SortInts(Numbers(l).value)))
  {
  }

  /* ---------------------------------------------------------------- reading the ranges back */

  /** Reads one token back into its pair, for non-negative numbers. */
  function ParseToken(prefix: string, tok: string): Option<(int, int)>
  {
    if |tok| < |prefix| || tok[..|prefix|] != prefix then None
    else
      var parts := Split(tok[|prefix|..], '-');
      if |parts| == 1 then
        match ParseInt(parts[0])
        case Some(a) => Some((a, a))
        case None => None
      else if |parts| == 2 then
        match (ParseInt(parts[0]), ParseInt(parts[1]))
        case (Some(a), Some(b)) => Some((a, b))
        case _ => None
      else None
  }

  /** Every run of non-negative numbers reads back from its token. */
  lemma {:induction false} TokenRoundTrip(prefix: string, p: (int, int))
    requires 0 <= p.0 && 0 <= p.1
    ensures ParseToken(prefix, Token(prefix, p)) == Some(p)
  {
    var a := NatToString(p.0);
    var b := NatToString(p.1);
    assert '-' !in a && '-' !in b by {
      assert forall k :: 0 <= k < |a| ==> IsDigit(a[k]);
      assert forall k :: 0 <= k < |b| ==> IsDigit(b[k]);
    }
    var tok := Token(prefix, p);
    ParseNatString(p.0);
    ParseNatString(p.1);
    if p.0 == p.1 {
      assert tok == prefix + a;
      assert tok[|prefix|..] == a;
      SplitNoSeparator(a, '-');
    } else {
      assert tok == prefix + (a + "-" + b);
      assert tok[|prefix|..] == a + "-" + b;
      assert Join([a, b], '-') == a + "-" + b;
      SplitJoin([a, b], '-');
    }
  }

  /** Reads a whole range list back into the integers it covers. */
  function ExpandTokens(prefix: string, toks: seq<string>): Option<seq<int>>
  {
    if |toks| == 0 then Some([])
    else
      match (ParseToken(prefix, toks[0]), ExpandTokens(prefix, toks[1..]))
      case (Some(p), Some(rest)) => Some(Interval(p.0, p.1) + rest)
      case _ => None
  }

  lemma {:induction false} ExpandTokensOfPairs(prefix: string, pairs: seq<(int, int)>)
    requires forall k :: 0 <= k < |pairs| ==> 0 <= pairs[k].0 && 0 <= pairs[k].1
    ensures ExpandTokens(prefix, Tokens(prefix, pairs)) == Some(Expand(pairs))
  {
    if |pairs| > 0 {
      TokenRoundTrip(prefix, pairs[0]);
      ExpandTokensOfPairs(prefix, pairs[1..]);
      assert Tokens(prefix, pairs)[1..] == Tokens(prefix, pairs[1..]);
    }
  }

  /** Round trip of `_build_range`: reading the range list back yields the
      designator numbers in ascending order, each as often as it occurred. */
  lemma {:induction false} BuildRangeRoundTrip(l: seq<string>)
    requires BuildRange(l).Ok?
    requires forall i :: 0 <= i < |Numbers(l).value| ==> Numbers(l).value[i] >= 0
    ensures ExpandTokens(Prefix(l[0]), BuildRange(l).value) == Some(SortInts(Numbers(l).value))
  {
    var nums := Numbers(l).value;
    var sorted := SortInts(nums);
    var pairs := Ranges(sorted);
    RangesRoundTrip(sorted);
    RangesMembers(sorted);
    forall k | 0 <= k < |pairs|
      ensures 0 <= pairs[k].0 && 0 <= pairs[k].1
    {
      SortIntsMembers(nums, pairs[k].0);
      SortIntsMembers(nums, pairs[k].1);
    }
    ExpandTokensOfPairs(Prefix(l[0]), pairs);
  }

  /** Distinct designators compress into maximal runs: no two consecutive
      tokens could have been merged into one. */
  lemma {:induction false} BuildRangeMaximal(l: seq<string>)
    requires BuildRange(l).Ok?
    requires forall i, j :: 0 <= i < j < |l| ==> Numbers(l).value[i] != Numbers(l).value[j]
    ensures var pairs := Ranges(SortInts(Numbers(l).value));
            forall k :: 0 <= k < |pairs| - 1 ==> Apart(pairs, k)
  {
    var nums := Numbers(l).value;
    var sorted := SortInts(nums);
    forall a, b | 0 <= a < b < |sorted|
      ensures sorted[a] != sorted[b]
    {
      if sorted[a] == sorted[b] {
        MultisetTwice(sorted, a, b);
        DistinctOnce(nums, sorted[a]);
      }
    }
    AscendingDistinct(sorted);
    RangesMaximal(sorted);
  }

  lemma {:induction false} MultisetTwice(xs: seq<int>, a: nat, b: nat)
    requires a < b < |xs| && xs[a] == xs[b]
    ensures multiset(xs)[xs[a]] >= 2
  {
    assert xs == xs[..b] + [xs[b]] + xs[b + 1..];
    assert xs[a] in xs[..b];
    assert multiset(xs[..b])[xs[a]] >= 1;
  }

  lemma {:induction false} DistinctOnce(xs: seq<int>, v: int)
    requires forall i, j :: 0 <= i < j < |xs| ==> xs[i] != xs[j]
    ensures multiset(xs)[v] <= 1
  {
    if |xs| > 0 {
      DistinctOnce(xs[1..], v);
      assert xs == [xs[0]] + xs[1..];
      if xs[0] == v {
        assert v !in xs[1..];
      }
    }
  }

  /** Designators written as one prefix followed by numbers. */
  function Rendered(prefix: string, ns: seq<nat>): (l: seq<string>)
    ensures |l| == |ns| && forall i :: 0 <= i < |ns| ==> l[i] == prefix + NatToString(ns[i])
  {
    seq(|ns|, i requires 0 <= i < |ns| => prefix + NatToString(ns[i]))
  }

  /** Designators written as a letter prefix and a number share that prefix
      and read back as exactly those numbers, in order. */
  lemma {:induction false} RenderedNumbers(prefix: string, ns: seq<nat>)
    requires |prefix| > 0 && AllLetters(prefix)
    ensures SamePrefix(Rendered(prefix, ns))
    ensures forall i :: 0 <= i < |ns| ==> Prefix(Rendered(prefix, ns)[i]) == prefix
    ensures Numbers(Rendered(prefix, ns)) == Ok(ns)
  {
    var l := Rendered(prefix, ns);
    forall i | 0 <= i < |l|
      ensures Prefix(l[i]) == prefix && NumberOf(l[i]) == Some(ns[i] as int)
    {
      DesignatorRoundTrip(prefix, ns[i]);
    }
    assert AllNumbered(l);
    var v := Numbers(l).value;
    assert forall i :: 0 <= i < |ns| ==> v[i] == ns[i];
    assert v == ns;
  }

  lemma {:induction false} ExampleSortTail()
    ensures SortInts([1, 2, 5]) == [1, 2, 5]
  {
    ExampleSortPair();
    var c := [1, 2, 5];
    assert c[1..] == [2, 5];
  }

  lemma {:induction false} ExampleSortPair()
    ensures SortInts([2, 5]) == [2, 5]
  {
    var c := [2, 5];
    assert c[1..] == [5] && [5][1..] == [];
    assert SortInts([5]) == [5];
  }

  lemma {:induction false} ExampleInsert()
    ensures InsertInt(3, [1, 2, 5]) == [1, 2, 3, 5]
  {
    var c := [1, 2, 5];
    assert c[1..] == [2, 5];
    assert [2, 5][1..] == [5];
    assert InsertInt(3, [5]) == [3, 5];
    assert InsertInt(3, [2, 5]) == [2] + [3, 5];
    assert InsertInt(3, c) == [1] + [2, 3, 5];
  }

  lemma {:induction false} ExampleSort(nums: seq<int>)
    requires nums == [3, 1, 2, 5]
    ensures SortInts(nums) == [1, 2, 3, 5]
  {
    ExampleSortTail();
    ExampleInsert();
    assert nums[1..] == [1, 2, 5];
  }

  lemma {:induction false} ExampleRuns(sorted: seq<int>)
    requires sorted == [1, 2, 3, 5]
    ensures Ranges(sorted) == [(1, 3), (5, 5)]
  {
    assert RunEnd(sorted, 2) == 3;
    assert RunEnd(sorted, 1) == 3;
    assert RunEnd(sorted, 0) == 3;
    assert RunEnd(sorted, 3) == 4;
    assert RangesFrom(sorted, 4) == [];
    assert RangesFrom(sorted, 3) == [(5, 5)];
  }

  lemma {:induction false} ExampleTokens(pairs: seq<(int, int)>)
    requires pairs == [(1, 3), (5, 5)]
    ensures Tokens("R", pairs) == ["R1-3", "R5"]
  {
    assert Token("R", (1, 3)) == "R1-3";
    assert Token("R", (5, 5)) == "R5";
  }

  lemma {:induction false} ExampleCompress(nums: seq<int>)
    requires nums == [3, 1, 2, 5]
    ensures Tokens("R", Ranges(SortInts(nums))) == ["R1-3", "R5"]
  {
    ExampleSort(nums);
    ExampleRuns(SortInts(nums));
    ExampleTokens(Ranges(SortInts(nums)));
  }

  /** `R3, R1, R2, R5` compress to `R1-3, R5`. */
  lemma {:induction false} BuildRangeExample()
    ensures BuildRange(Rendered("R", [3, 1, 2, 5])) == Ok(["R1-3", "R5"])
  {
    var l := Rendered("R", [3, 1, 2, 5]);
    RenderedNumbers("R", [3, 1, 2, 5]);
    assert AllLetters("R");
    BuildRangeShape(l);
    ExampleCompress([3, 1, 2, 5]);
  }
}

=== FILE: export.dfy ===
/** eagle_automation/export.py, PyEagleBOMExport: the part lines of a
    schematic become a table behind a fixed header row, one row per line,
    ordered by part number and numbered from 1, and the table goes through
    the fan-out writer to every output path. The `with BOMWriter(...)` block
    that writes a header and then data rows is shared with the legacy BOM
    (module LegacyBom) as `Emit`. */
module BomExport {
  import opened Results
  import opened Values
  import opened Text
  import opened Sorting
  import opened Catalogue
  import opened Designators
  import opened PartLines
  import opened Common
  import opened BomOutput

  /* ---------------------------------------------------------------- writing a table */

  /** The rows one `with` block hands to `writerow`: the header with
      `header=True`, then every data row. */
  function Framed(header: Row, rows: seq<Row>): (r: seq<(Row, bool)>)
    ensures |r| == |rows| + 1
    ensures r[0] == (header, true)
    ensures forall k :: 0 <= k < |rows| ==> r[k + 1] == (rows[k], false)
  {
    [(header, true)] + seq(|rows|, k requires 0 <= k < |rows| => (rows[k], false))
  }

  /** A `with BOMWriter(paths) as w:` block that writes `header` and then the
      data rows; `body` is the table, or the error raised while producing it.
      The writer is constructed and opened before any row is produced, so an
      unsupported path or a refused open wins over an error of the table; an
      error of the table leaves the block through `__exit__`, whose failing
      close replaces it. */
  function Emit(reg: Registry, paths: seq<string>, header: Row, body: Result<seq<Row>>,
                openRefused: set<string>, closeRefused: set<string>): (r: Result<seq<Backend>>)
    ensures r.Ok? <==> && body.Ok? && AllSupported(reg, paths)
                       && (forall i :: 0 <= i < |paths| ==> paths[i] !in openRefused)
                       && (forall i :: 0 <= i < |paths| ==> paths[i] !in closeRefused)
    ensures !AllSupported(reg, paths) ==>
              r == Err(UnsupportedFormat(GetExtension(paths[FirstUnsupported(reg, paths)])))
    ensures AllSupported(reg, paths) && (exists i :: 0 <= i < |paths| && paths[i] in openRefused) ==>
              r.Err? && r.error.OpenFailed?
    ensures AllSupported(reg, paths) && (forall i :: 0 <= i < |paths| ==> paths[i] !in openRefused) && body.Err? ==>
              && r.Err?
              && ((forall i :: 0 <= i < |paths| ==> paths[i] !in closeRefused) ==> r.error == body.error)
              && ((exists i :: 0 <= i < |paths| && paths[i] in closeRefused) ==> r.error.CloseFailed?)
  {
    match body
    case Ok(rows) => Session(reg, paths, Framed(header, rows), openRefused, closeRefused)
    case Err(e) =>
      var ws :- NewWriter(reg, paths);
      var entered := Enter(ws, openRefused);
      assert forall i :: 0 <= i < |paths| ==> ws[i].path == paths[i];
      if entered.1.Fail? then Err(entered.1.error)
      else
        assert forall i :: 0 <= i < |paths| ==> entered.0[i].path == paths[i];
        var exited := Exit(entered.0, closeRefused);
        if exited.1.Fail? then Err(exited.1.error) else Err(e)
  }

  /** After a successful block, every output is closed and every JSON or YAML
      output holds the header and then the data rows. */
  lemma {:induction false} EmitOutputs(reg: Registry, paths: seq<string>, header: Row, body: Result<seq<Row>>,
                    openRefused: set<string>, closeRefused: set<string>, i: nat)
    requires Emit(reg, paths, header, body, openRefused, closeRefused).Ok?
    requires i < |paths|
    ensures body.Ok?
    ensures var b := Emit(reg, paths, header, body, openRefused, closeRefused).value[i];
            && b.path == paths[i] && b.phase == Closed
            && ((b.format == Json || b.format == Yaml) ==> Emitted(b) == [header] + body.value)
  {
    var rows := body.value;
    var framed := Framed(header, rows);
    SessionOutputs(reg, paths, framed, openRefused, closeRefused, i);
    var b := Session(reg, paths, framed, openRefused, closeRefused).value[i];
    if b.format == Json || b.format == Yaml {
      assert RowsOf(framed) == [header] + rows by {
        assert forall k :: 1 <= k < |framed| ==> RowsOf(framed)[k] == rows[k - 1];
      }
    }
  }

  /** After a successful block an XLSX sheet has one line per row, the header
      titled and the data rows shaded on even lines. */
  lemma {:induction false} EmitStyles(reg: Registry, paths: seq<string>, header: Row, body: Result<seq<Row>>,
                    openRefused: set<string>, closeRefused: set<string>, i: nat)
    requires Emit(reg, paths, header, body, openRefused, closeRefused).Ok?
    requires i < |paths|
    requires Emit(reg, paths, header, body, openRefused, closeRefused).value[i].format == Xlsx
    ensures body.Ok?
    ensures var b := Emit(reg, paths, header, body, openRefused, closeRefused).value[i];
            && b.line == |body.value| + 1
            && |b.styles| == |body.value| + 1
            && b.styles[0] == Title
            && forall k :: 1 <= k <= |body.value| ==> b.styles[k] == (if k % 2 == 0 then Shaded else Plain)
  {
    var framed := Framed(header, body.value);
    assert Emit(reg, paths, header, body, openRefused, closeRefused)
        == Session(reg, paths, framed, openRefused, closeRefused);
    SessionStyles(reg, paths, framed, openRefused, closeRefused, i, 0);
    forall k | 1 <= k <= |body.value|
      ensures Session(reg, paths, framed, openRefused, closeRefused).value[i].styles[k]
           == (if k % 2 == 0 then Shaded else Plain)
    {
      SessionStyles(reg, paths, framed, openRefused, closeRefused, i, k);
    }
  }

  /* ---------------------------------------------------------------- the table */

  /** The fixed header row. */
  const BomHeader: seq<string> := ["Item", "Partnum", "Qty", "Fit", "Manufacturer", "Reference", "Description", "RefDes"]

  /** The keys asked of every part line, with ranges compressed. */
  const LineKeys: seq<string> := ["Partnum", "Quantity", "Fitted", "Manufacturer", "Reference", "Description", "RefDes"]

  /** The sort key of a part line. */
  function PartnumOf(line: PartLine): string
  {
    line.descriptor.partnum
  }

  /** A part line whose designators compress into ranges: there is at least
      one, they share a prefix and each carries a number. */
  predicate Renderable(line: PartLine)
  {
    |line.parts| > 0 && SamePrefix(line.parts) && AllNumbered(line.parts)
  }

  predicate AllRenderable(lines: seq<PartLine>)
  {
    forall i :: 0 <= i < |lines| ==> Renderable(lines[i])
  }

  /** A line yields all its cells exactly when its designators compress into
      ranges: every other key of the row is always present. */
  lemma {:induction false} RenderableIff(line: PartLine)
    ensures AllCells(line, LineKeys, true) <==> Renderable(line)
    ensures !Renderable(line) ==> GetLine(line, LineKeys, true) == Err(BuildRange(line.parts).error)
  {
    forall k | 0 <= k < 6 {
      DescriptorCellOk(line, k);
    }
    assert LineKeys[6] == "RefDes";
    if !Renderable(line) {
      var i := FirstBadKey(line, LineKeys, true);
      assert i == 6;
    }
  }

  /** The six cells before RefDes always exist. */
  lemma {:induction false} DescriptorCellOk(line: PartLine, k: nat)
    requires k < 6
    ensures Cell(line, LineKeys[k], true).Ok?
  {
    var keys := DescriptorKeys(line.descriptor);
    assert LineFields <= keys;
    if k == 0 {
      assert LineKeys[0] == "Partnum" && "Partnum" in LineFields;
    } else if k == 1 {
      assert LineKeys[1] == "Quantity";
    } else if k == 2 {
      assert LineKeys[2] == "Fitted" && "Fitted" in LineFields;
    } else if k == 3 {
      assert LineKeys[3] == "Manufacturer" && "Manufacturer" in LineFields;
    } else if k == 4 {
      assert LineKeys[4] == "Reference" && "Reference" in LineFields;
    } else {
      assert LineKeys[5] == "Description" && "Description" in LineFields;
    }
  }

  function FirstUnrenderable(lines: seq<PartLine>): (i: nat)
    requires !AllRenderable(lines)
    ensures i < |lines| && !Renderable(lines[i])
    ensures forall j :: 0 <= j < i ==> Renderable(lines[j])
  {
    if !Renderable(lines[0]) then 0
    else
      var i := FirstUnrenderable(lines[1..]);
      assert forall j :: 1 <= j <= i ==> lines[j] == lines[1..][..i][j - 1];
      i + 1
  }

  /** The data rows of `lines`, the first numbered `first`: the number as a
      string followed by the line's cells for LineKeys. */
  function NumberedRows(lines: seq<PartLine>, first: nat): (r: Result<seq<Row>>)
    ensures r.Ok? <==> AllRenderable(lines)
    ensures r.Ok? ==> |r.value| == |lines|
                      && forall i :: 0 <= i < |lines| ==>
                           r.value[i] == [Str(NatToString(first + i))] + GetLine(lines[i], LineKeys, true).value
    ensures r.Err? ==> BuildRange(lines[FirstUnrenderable(lines)].parts) == Err(r.error)
  {
    if AllRenderable(lines) then
      assert forall i :: 0 <= i < |lines| ==> GetLine(lines[i], LineKeys, true).Ok? by {
        forall i | 0 <= i < |lines| { RenderableIff(lines[i]); }
      }
      Ok(seq(|lines|, i requires 0 <= i < |lines| =>
               [Str(NatToString(first + i))] + GetLine(lines[i], LineKeys, true).value))
    else
      var k := FirstUnrenderable(lines);
      RenderableIff(lines[k]);
      Err(GetLine(lines[k], LineKeys, true).error)
  }

  /** The table of the export: the part lines sorted by part number, numbered
      from 1. */
  function BomRows(db: Database, parts: seq<PlacedPart>, partnumKey: string): (r: Result<seq<Row>>)
    requires Valid(db)
    ensures r.Ok? <==> AllPartsBuild(db, parts, partnumKey) && AllRenderable(BuildBom(db, parts, partnumKey).value)
    ensures !AllPartsBuild(db, parts, partnumKey) ==> r == Err(PartError(parts[FirstUnbuilt(db, parts, partnumKey)]))
    ensures r.Ok? ==> |r.value| == |BuildBom(db, parts, partnumKey).value|
  {
    var lines :- BuildBom(db, parts, partnumKey);
    var sorted := SortBy(lines, PartnumOf);
    SortedRenderable(lines, sorted);
    NumberedRows(sorted, 1)
  }

  /** Sorting neither adds nor drops a line, so it keeps renderability. */
  lemma {:induction false} SortedRenderable(lines: seq<PartLine>, sorted: seq<PartLine>)
    requires multiset(sorted) == multiset(lines)
    ensures |sorted| == |lines|
    ensures AllRenderable(sorted) <==> AllRenderable(lines)
  {
    assert |sorted| == |lines| by {
      assert |multiset(sorted)| == |multiset(lines)|;
    }
    if AllRenderable(lines) {
      forall i | 0 <= i < |sorted|
        ensures Renderable(sorted[i])
      {
        assert sorted[i] in multiset(lines);
      }
    }
    if AllRenderable(sorted) {
      forall j | 0 <= j < |lines|
        ensures Renderable(lines[j])
      {
        assert lines[j] in multiset(sorted);
      }
    }
  }

  /** Row `i` of the table: 8 cells, the item number `i + 1`, then part
      number, quantity, fitted flag, manufacturer, reference, description and
      the compressed designators of the `i`-th line in part-number order. */
  lemma {:induction false} BomRowCells(db: Database, parts: seq<PlacedPart>, partnumKey: string, i: nat)
    requires Valid(db)
    requires BomRows(db, parts, partnumKey).Ok?
    requires i < |BomRows(db, parts, partnumKey).value|
    ensures var row := BomRows(db, parts, partnumKey).value[i];
            var line := SortBy(BuildBom(db, parts, partnumKey).value, PartnumOf)[i];
            && |row| == |BomHeader|
            && row[0].Str? && ParseInt(row[0].s) == Some(i + 1)
            && row[1] == Str(line.descriptor.partnum)
            && row[2].Str? && ParseInt(row[2].s) == Some(|line.parts|)
            && row[3] == Bool(line.descriptor.fitted)
            && row[4] == line.descriptor.manufacturer
            && row[5] == line.descriptor.reference
            && row[6] == line.descriptor.description
            && row[7] == Str(Join(BuildRange(line.parts).value, ','))
  {
    var line := SortBy(BuildBom(db, parts, partnumKey).value, PartnumOf)[i];
    BomRowIs(db, parts, partnumKey, i);
    ParseNatString(i + 1);
    ParseNatString(|line.parts|);
    LineCells(line);
  }

  /** Row `i` of the table is the item number `i + 1` followed by the cells of
      the `i`-th line in part-number order. */
  lemma {:induction false} BomRowIs(db: Database, parts: seq<PlacedPart>, partnumKey: string, i: nat)
    requires Valid(db)
    requires BomRows(db, parts, partnumKey).Ok?
    requires i < |BomRows(db, parts, partnumKey).value|
    ensures var line := SortBy(BuildBom(db, parts, partnumKey).value, PartnumOf)[i];
            var row := BomRows(db, parts, partnumKey).value[i];
            && Renderable(line)
            && |row| > 0 && row[0] == Str(NatToString(i + 1))
            && GetLine(line, LineKeys, true) == Ok(row[1..])
  {
    var lines := BuildBom(db, parts, partnumKey).value;
    var sorted := SortBy(lines, PartnumOf);
    SortedRenderable(lines, sorted);
    assert BomRows(db, parts, partnumKey) == NumberedRows(sorted, 1);
    RenderableIff(sorted[i]);
    var cells := GetLine(sorted[i], LineKeys, true).value;
    var row := NumberedRows(sorted, 1).value[i];
    assert row == [Str(NatToString(1 + i))] + cells;
    assert row[1..] == cells;
  }

  /** The seven cells of a renderable line, in LineKeys order. */
  lemma {:induction false} LineCells(line: PartLine)
    requires Renderable(line)
    ensures GetLine(line, LineKeys, true).Ok?
    ensures var d := line.descriptor;
            var cells := GetLine(line, LineKeys, true).value;
            && |cells| == 7
            && cells[0] == Str(d.partnum) && cells[1] == Str(NatToString(|line.parts|))
            && cells[2] == Bool(d.fitted) && cells[3] == d.manufacturer
            && cells[4] == d.reference && cells[5] == d.description
            && cells[6] == Str(Join(BuildRange(line.parts).value, ','))
  {
    var d := line.descriptor;
    RenderableIff(line);
    var cells := GetLine(line, LineKeys, true).value;
    assert "Fitted"[0] != "RefDes"[0];
    DescriptorCell(line, "Partnum", true);
    DescriptorCell(line, "Fitted", true);
    DescriptorCell(line, "Manufacturer", true);
    DescriptorCell(line, "Reference", true);
    DescriptorCell(line, "Description", true);
    assert Lookup(d, "Fitted") == Some(Bool(d.fitted));
    assert Lookup(d, "Manufacturer") == Some(d.manufacturer);
    assert Lookup(d, "Reference") == Some(d.reference);
    assert Lookup(d, "Description") == Some(d.description);
    assert |cells| == 7;
    assert Cell(line, LineKeys[0], true) == Ok(cells[0]);
    assert Cell(line, LineKeys[1], true) == Ok(cells[1]);
    assert Cell(line, LineKeys[2], true) == Ok(cells[2]);
    assert Cell(line, LineKeys[3], true) == Ok(cells[3]);
    assert Cell(line, LineKeys[4], true) == Ok(cells[4]);
    assert Cell(line, LineKeys[5], true) == Ok(cells[5]);
    assert Cell(line, LineKeys[6], true) == Ok(cells[6]);
  }

  /** The rows come in nondecreasing part-number order. */
  lemma {:induction false} BomRowsOrdered(db: Database, parts: seq<PlacedPart>, partnumKey: string)
    requires Valid(db)
    requires BomRows(db, parts, partnumKey).Ok?
    ensures var rows := BomRows(db, parts, partnumKey).value;
            forall a, b :: 0 <= a < b < |rows| ==>
              (|rows[a]| == |rows[b]| == 8 && rows[a][1].Str? && rows[b][1].Str? && LexLe(rows[a][1].s, rows[b][1].s))
  {
    var rows: seq<Row> := BomRows(db, parts, partnumKey).value;
    var sorted := SortBy(BuildBom(db, parts, partnumKey).value, PartnumOf);
    forall a: int, b: int | 0 <= a < b < |rows|
      ensures |rows[a]| == |rows[b]| == 8 && rows[a][1].Str? && rows[b][1].Str?
              && LexLe(rows[a][1].s, rows[b][1].s)
    {
      BomRowCells(db, parts, partnumKey, a);
      BomRowCells(db, parts, partnumKey, b);
      assert LexLe(PartnumOf(sorted[a]), PartnumOf(sorted[b]));
    }
  }

  /** Every part line of the schematic is the subject of exactly as many rows
      as it occurs among the lines: sorting is a permutation. */
  lemma {:induction false} BomRowsLines(db: Database, parts: seq<PlacedPart>, partnumKey: string)
    requires Valid(db)
    requires BomRows(db, parts, partnumKey).Ok?
    ensures multiset(SortBy(BuildBom(db, parts, partnumKey).value, PartnumOf)) == multiset(BuildBom(db, parts, partnumKey).value)
    ensures |BomRows(db, parts, partnumKey).value| == |BuildBom(db, parts, partnumKey).value|
  {
  }

  /* ---------------------------------------------------------------- the whole export */

  /** `PyEagleBOMExport.export`: the catalogue is validated (in the order
      `order` enumerates it) when the database is constructed, then the block
      writes the header and the table to every output path. */
  function Export(db: Database, order: seq<string>, parts: seq<PlacedPart>, partnumKey: string,
                  reg: Registry, outPaths: seq<string>,
                  openRefused: set<string>, closeRefused: set<string>): (r: Result<seq<Backend>>)
    requires Enumerates(order, db)
    ensures !Valid(db) ==> r.Err? && exists i :: 0 <= i < |order| && CheckRecord(order[i], db[order[i]]) == Fail(r.error)
    ensures !Valid(db) ==> r == Err(ValidateDb(db, order).error)
    ensures r.Ok? <==> && Valid(db) && BomRows(db, parts, partnumKey).Ok? && AllSupported(reg, outPaths)
                       && (forall i :: 0 <= i < |outPaths| ==> outPaths[i] !in openRefused)
                       && (forall i :: 0 <= i < |outPaths| ==> outPaths[i] !in closeRefused)
  {
    ValidateDbExact(db, order);
    var checked := ValidateDb(db, order);
    if checked.Fail? then
      assert exists i :: 0 <= i < |order| && checked == CheckRecord(order[i], db[order[i]]);
      Err(checked.error)
    else
      Emit(reg, outPaths, Cells(BomHeader), BomRows(db, parts, partnumKey), openRefused, closeRefused)
  }

  /** Every JSON or YAML output of a successful export holds the header row and
      then one row per part line. */
  lemma {:induction false} ExportOutputs(db: Database, order: seq<string>, parts: seq<PlacedPart>, partnumKey: string,
                      reg: Registry, outPaths: seq<string>,
                      openRefused: set<string>, closeRefused: set<string>, i: nat)
    requires Enumerates(order, db)
    requires Export(db, order, parts, partnumKey, reg, outPaths, openRefused, closeRefused).Ok?
    requires i < |outPaths|
    ensures Valid(db)
    ensures var b := Export(db, order, parts, partnumKey, reg, outPaths, openRefused, closeRefused).value[i];
            && b.path == outPaths[i] && b.phase == Closed
            && ((b.format == Json || b.format == Yaml) ==>
                  && |Emitted(b)| == |BuildBom(db, parts, partnumKey).value| + 1
                  && Emitted(b)[0] == Cells(BomHeader)
                  && Emitted(b)[1..] == BomRows(db, parts, partnumKey).value)
  {
    ValidateDbExact(db, order);
    EmitOutputs(reg, outPaths, Cells(BomHeader), BomRows(db, parts, partnumKey), openRefused, closeRefused, i);
  }
}

=== FILE: grouping.dfy ===
/** Grouping of keyed items the way the core does it with
    `dict.setdefault(key, []).append(value)`: one group per distinct key,
    values in arrival order. Python 2 iterates such a dict in an order of its
    own choosing; the model lists the groups in order of first occurrence. */
module Grouping {

  /** The keys occurring in a list of keyed items. */
  function ItemKeys<K, V>(items: seq<(K, V)>): set<K>
  {
    set i | 0 <= i < |items| :: items[i].0
  }

  /** The values filed under key `k`, in arrival order. */
  function Filter<K(==), V>(items: seq<(K, V)>, k: K): seq<V>
  {
    if |items| == 0 then []
    else Filter(items[..|items| - 1], k) + (if items[|items| - 1].0 == k then [items[|items| - 1].1] else [])
  }

  predicate DistinctKeys<K(==), V>(gs: seq<(K, seq<V>)>)
  {
    forall a, b :: 0 <= a < b < |gs| ==> gs[a].0 != gs[b].0
  }

  function GroupKeys<K, V>(gs: seq<(K, seq<V>)>): set<K>
  {
    set j | 0 <= j < |gs| :: gs[j].0
  }

  /** The number of values held by all groups together. */
  function Total<K, V>(gs: seq<(K, seq<V>)>): nat
  {
    if |gs| == 0 then 0 else |gs[0].1| + Total(gs[1..])
  }

  /** The position of the group for `k`, or -1 when there is none. */
  function Find<K(==), V>(gs: seq<(K, seq<V>)>, k: K): (j: int)
    ensures -1 <= j < |gs|
    ensures j >= 0 ==> gs[j].0 == k
    ensures j == -1 ==> forall i :: 0 <= i < |gs| ==> gs[i].0 != k
  {
    if |gs| == 0 then -1
    else if gs[|gs| - 1].0 == k then |gs| - 1
    else Find(gs[..|gs| - 1], k)
  }

  /** `groups.setdefault(k, []).append(v)`. */
  function Add<K(==), V>(gs: seq<(K, seq<V>)>, item: (K, V)): (r: seq<(K, seq<V>)>)
    requires DistinctKeys(gs)
    ensures DistinctKeys(r)
    ensures GroupKeys(r) == GroupKeys(gs) + {item.0}
    ensures forall j :: 0 <= j < |r| && r[j].0 != item.0 ==> j < |gs| && r[j] == gs[j]
    ensures forall j :: 0 <= j < |r| && r[j].0 == item.0 ==>
              if j < |gs| then r[j].1 == gs[j].1 + [item.1] else r[j].1 == [item.1]
    ensures |r| == if item.0 in GroupKeys(gs) then |gs| else |gs| + 1
  {
    var j := Find(gs, item.0);
    if j >= 0 then
      var r := gs[j := (item.0, gs[j].1 + [item.1])];
      assert GroupKeys(r) == GroupKeys(gs) by {
        assert forall i :: 0 <= i < |r| ==> r[i].0 == gs[i].0;
      }
      r
    else
      var r := gs + [(item.0, [item.1])];
      assert item.0 !in GroupKeys(gs);
      assert GroupKeys(r) == GroupKeys(gs) + {item.0} by {
        assert r[|gs|].0 == item.0;
        assert forall i :: 0 <= i < |gs| ==> r[i] == gs[i];
      }
      r
  }

  /** The groups `setdefault`/`append` builds from `items`, in first-occurrence order. */
  function Group<K(==), V>(items: seq<(K, V)>): (gs: seq<(K, seq<V>)>)
    ensures DistinctKeys(gs)
    ensures |gs| <= |items|
  {
    if |items| == 0 then []
    else Add(Group(items[..|items| - 1]), items[|items| - 1])
  }

  /** The groups are keyed by exactly the keys that occur. */
  lemma {:induction false} GroupKeysExact<K, V>(items: seq<(K, V)>)
    ensures GroupKeys(Group(items)) == ItemKeys(items)
  {
    if |items| > 0 {
      var init := items[..|items| - 1];
      GroupKeysExact(init);
      assert ItemKeys(items) == ItemKeys(init) + {items[|items| - 1].0} by {
        assert forall i :: 0 <= i < |init| ==> init[i] == items[i];
      }
    }
  }

  /** Each group holds exactly the values filed under its key, in arrival order. */
  lemma {:induction false} GroupContents<K, V>(items: seq<(K, V)>)
    ensures var gs := Group(items);
            forall j :: 0 <= j < |gs| ==> gs[j].1 == Filter(items, gs[j].0)
  {
    if |items| > 0 {
      var init := items[..|items| - 1];
      var last := items[|items| - 1];
      GroupContents(init);
      GroupKeysExact(init);
      var g0 := Group(init);
      var gs := Group(items);
      forall j | 0 <= j < |gs|
        ensures gs[j].1 == Filter(items, gs[j].0)
      {
        if gs[j].0 != last.0 {
          assert gs[j] == g0[j];
        } else if j >= |g0| {
          assert last.0 !in GroupKeys(g0);
          FilterAbsent(init, last.0);
        }
      }
    }
  }

  /** A key that never occurs files nothing. */
  lemma {:induction false} FilterAbsent<K, V>(items: seq<(K, V)>, k: K)
    requires k !in ItemKeys(items)
    ensures Filter(items, k) == []
  {
    if |items| > 0 {
      var init := items[..|items| - 1];
      assert items[|items| - 1].0 in ItemKeys(items);
      assert ItemKeys(init) <= ItemKeys(items) by {
        assert forall i :: 0 <= i < |init| ==> init[i] == items[i];
      }
      FilterAbsent(init, k);
    }
  }

  /** Whatever is filed under `k` came from an item keyed `k`. */
  lemma {:induction false} FilterMember<K, V>(items: seq<(K, V)>, k: K, v: V)
    requires v in Filter(items, k)
    ensures exists i :: 0 <= i < |items| && items[i] == (k, v)
  {
    var init := items[..|items| - 1];
    if v in Filter(init, k) {
      FilterMember(init, k, v);
      var i :| 0 <= i < |init| && init[i] == (k, v);
      assert items[i] == (k, v);
    } else {
      assert items[|items| - 1] == (k, v);
    }
  }

  /** Whatever a group holds came from an item carrying the group's key. */
  lemma {:induction false} GroupMember<K, V>(items: seq<(K, V)>, j: nat, v: V)
    requires j < |Group(items)| && v in Group(items)[j].1
    ensures exists i :: 0 <= i < |items| && items[i] == (Group(items)[j].0, v)
  {
    GroupContents(items);
    FilterMember(items, Group(items)[j].0, v);
  }

  /** Every group is non-empty. */
  lemma {:induction false} GroupNonEmpty<K, V>(items: seq<(K, V)>)
    ensures var gs := Group(items);
            forall j :: 0 <= j < |gs| ==> |gs[j].1| > 0
  {
    var gs := Group(items);
    GroupContents(items);
    GroupKeysExact(items);
    forall j | 0 <= j < |gs|
      ensures |gs[j].1| > 0
    {
      assert gs[j].0 in GroupKeys(gs);
      var i :| 0 <= i < |items| && items[i].0 == gs[j].0;
      FilterPresent(items, i);
    }
  }

  lemma {:induction false} FilterPresent<K, V>(items: seq<(K, V)>, i: nat)
    requires i < |items|
    ensures items[i].1 in Filter(items, items[i].0)
  {
    var init := items[..|items| - 1];
    if i < |items| - 1 {
      FilterPresent(init, i);
    }
  }

  lemma {:induction false} TotalUpdate<K, V>(gs: seq<(K, seq<V>)>, j: nat, g: (K, seq<V>))
    requires j < |gs|
    ensures Total(gs[j := g]) == Total(gs) - |gs[j].1| + |g.1|
  {
    if j > 0 {
      TotalUpdate(gs[1..], j - 1, g);
      assert gs[j := g][1..] == gs[1..][j - 1 := g];
    }
  }

  lemma {:induction false} TotalAppend<K, V>(gs: seq<(K, seq<V>)>, g: (K, seq<V>))
    ensures Total(gs + [g]) == Total(gs) + |g.1|
  {
    if |gs| > 0 {
      TotalAppend(gs[1..], g);
      assert (gs + [g])[1..] == gs[1..] + [g];
    }
  }

  /** Conservation: the groups together hold every value exactly once. */
  lemma {:induction false} GroupTotal<K, V>(items: seq<(K, V)>)
    ensures Total(Group(items)) == |items|
  {
    if |items| > 0 {
      var init := items[..|items| - 1];
      var last := items[|items| - 1];
      GroupTotal(init);
      var g0 := Group(init);
      var j := Find(g0, last.0);
      if j >= 0 {
        assert Group(items) == g0[j := (last.0, g0[j].1 + [last.1])];
        TotalUpdate(g0, j, (last.0, g0[j].1 + [last.1]));
      } else {
        assert Group(items) == g0 + [(last.0, [last.1])];
        TotalAppend(g0, (last.0, [last.1]));
      }
    }
  }
}

=== FILE: legacy_bom.dfy ===
/** eagle_automation/export.py, EagleScriptBOMExport.generate_bom_output: the
    older BOM path. A script run inside the CAD program lists every placed
    part that has a package (prefix, designator, value, description,
    package); the parts are grouped by prefix, then package, then value, and
    each group becomes one row with its size and its designator numbers
    compressed into runs. */
module LegacyBom {
  import opened Results
  import opened Values
  import opened Text
  import opened Common
  import opened Designators
  import opened Grouping
  import opened BomOutput
  import opened BomExport

  /** One entry of the part list the script writes. */
  datatype Item = Item(prefix: string, designator: string, value: string, description: string, package: string)

  /* ---------------------------------------------------------------- designator numbers */

  /** `re.sub(r'[a-zA-Z]*', '', s)`: every ASCII letter removed. */
  function StripLetters(s: string): (r: string)
    ensures |r| <= |s|
    ensures forall k :: 0 <= k < |r| ==> !IsLetter(r[k])
  {
    if |s| == 0 then ""
    else if IsLetter(s[0]) then StripLetters(s[1..])
    else [s[0]] + StripLetters(s[1..])
  }

  /** Removing letters distributes over concatenation. */
  lemma {:induction false} StripLettersAppend(a: string, b: string)
    ensures StripLetters(a + b) == StripLetters(a) + StripLetters(b)
  {
    if |a| > 0 {
      StripLettersAppend(a[1..], b);
      assert (a + b)[0] == a[0];
      assert (a + b)[1..] == a[1..] + b;
      if !IsLetter(a[0]) {
        assert [a[0]] + (StripLetters(a[1..]) + StripLetters(b)) == ([a[0]] + StripLetters(a[1..])) + StripLetters(b);
      }
    } else {
      assert a + b == b;
    }
  }

  /** A string without letters is left as it is. */
  lemma {:induction false} StripLettersNone(s: string)
    requires forall k :: 0 <= k < |s| ==> !IsLetter(s[k])
    ensures StripLetters(s) == s
  {
    if |s| > 0 {
      StripLettersNone(s[1..]);
    }
  }

  /** `int(re.sub(r'[a-zA-Z]*', '', designator))`, or `None` where that raises ValueError. */
  function LegacyNumber(designator: string): (r: Option<int>)
    ensures r.Some? <==> IsIntLiteral(Strip(StripLetters(designator)))
  {
    PyInt(StripLetters(designator))
  }

  /** A well-formed designator reads as its digits, as with the newer path. */
  lemma {:induction false} LegacyNumberWellFormed(letters: string, digits: string)
    requires AllLetters(letters)
    requires |digits| > 0 && AllDigits(digits)
    ensures LegacyNumber(letters + digits) == Some(DigitsValue(digits))
  {
    StripDesignator(letters, digits);
    assert !IsSpace(digits[0]) && !IsSpace(digits[|digits| - 1]) by {
      assert IsDigit(digits[0]) && IsDigit(digits[|digits| - 1]);
    }
    assert Strip(digits) == digits;
  }

  /** Removing the letters of letters-then-digits leaves the digits. */
  lemma {:induction false} StripDesignator(letters: string, digits: string)
    requires AllLetters(letters)
    requires AllDigits(digits)
    ensures StripLetters(letters + digits) == digits
  {
    StripLettersAppend(letters, digits);
    LettersVanish(letters);
    assert forall k :: 0 <= k < |digits| ==> !IsLetter(digits[k]) by {
      assert forall k :: 0 <= k < |digits| ==> IsDigit(digits[k]);
    }
    StripLettersNone(digits);
  }

  lemma {:induction false} LettersVanish(s: string)
    requires AllLetters(s)
    ensures StripLetters(s) == ""
  {
    if |s| > 0 {
      LettersVanish(s[1..]);
    }
  }

  /** Letters anywhere are dropped, so "R1A" reads as 1 here while the newer
      path rejects it. */
  lemma {:induction false} LegacyNumberTrailingLetter(s: string)
    requires s == "R1A"
    ensures LegacyNumber(s) == Some(1)
    ensures NumberOf(s) == None
  {
    TrailingLetterMalformed();
    assert StripLetters("A") == "" by {
      assert IsLetter('A') && "A"[1..] == "";
    }
    assert StripLetters("1A") == "1" by {
      assert !IsLetter('1') && "1A"[1..] == "A";
    }
    assert StripLetters(s) == "1" by {
      assert IsLetter('R') && s[1..] == "1A";
    }
    assert Strip("1") == "1";
    assert DigitsValue("1") == 1 by {
      assert "1"[..0] == "";
    }
  }

  /** Python 2's `int()` skips whitespace after the sign, so the designator
      "R- 5" reads as -5. */
  lemma {:induction false} LegacyNumberSpaceAfterSign(s: string)
    requires s == "R- 5"
    ensures LegacyNumber(s) == Some(-5)
  {
    assert StripLetters(s) == "- 5" by {
      assert IsLetter('R') && s[1..] == "- 5";
      assert StripLetters("- 5") == "- 5" by {
        assert !IsLetter('-') && "- 5"[1..] == " 5";
        assert !IsLetter(' ') && " 5"[1..] == "5";
        assert !IsLetter('5') && "5"[1..] == "";
      }
    }
    assert Strip("- 5") == "- 5";
    ParseIntSpaceAfterSign();
  }

  predicate AllLegacyNumbered(devices: seq<Item>)
  {
    forall k :: 0 <= k < |devices| ==> LegacyNumber(devices[k].designator).Some?
  }

  function FirstLegacyUnnumbered(devices: seq<Item>): (i: nat)
    requires !AllLegacyNumbered(devices)
    ensures i < |devices| && LegacyNumber(devices[i].designator).None?
    ensures forall j :: 0 <= j < i ==> LegacyNumber(devices[j].designator).Some?
  {
    var oks := seq(|devices|, k requires 0 <= k < |devices| => LegacyNumber(devices[k].designator).Some?);
    assert false in oks by {
      var k :| 0 <= k < |devices| && !LegacyNumber(devices[k].designator).Some?;
      assert !oks[k];
    }
    var i := FirstFalse(oks);
    assert forall j :: 0 <= j < i ==> devices[..i][j] == devices[j] && oks[j];
    i
  }

  /** The numbers of a group's designators, in the group's order. */
  function LegacyNumbers(devices: seq<Item>): (r: Result<seq<int>>)
    ensures r.Ok? <==> AllLegacyNumbered(devices)
    ensures r.Ok? ==> |r.value| == |devices|
                      && forall k :: 0 <= k < |devices| ==> Some(r.value[k]) == LegacyNumber(devices[k].designator)
    ensures r.Err? ==> r.error == MalformedDesignator(devices[FirstLegacyUnnumbered(devices)].designator)
  {
    if AllLegacyNumbered(devices) then
      Ok(seq(|devices|, k requires 0 <= k < |devices| => LegacyNumber(devices[k].designator).value))
    else Err(MalformedDesignator(devices[FirstLegacyUnnumbered(devices)].designator))
  }

  /* ---------------------------------------------------------------- range text */

  /** The Devices cell: the runs of `nums` as they come, without a prefix,
      each run written as its first and last number joined by a dash, or as
      the single number, and the runs joined by commas. */
  function RangeText(nums: seq<int>): string
  {
    Join(Tokens("", Ranges(nums)), ',')
  }

  /** A run of non-negative numbers renders without a comma. */
  lemma {:induction false} TokenCommaFree(p: (int, int))
    requires 0 <= p.0 && 0 <= p.1
    ensures ',' !in Token("", p)
  {
    var a := NatToString(p.0);
    var b := NatToString(p.1);
    assert forall k :: 0 <= k < |a| ==> IsDigit(a[k]);
    assert forall k :: 0 <= k < |b| ==> IsDigit(b[k]);
    if p.0 == p.1 {
      assert Token("", p) == a;
    } else {
      assert Token("", p) == a + "-" + b;
    }
  }

  /** Round trip: splitting the text at commas and reading each run back
      yields the numbers in the order given, whether or not that order is
      sorted. */
  lemma {:induction false} RangeTextRoundTrip(nums: seq<int>)
    requires |nums| > 0
    requires forall k :: 0 <= k < |nums| ==> nums[k] >= 0
    ensures ExpandTokens("", Split(RangeText(nums), ',')) == Some(nums)
  {
    var pairs := Ranges(nums);
    RangesRoundTrip(nums);
    RangesMembers(nums);
    assert |pairs| > 0;
    var toks := Tokens("", pairs);
    forall k | 0 <= k < |toks|
      ensures ',' !in toks[k]
    {
      TokenCommaFree(pairs[k]);
    }
    SplitJoin(toks, ',');
    ExpandTokensOfPairs("", pairs);
  }

  /** Unsorted numbers are not put in order first: [2, 1] renders as "2,1",
      where sorted input would give "1-2". */
  lemma {:induction false} RangeTextUnsorted(down: seq<int>, up: seq<int>)
    requires down == [2, 1] && up == [1, 2]
    ensures RangeText(down) == "2,1"
    ensures RangeText(up) == "1-2"
  {
    assert Ranges(down) == [(2, 2), (1, 1)] by {
      assert Key(down, 0) == 2 && Key(down, 1) == 0;
      assert RunEnd(down, 1) == 2;
      assert RunEnd(down, 0) == 1;
    }
    assert Ranges(up) == [(1, 2)] by {
      assert Key(up, 0) == 1 && Key(up, 1) == 1;
      assert RunEnd(up, 0) == 2;
    }
    assert NatToString(1) == "1" && NatToString(2) == "2";
    assert Token("", (2, 2)) == "2" && Token("", (1, 1)) == "1";
    assert Token("", (1, 2)) == "1-2";
    var downTokens := Tokens("", [(2, 2), (1, 1)]);
    assert downTokens == ["2", "1"];
    assert Join(downTokens, ',') == "2" + [','] + "1";
    assert Tokens("", [(1, 2)]) == ["1-2"];
  }

  /* ---------------------------------------------------------------- grouping */

  /** The fields the nested `setdefault` keys on. */
  datatype Field = PrefixField | PackageField | ValueField

  function FieldOf(item: Item, f: Field): string
  {
    match f
    case PrefixField => item.prefix
    case PackageField => item.package
    case ValueField => item.value
  }

  function KeyedBy(items: seq<Item>, f: Field): (r: seq<(string, Item)>)
    ensures |r| == |items|
    ensures forall k :: 0 <= k < |items| ==> r[k] == (FieldOf(items[k], f), items[k])
  {
    seq(|items|, k requires 0 <= k < |items| => (FieldOf(items[k], f), items[k]))
  }

  /** `setdefault(field, ...)` on one level: the groups of `items` by one field. */
  function GroupBy(items: seq<Item>, f: Field): seq<(string, seq<Item>)>
  {
    Group(KeyedBy(items, f))
  }

  /** One row's worth of parts: `out_bom[prefix][package][value]`. */
  datatype LegacyGroup = LegacyGroup(prefix: string, package: string, value: string, devices: seq<Item>)

  function ValueGroups(prefix: string, package: string, gs: seq<(string, seq<Item>)>): (r: seq<LegacyGroup>)
    ensures |r| == |gs|
    ensures forall k :: 0 <= k < |gs| ==> r[k] == LegacyGroup(prefix, package, gs[k].0, gs[k].1)
  {
    seq(|gs|, k requires 0 <= k < |gs| => LegacyGroup(prefix, package, gs[k].0, gs[k].1))
  }

  function PackageGroups(prefix: string, gs: seq<(string, seq<Item>)>): seq<LegacyGroup>
    decreases |gs|
  {
    if |gs| == 0 then []
    else ValueGroups(prefix, gs[0].0, GroupBy(gs[0].1, ValueField)) + PackageGroups(prefix, gs[1..])
  }

  function PrefixGroups(gs: seq<(string, seq<Item>)>): seq<LegacyGroup>
    decreases |gs|
  {
    if |gs| == 0 then []
    else PackageGroups(gs[0].0, GroupBy(gs[0].1, PackageField)) + PrefixGroups(gs[1..])
  }

  /** The rows' groups in the order the three nested loops visit them (each
      level in first-occurrence order). */
  function LegacyGroups(items: seq<Item>): seq<LegacyGroup>
  {
    PrefixGroups(GroupBy(items, PrefixField))
  }

  /** The parts held by all groups together. */
  function Devices(groups: seq<LegacyGroup>): nat
  {
    if |groups| == 0 then 0 else |groups[0].devices| + Devices(groups[1..])
  }

  lemma {:induction false} DevicesAppend(a: seq<LegacyGroup>, b: seq<LegacyGroup>)
    ensures Devices(a + b) == Devices(a) + Devices(b)
  {
    if |a| > 0 {
      DevicesAppend(a[1..], b);
      assert (a + b)[0] == a[0];
      assert (a + b)[1..] == a[1..] + b;
    } else {
      assert a + b == b;
    }
  }

  lemma {:induction false} ValueGroupsDevices(prefix: string, package: string, gs: seq<(string, seq<Item>)>)
    ensures Devices(ValueGroups(prefix, package, gs)) == Total(gs)
  {
    if |gs| > 0 {
      ValueGroupsDevices(prefix, package, gs[1..]);
      assert ValueGroups(prefix, package, gs)[1..] == ValueGroups(prefix, package, gs[1..]);
    }
  }

  lemma {:induction false} PackageGroupsDevices(prefix: string, gs: seq<(string, seq<Item>)>)
    ensures Devices(PackageGroups(prefix, gs)) == Total(gs)
  {
    if |gs| > 0 {
      var inner := GroupBy(gs[0].1, ValueField);
      PackageGroupsDevices(prefix, gs[1..]);
      DevicesAppend(ValueGroups(prefix, gs[0].0, inner), PackageGroups(prefix, gs[1..]));
      ValueGroupsDevices(prefix, gs[0].0, inner);
      GroupTotal(KeyedBy(gs[0].1, ValueField));
    }
  }

  lemma {:induction false} PrefixGroupsDevices(gs: seq<(string, seq<Item>)>)
    ensures Devices(PrefixGroups(gs)) == Total(gs)
  {
    if |gs| > 0 {
      var inner := GroupBy(gs[0].1, PackageField);
      PrefixGroupsDevices(gs[1..]);
      DevicesAppend(PackageGroups(gs[0].0, inner), PrefixGroups(gs[1..]));
      PackageGroupsDevices(gs[0].0, inner);
      GroupTotal(KeyedBy(gs[0].1, PackageField));
    }
  }

  /** Conservation: the groups together hold every listed part once. */
  lemma {:induction false} LegacyGroupsDevices(items: seq<Item>)
    ensures Devices(LegacyGroups(items)) == |items|
  {
    PrefixGroupsDevices(GroupBy(items, PrefixField));
    GroupTotal(KeyedBy(items, PrefixField));
  }

  /** Each group of one level holds listed parts whose field is the group's key. */
  lemma {:induction false} GroupByMembers(items: seq<Item>, f: Field)
    ensures var gs := GroupBy(items, f);
            forall j, d :: 0 <= j < |gs| && d in gs[j].1 ==> FieldOf(d, f) == gs[j].0 && d in items
  {
    var keyed := KeyedBy(items, f);
    var gs := GroupBy(items, f);
    forall j, d | 0 <= j < |gs| && d in gs[j].1
      ensures FieldOf(d, f) == gs[j].0 && d in items
    {
      GroupMember(keyed, j, d);
      var i :| 0 <= i < |keyed| && keyed[i] == (gs[j].0, d);
      assert items[i] == d;
    }
  }

  /** Every listed part is in some group of one level. */
  lemma {:induction false} GroupByCovers(items: seq<Item>, f: Field, d: Item)
    requires d in items
    ensures exists j :: 0 <= j < |GroupBy(items, f)| && d in GroupBy(items, f)[j].1
  {
    var keyed := KeyedBy(items, f);
    var gs := GroupBy(items, f);
    var i :| 0 <= i < |items| && items[i] == d;
    GroupKeysExact(keyed);
    GroupContents(keyed);
    FilterPresent(keyed, i);
    assert keyed[i].0 in ItemKeys(keyed);
    var j :| 0 <= j < |gs| && gs[j].0 == keyed[i].0;
  }

  lemma {:induction false} ValueGroupsCover(prefix: string, package: string, parts: seq<Item>, d: Item)
    requires d in parts
    ensures exists g :: g in ValueGroups(prefix, package, GroupBy(parts, ValueField)) && d in g.devices
  {
    var gs := GroupBy(parts, ValueField);
    GroupByCovers(parts, ValueField, d);
    var j :| 0 <= j < |gs| && d in gs[j].1;
    assert ValueGroups(prefix, package, gs)[j].devices == gs[j].1;
  }

  lemma {:induction false} PackageGroupsCover(prefix: string, gs: seq<(string, seq<Item>)>, j: nat, d: Item)
    requires j < |gs| && d in gs[j].1
    ensures exists g :: g in PackageGroups(prefix, gs) && d in g.devices
  {
    if j == 0 {
      ValueGroupsCover(prefix, gs[0].0, gs[0].1, d);
    } else {
      PackageGroupsCover(prefix, gs[1..], j - 1, d);
    }
  }

  lemma {:induction false} PrefixGroupsCover(gs: seq<(string, seq<Item>)>, j: nat, d: Item)
    requires j < |gs| && d in gs[j].1
    ensures exists g :: g in PrefixGroups(gs) && d in g.devices
  {
    if j == 0 {
      var inner := GroupBy(gs[0].1, PackageField);
      GroupByCovers(gs[0].1, PackageField, d);
      var m :| 0 <= m < |inner| && d in inner[m].1;
      PackageGroupsCover(gs[0].0, inner, m, d);
    } else {
      PrefixGroupsCover(gs[1..], j - 1, d);
    }
  }

  /** Every listed part is in some group. */
  lemma {:induction false} LegacyItemGrouped(items: seq<Item>, i: nat)
    requires i < |items|
    ensures exists g :: g in LegacyGroups(items) && items[i] in g.devices
  {
    var gs := GroupBy(items, PrefixField);
    GroupByCovers(items, PrefixField, items[i]);
    var j :| 0 <= j < |gs| && items[i] in gs[j].1;
    PrefixGroupsCover(gs, j, items[i]);
  }

  /** A group whose parts all agree with its prefix, package and value, are
      drawn from `items`, and are at least one. */
  predicate Faithful(g: LegacyGroup, items: seq<Item>)
  {
    && |g.devices| > 0
    && forall d :: d in g.devices ==>
         d.prefix == g.prefix && d.package == g.package && d.value == g.value && d in items
  }

  lemma {:induction false} ValueGroupsFaithful(prefix: string, package: string, parts: seq<Item>, items: seq<Item>)
    requires forall d :: d in parts ==> d.prefix == prefix && d.package == package && d in items
    ensures forall g :: g in ValueGroups(prefix, package, GroupBy(parts, ValueField)) ==> Faithful(g, items)
  {
    var gs := GroupBy(parts, ValueField);
    GroupByMembers(parts, ValueField);
    GroupNonEmpty(KeyedBy(parts, ValueField));
    assert gs == Group(KeyedBy(parts, ValueField));
    forall g | g in ValueGroups(prefix, package, gs)
      ensures Faithful(g, items)
    {
      var k :| 0 <= k < |gs| && ValueGroups(prefix, package, gs)[k] == g;
      assert g == LegacyGroup(prefix, package, gs[k].0, gs[k].1);
      assert |Group(KeyedBy(parts, ValueField))[k].1| > 0;
      forall d | d in g.devices
        ensures d.prefix == g.prefix && d.package == g.package && d.value == g.value && d in items
      {
        assert FieldOf(d, ValueField) == gs[k].0 && d in parts;
      }
    }
  }

  lemma {:induction false} PackageGroupsFaithful(prefix: string, gs: seq<(string, seq<Item>)>, items: seq<Item>)
    requires forall j, d :: 0 <= j < |gs| && d in gs[j].1 ==> d.prefix == prefix && d.package == gs[j].0 && d in items
    ensures forall g :: g in PackageGroups(prefix, gs) ==> Faithful(g, items)
  {
    if |gs| > 0 {
      ValueGroupsFaithful(prefix, gs[0].0, gs[0].1, items);
      PackageGroupsFaithful(prefix, gs[1..], items);
    }
  }

  lemma {:induction false} PrefixGroupsFaithful(gs: seq<(string, seq<Item>)>, items: seq<Item>)
    requires forall j, d :: 0 <= j < |gs| && d in gs[j].1 ==> d.prefix == gs[j].0 && d in items
    ensures forall g :: g in PrefixGroups(gs) ==> Faithful(g, items)
  {
    if |gs| > 0 {
      var inner := GroupBy(gs[0].1, PackageField);
      GroupByMembers(gs[0].1, PackageField);
      forall j, d | 0 <= j < |inner| && d in inner[j].1
        ensures d.prefix == gs[0].0 && d.package == inner[j].0 && d in items
      {
        assert FieldOf(d, PackageField) == inner[j].0 && d in gs[0].1;
      }
      PackageGroupsFaithful(gs[0].0, inner, items);
      PrefixGroupsFaithful(gs[1..], items);
    }
  }

  /** Every group is non-empty, and every part in it is a listed part with the
      group's prefix, package and value. */
  lemma {:induction false} LegacyGroupsFaithful(items: seq<Item>)
    ensures forall g :: g in LegacyGroups(items) ==> Faithful(g, items)
  {
    var gs := GroupBy(items, PrefixField);
    GroupByMembers(items, PrefixField);
    forall j, d | 0 <= j < |gs| && d in gs[j].1
      ensures d.prefix == gs[j].0 && d in items
    {
      assert FieldOf(d, PrefixField) == gs[j].0;
    }
    PrefixGroupsFaithful(gs, items);
  }

  /* ---------------------------------------------------------------- rows */

  const LegacyHeader: seq<string> := ["Prefix", "Packaging", "Value", "Nb", "Devices", "Description"]

  /** The row of one group; the description is the first part's. */
  function LegacyRow(g: LegacyGroup): (r: Result<Row>)
    requires |g.devices| > 0
    ensures r.Ok? <==> AllLegacyNumbered(g.devices)
    ensures r.Ok? ==> |r.value| == |LegacyHeader| && r.value[3] == Int(|g.devices|)
    ensures r.Err? ==> r.error == MalformedDesignator(g.devices[FirstLegacyUnnumbered(g.devices)].designator)
  {
    var nums :- LegacyNumbers(g.devices);
    Ok([Str(g.prefix), Str(g.package), Str(g.value), Int(|g.devices|), Str(RangeText(nums)), Str(g.devices[0].description)])
  }

  predicate AllNonEmpty(groups: seq<LegacyGroup>)
  {
    forall k :: 0 <= k < |groups| ==> |groups[k].devices| > 0
  }

  predicate AllGroupsNumbered(groups: seq<LegacyGroup>)
  {
    forall k :: 0 <= k < |groups| ==> AllLegacyNumbered(groups[k].devices)
  }

  /** The rows of the groups in order; the first group with an unreadable
      designator ends the table with that group's error. */
  function LegacyRows(groups: seq<LegacyGroup>): (r: Result<seq<Row>>)
    requires AllNonEmpty(groups)
    ensures r.Ok? <==> AllGroupsNumbered(groups)
    ensures r.Ok? ==> |r.value| == |groups|
                      && forall k :: 0 <= k < |groups| ==> LegacyRow(groups[k]) == Ok(r.value[k])
    ensures r.Err? ==> exists k :: 0 <= k < |groups| && AllGroupsNumbered(groups[..k])
                                   && LegacyRow(groups[k]) == Err(r.error)
  {
    var oks := seq(|groups|, j requires 0 <= j < |groups| => AllLegacyNumbered(groups[j].devices));
    if false !in oks then
      assert AllGroupsNumbered(groups) by {
        forall j | 0 <= j < |groups|
          ensures AllLegacyNumbered(groups[j].devices)
        {
          assert oks[j] in oks;
        }
      }
      Ok(seq(|groups|, k requires 0 <= k < |groups| => LegacyRow(groups[k]).value))
    else
      var k := FirstFalse(oks);
      assert forall j :: 0 <= j < k ==> groups[..k][j] == groups[j] && oks[j];
      Err(LegacyRow(groups[k]).error)
  }

  /** No group is empty. */
  lemma {:induction false} LegacyGroupsNonEmpty(items: seq<Item>)
    ensures AllNonEmpty(LegacyGroups(items))
  {
    var groups := LegacyGroups(items);
    LegacyGroupsFaithful(items);
    forall k | 0 <= k < |groups|
      ensures |groups[k].devices| > 0
    {
      assert Faithful(groups[k], items);
    }
  }

  /** The table is the rows of the groups, none of which is empty. */
  lemma {:induction false} LegacyTableIsRows(items: seq<Item>)
    ensures AllNonEmpty(LegacyGroups(items))
    ensures LegacyTable(items) == LegacyRows(LegacyGroups(items))
  {
    LegacyGroupsNonEmpty(items);
  }

  /** The table generate_bom_output writes below its header. */
  function LegacyTable(items: seq<Item>): (r: Result<seq<Row>>)
    ensures r.Ok? <==> AllLegacyNumbered(items)
    ensures r.Ok? ==> |r.value| == |LegacyGroups(items)|
  {
    LegacyGroupsNonEmpty(items);
    LegacyTableNumbered(items);
    LegacyRows(LegacyGroups(items))
  }

  /** Every part lands in some group and every grouped part is listed, so the
      table has a readable number for each group exactly when every listed
      part has one. */
  lemma {:induction false} LegacyTableNumbered(items: seq<Item>)
    ensures AllGroupsNumbered(LegacyGroups(items)) <==> AllLegacyNumbered(items)
  {
    var groups := LegacyGroups(items);
    LegacyGroupsFaithful(items);
    if AllLegacyNumbered(items) {
      forall k, m | 0 <= k < |groups| && 0 <= m < |groups[k].devices|
        ensures LegacyNumber(groups[k].devices[m].designator).Some?
      {
        assert Faithful(groups[k], items);
        assert groups[k].devices[m] in items;
      }
    } else {
      var i := FirstLegacyUnnumbered(items);
      LegacyItemGrouped(items, i);
      var g :| g in groups && items[i] in g.devices;
      var k :| 0 <= k < |groups| && groups[k] == g;
      var m :| 0 <= m < |g.devices| && g.devices[m] == items[i];
      assert !AllLegacyNumbered(groups[k].devices);
    }
  }

  /** The Nb cell of a row, as a number. */
  function Nb(row: Row): int
  {
    if |row| > 3 && row[3].Int? then row[3].i else 0
  }

  /** The Nb column of a table, added up. */
  function NbSum(rows: seq<Row>): int
  {
    if |rows| == 0 then 0 else Nb(rows[0]) + NbSum(rows[1..])
  }

  lemma {:induction false} NbSumMatches(rows: seq<Row>, groups: seq<LegacyGroup>)
    requires |rows| == |groups|
    requires forall k :: 0 <= k < |rows| ==> Nb(rows[k]) == |groups[k].devices|
    ensures NbSum(rows) == Devices(groups)
  {
    if |rows| > 0 {
      assert forall k :: 0 <= k < |rows| - 1 ==> rows[1..][k] == rows[k + 1] && groups[1..][k] == groups[k + 1];
      NbSumMatches(rows[1..], groups[1..]);
    }
  }

  lemma {:induction false} NbSumOfRows(groups: seq<LegacyGroup>)
    requires AllNonEmpty(groups)
    requires LegacyRows(groups).Ok?
    ensures NbSum(LegacyRows(groups).value) == Devices(groups)
  {
    var rows := LegacyRows(groups).value;
    forall k | 0 <= k < |rows|
      ensures Nb(rows[k]) == |groups[k].devices|
    {
      assert LegacyRow(groups[k]) == Ok(rows[k]);
    }
    NbSumMatches(rows, groups);
  }

  /** Conservation over the written table: the Nb column adds up to the number
      of listed parts. */
  lemma {:induction false} LegacyNbTotal(items: seq<Item>)
    requires LegacyTable(items).Ok?
    ensures NbSum(LegacyTable(items).value) == |items|
  {
    var groups := LegacyGroups(items);
    LegacyTableIsRows(items);
    NbSumOfRows(groups);
    LegacyGroupsDevices(items);
  }

  /** Row `k` carries group `k`'s prefix, package and value, its size, its
      designator numbers as runs in the group's order, and the description of
      its first part. */
  lemma {:induction false} LegacyRowCells(items: seq<Item>, k: nat)
    requires LegacyTable(items).Ok?
    requires k < |LegacyTable(items).value|
    ensures var g := LegacyGroups(items)[k];
            var row := LegacyTable(items).value[k];
            && |g.devices| > 0
            && row == [Str(g.prefix), Str(g.package), Str(g.value), Int(|g.devices|),
                       Str(RangeText(LegacyNumbers(g.devices).value)), Str(g.devices[0].description)]
  {
    LegacyGroupsFaithful(items);
    assert Faithful(LegacyGroups(items)[k], items);
    LegacyTableIsRows(items);
  }

  /* ---------------------------------------------------------------- writing */

  /** generate_bom_output: the header and the table through the fan-out
      writer, to the paths the script builder recorded. */
  function LegacyExport(reg: Registry, bomPaths: seq<string>, items: seq<Item>,
                        openRefused: set<string>, closeRefused: set<string>): (r: Result<seq<Backend>>)
    ensures r.Ok? <==> && AllLegacyNumbered(items) && AllSupported(reg, bomPaths)
                       && (forall i :: 0 <= i < |bomPaths| ==> bomPaths[i] !in openRefused)
                       && (forall i :: 0 <= i < |bomPaths| ==> bomPaths[i] !in closeRefused)
  {
    Emit(reg, bomPaths, Cells(LegacyHeader), LegacyTable(items), openRefused, closeRefused)
  }

  /** Every JSON or YAML output of a successful export holds the header and
      then one row per group. */
  lemma {:induction false} LegacyExportOutputs(reg: Registry, bomPaths: seq<string>, items: seq<Item>,
                            openRefused: set<string>, closeRefused: set<string>, i: nat)
    requires LegacyExport(reg, bomPaths, items, openRefused, closeRefused).Ok?
    requires i < |bomPaths|
    ensures var b := LegacyExport(reg, bomPaths, items, openRefused, closeRefused).value[i];
            (b.format == Json || b.format == Yaml) ==>
              && b.phase == Closed
              && |Emitted(b)| == |LegacyGroups(items)| + 1
              && Emitted(b)[0] == Cells(LegacyHeader)
              && Emitted(b)[1..] == LegacyTable(items).value
  {
    EmitOutputs(reg, bomPaths, Cells(LegacyHeader), LegacyTable(items), openRefused, closeRefused, i);
  }
}

=== FILE: partlines.dfy ===
/** eagle_automation/components.py, class PartLine and the BOM-building half
    of PartDatabase: turning a placed part into a descriptor
    (`get_part_line`), grouping placed parts into lines of equal descriptor
    (`build_bom`), and rendering a line (`get_line`). */
module PartLines {
  import opened Results
  import opened Values
  import opened Text
  import opened Catalogue
  import opened Designators
  import opened Grouping

  /* ---------------------------------------------------------------- descriptors */

  /** The descriptor fields of a PartLine dict. `Status` is present only on a
      catalogued ("fitted") line, where it is copied from the Preferred
      sourcing option; the fallback line has no Status key at all. */
  datatype Descriptor = Descriptor(
    partnum: string,
    fitted: bool,
    package: string,
    value: string,
    device: string,
    description: Value,
    manufacturer: Value,
    reference: Value,
    status: Option<Value>)

  /** The keys every PartLine dict carries. */
  const LineFields: set<string> :=
    {"Partnum", "Fitted", "Package", "Value", "Device", "Description", "Manufacturer", "Reference"}

  /** The key set of the PartLine dict a descriptor stands for. */
  function DescriptorKeys(d: Descriptor): set<string>
  {
    if d.status.Some? then LineFields + {"Status"} else LineFields
  }

  /** `part_line[key]`, or `None` where Python raises KeyError. */
  function Lookup(d: Descriptor, key: string): (r: Option<Value>)
    ensures r.Some? <==> key in DescriptorKeys(d)
  {
    match key
    case "Partnum" => Some(Str(d.partnum))
    case "Fitted" => Some(Bool(d.fitted))
    case "Package" => Some(Str(d.package))
    case "Value" => Some(Str(d.value))
    case "Device" => Some(Str(d.device))
    case "Description" => Some(d.description)
    case "Manufacturer" => Some(d.manufacturer)
    case "Reference" => Some(d.reference)
    case "Status" => d.status
    case _ => None
  }

  /* ---------------------------------------------------------------- placed parts */

  /** What the core reads of a schematic part: its name, the package of its
      device, its value, the name of its device set, the technology it uses,
      the attribute tables of the device's technologies and its own
      instance attributes. */
  datatype PlacedPart = PlacedPart(
    name: string,
    package: string,
    value: string,
    deviceSet: string,
    technology: string,
    technologies: map<string, map<string, string>>,
    attributes: map<string, string>)

  /** The technology's attributes updated with the instance attributes;
      a technology the device does not define raises KeyError. */
  function MergedAttributes(p: PlacedPart): (r: Result<map<string, string>>)
    ensures r.Ok? <==> p.technology in p.technologies
    ensures r.Err? ==> r.error == UnknownTechnology(p.technology)
    ensures r.Ok? ==> r.value.Keys == p.technologies[p.technology].Keys + p.attributes.Keys
    ensures r.Ok? ==> forall k :: k in p.attributes ==> r.value[k] == p.attributes[k]
    ensures r.Ok? ==> forall k :: k in r.value && k !in p.attributes ==>
                        r.value[k] == p.technologies[p.technology][k]
  {
    if p.technology in p.technologies then Ok(p.technologies[p.technology] + p.attributes)
    else Err(UnknownTechnology(p.technology))
  }

  /** Whether the part-number attribute names a catalogued part. */
  predicate Catalogued(db: Database, attrs: map<string, string>, partnumKey: string)
  {
    partnumKey in attrs && attrs[partnumKey] in db
  }

  /** `get_part_line`. The catalogue was validated when it was loaded, so its
      Preferred entry is a mapping with exactly Status, Manufacturer and
      Reference. */
  function GetPartLine(db: Database, p: PlacedPart, attrs: map<string, string>, partnumKey: string): (d: Descriptor)
    requires Valid(db)
    ensures d.package == p.package && d.value == p.value && d.device == p.deviceSet
    ensures d.fitted <==> Catalogued(db, attrs, partnumKey)
    ensures d.fitted ==>
              var rec := db[attrs[partnumKey]];
              && d.partnum == attrs[partnumKey]
              && d.description == rec["Description"]
              && d.status == Some(rec["Preferred"].d["Status"])
              && d.manufacturer == rec["Preferred"].d["Manufacturer"]
              && d.reference == rec["Preferred"].d["Reference"]
    ensures !d.fitted ==>
              && d.partnum == "Unspecified"
              && d.manufacturer == Str("any") && d.reference == Str("any")
              && d.description == Str("") && d.status == None
  {
    if Catalogued(db, attrs, partnumKey) then
      var pn := attrs[partnumKey];
      var rec := db[pn];
      assert WellShaped(rec);
      var pref := rec["Preferred"].d;
      Descriptor(pn, true, p.package, p.value, p.deviceSet, rec["Description"],
                 pref["Manufacturer"], pref["Reference"], Some(pref["Status"]))
    else
      Descriptor("Unspecified", false, p.package, p.value, p.deviceSet, Str(""),
                 Str("any"), Str("any"), None)
  }

  /** Every line carries the keys of its branch, and a line has a Status
      exactly when its part is catalogued. */
  lemma {:induction false} GetPartLineKeys(db: Database, p: PlacedPart, attrs: map<string, string>, partnumKey: string)
    requires Valid(db)
    ensures var d := GetPartLine(db, p, attrs, partnumKey);
            && LineFields <= DescriptorKeys(d)
            && ("Status" in DescriptorKeys(d) <==> Catalogued(db, attrs, partnumKey))
  {
  }

  /* ---------------------------------------------------------------- part lines */

  /** A PartLine: its descriptor and the names `insert` appended to it. */
  datatype PartLine = PartLine(descriptor: Descriptor, parts: seq<string>)

  /** The value `get_line` yields for one key. */
  function Cell(line: PartLine, key: string, range: bool): (r: Result<Value>)
    ensures key == "Quantity" ==> r.Ok? && r.value.Str?
    ensures key == "RefDes" && !range ==> r.Ok? && r.value.Str?
    ensures key == "RefDes" && range ==> (r.Ok? <==> BuildRange(line.parts).Ok?)
    ensures key != "RefDes" && key != "Quantity" ==>
              (r.Ok? <==> key in DescriptorKeys(line.descriptor))
              && (r.Err? ==> r.error == MissingKey(key))
  {
    if key == "RefDes" then
      if range then
        var tokens :- BuildRange(line.parts);
        Ok(Str(Join(tokens, ',')))
      else Ok(Str(Join(line.parts, ',')))
    else if key == "Quantity" then Ok(Str(NatToString(|line.parts|)))
    else
      match Lookup(line.descriptor, key)
      case Some(v) => Ok(v)
      case None => Err(MissingKey(key))
  }

  predicate AllCells(line: PartLine, keys: seq<string>, range: bool)
  {
    forall i :: 0 <= i < |keys| ==> Cell(line, keys[i], range).Ok?
  }

  /** The first key whose value cannot be produced. */
  function FirstBadKey(line: PartLine, keys: seq<string>, range: bool): (i: nat)
    requires !AllCells(line, keys, range)
    ensures i < |keys| && Cell(line, keys[i], range).Err?
    ensures forall j :: 0 <= j < i ==> Cell(line, keys[j], range).Ok?
  {
    var oks := seq(|keys|, j requires 0 <= j < |keys| => Cell(line, keys[j], range).Ok?);
    assert false in oks by {
      var k :| 0 <= k < |keys| && !Cell(line, keys[k], range).Ok?;
      assert !oks[k];
    }
    var i := FirstFalse(oks);
    assert forall j :: 0 <= j < i ==> keys[..i][j] == keys[j] && oks[j];
    i
  }

  /** `tuple(get_line(keys, range))`: one value per key, in key order; the
      first key that raises ends the line. */
  function GetLine(line: PartLine, keys: seq<string>, range: bool): (r: Result<seq<Value>>)
    ensures r.Ok? <==> AllCells(line, keys, range)
    ensures r.Ok? ==> |r.value| == |keys|
                      && forall i :: 0 <= i < |keys| ==> Cell(line, keys[i], range) == Ok(r.value[i])
    ensures r.Err? ==> r.error == Cell(line, keys[FirstBadKey(line, keys, range)], range).error
  {
    if AllCells(line, keys, range) then
      Ok(seq(|keys|, i requires 0 <= i < |keys| => Cell(line, keys[i], range).value))
    else
      Err(Cell(line, keys[FirstBadKey(line, keys, range)], range).error)
  }

  /** The Quantity cell reads back as the number of inserted names,
      repetitions included. */
  lemma {:induction false} QuantityCounts(line: PartLine, range: bool)
    ensures ParseInt(Cell(line, "Quantity", range).value.s) == Some(|line.parts|)
  {
    ParseNatString(|line.parts|);
  }

  /** Without ranging, the RefDes cell splits back into the inserted names,
      in insertion order, when no name contains a comma. */
  lemma {:induction false} RefDesPlainRoundTrip(line: PartLine)
    requires |line.parts| > 0
    requires forall i :: 0 <= i < |line.parts| ==> ',' !in line.parts[i]
    ensures Split(Cell(line, "RefDes", false).value.s, ',') == line.parts
  {
    SplitJoin(line.parts, ',');
  }

  /** Any other key yields the descriptor's own value. */
  lemma {:induction false} DescriptorCell(line: PartLine, key: string, range: bool)
    requires key != "RefDes" && key != "Quantity"
    requires key in DescriptorKeys(line.descriptor)
    ensures Cell(line, key, range) == Ok(Lookup(line.descriptor, key).value)
  {
  }

  /* ---------------------------------------------------------------- build_bom */

  predicate AllTechnologiesKnown(parts: seq<PlacedPart>)
  {
    forall i :: 0 <= i < |parts| ==> parts[i].technology in parts[i].technologies
  }

  /** The descriptor `build_bom` computes for one placed part. */
  function PartDescriptor(db: Database, p: PlacedPart, partnumKey: string): Descriptor
    requires Valid(db)
    requires p.technology in p.technologies
  {
    GetPartLine(db, p, MergedAttributes(p).value, partnumKey)
  }

  /** `hash(part_line)` hashes the tuple of the line's values, which raises
      TypeError when one of them is a list or a mapping. Only the values
      copied from the catalogue can be either. */
  predicate HashableDescriptor(d: Descriptor)
  {
    && Hashable(d.description)
    && Hashable(d.manufacturer)
    && Hashable(d.reference)
    && (d.status.Some? ==> Hashable(d.status.value))
  }

  /** Whether one pass of the `build_bom` loop gets through a part: its
      technology is defined and its line can be hashed. */
  predicate PartBuilds(db: Database, p: PlacedPart, partnumKey: string)
    requires Valid(db)
  {
    p.technology in p.technologies && HashableDescriptor(PartDescriptor(db, p, partnumKey))
  }

  predicate AllPartsBuild(db: Database, parts: seq<PlacedPart>, partnumKey: string)
    requires Valid(db)
  {
    forall i :: 0 <= i < |parts| ==> PartBuilds(db, parts[i], partnumKey)
  }

  /** The exception of a pass that fails: the technology lookup comes
      before the hash. */
  function PartError(p: PlacedPart): Error
  {
    if p.technology in p.technologies then Unhashable else UnknownTechnology(p.technology)
  }

  /** The first placed part the loop cannot get through. */
  function FirstUnbuilt(db: Database, parts: seq<PlacedPart>, partnumKey: string): (i: nat)
    requires Valid(db)
    requires !AllPartsBuild(db, parts, partnumKey)
    ensures i < |parts| && !PartBuilds(db, parts[i], partnumKey)
    ensures forall j :: 0 <= j < i ==> PartBuilds(db, parts[j], partnumKey)
  {
    if !PartBuilds(db, parts[0], partnumKey) then 0
    else
      var i := FirstUnbuilt(db, parts[1..], partnumKey);
      assert forall j :: 1 <= j <= i ==> parts[j] == parts[1..][j - 1];
      i + 1
  }

  /** Each placed part paired with its descriptor, in iteration order. */
  function Keyed(db: Database, parts: seq<PlacedPart>, partnumKey: string): (r: seq<(Descriptor, string)>)
    requires Valid(db)
    requires AllTechnologiesKnown(parts)
    ensures |r| == |parts|
    ensures forall i :: 0 <= i < |parts| ==> r[i] == (PartDescriptor(db, parts[i], partnumKey), parts[i].name)
  {
    seq(|parts|, i requires 0 <= i < |parts| => (PartDescriptor(db, parts[i], partnumKey), parts[i].name))
  }

  /** The loop of `build_bom` up to grouping: the descriptor of every placed
      part, stopping at the first part whose technology is unknown or whose
      line cannot be hashed. */
  function Entries(db: Database, parts: seq<PlacedPart>, partnumKey: string): (r: Result<seq<(Descriptor, string)>>)
    requires Valid(db)
    ensures r.Ok? <==> AllPartsBuild(db, parts, partnumKey)
    ensures r.Ok? ==> |r.value| == |parts|
    ensures r.Ok? ==> forall i :: 0 <= i < |parts| ==>
                        r.value[i] == (PartDescriptor(db, parts[i], partnumKey), parts[i].name)
    ensures r.Err? ==> var p := parts[FirstUnbuilt(db, parts, partnumKey)];
                       && (p.technology !in p.technologies ==> r.error == UnknownTechnology(p.technology))
                       && (p.technology in p.technologies ==> r.error == Unhashable)
  {
    if AllPartsBuild(db, parts, partnumKey) then Ok(Keyed(db, parts, partnumKey))
    else Err(PartError(parts[FirstUnbuilt(db, parts, partnumKey)]))
  }

  function Lines(gs: seq<(Descriptor, seq<string>)>): (r: seq<PartLine>)
    ensures |r| == |gs|
    ensures forall i :: 0 <= i < |gs| ==> r[i] == PartLine(gs[i].0, gs[i].1)
  {
    seq(|gs|, i requires 0 <= i < |gs| => PartLine(gs[i].0, gs[i].1))
  }

  /** `build_bom`: the placed parts grouped into lines of equal descriptor,
      each line holding the names of its parts in iteration order. */
  function BuildBom(db: Database, parts: seq<PlacedPart>, partnumKey: string): (r: Result<seq<PartLine>>)
    requires Valid(db)
    ensures r.Ok? <==> AllPartsBuild(db, parts, partnumKey)
    ensures r.Err? ==> r.error == PartError(parts[FirstUnbuilt(db, parts, partnumKey)])
  {
    var entries :- Entries(db, parts, partnumKey);
    Ok(Lines(Group(entries)))
  }

  /** Every value a catalogued line copies from the catalogue is a scalar. */
  predicate ScalarRecords(db: Database)
    requires Valid(db)
  {
    forall k :: k in db ==>
      && Hashable(db[k]["Description"])
      && forall f :: f in PartKeys ==> Hashable(db[k]["Preferred"].d[f])
  }

  /** With a catalogue of scalar values, building fails only on an unknown
      technology. */
  lemma {:induction false} ScalarCatalogueBuilds(db: Database, parts: seq<PlacedPart>, partnumKey: string)
    requires Valid(db)
    requires ScalarRecords(db)
    ensures BuildBom(db, parts, partnumKey).Ok? <==> AllTechnologiesKnown(parts)
  {
    forall i | 0 <= i < |parts| && parts[i].technology in parts[i].technologies
      ensures PartBuilds(db, parts[i], partnumKey)
    {
      var attrs := MergedAttributes(parts[i]).value;
      if Catalogued(db, attrs, partnumKey) {
        var rec := db[attrs[partnumKey]];
        assert Hashable(rec["Description"]);
        assert forall f :: f in PartKeys ==> Hashable(rec["Preferred"].d[f]);
      }
    }
  }

  /** A valid catalogue may still hold a list or a mapping as a Description;
      a part that picks such a record stops the build with TypeError. */
  lemma {:induction false} UnhashableDescriptionFails(db: Database, p: PlacedPart, partnumKey: string)
    requires Valid(db)
    requires p.technology in p.technologies
    requires Catalogued(db, MergedAttributes(p).value, partnumKey)
    requires !Hashable(db[MergedAttributes(p).value[partnumKey]]["Description"])
    ensures BuildBom(db, [p], partnumKey) == Err(Unhashable)
  {
    assert !PartBuilds(db, [p][0], partnumKey);
    assert FirstUnbuilt(db, [p], partnumKey) == 0;
  }

  /** No two lines carry equal descriptors. */
  lemma {:induction false} BuildBomDistinct(db: Database, parts: seq<PlacedPart>, partnumKey: string)
    requires Valid(db)
    requires AllPartsBuild(db, parts, partnumKey)
    ensures var lines := BuildBom(db, parts, partnumKey).value;
            forall a, b :: 0 <= a < b < |lines| ==> lines[a].descriptor != lines[b].descriptor
  {
    BuildBomIsGroup(db, parts, partnumKey);
    LinesDistinct(Group(Keyed(db, parts, partnumKey)));
  }

  lemma {:induction false} LinesDistinct(gs: seq<(Descriptor, seq<string>)>)
    requires DistinctKeys(gs)
    ensures var lines := Lines(gs);
            forall a, b :: 0 <= a < b < |lines| ==> lines[a].descriptor != lines[b].descriptor
  {
  }

  lemma {:induction false} LinesKeys(gs: seq<(Descriptor, seq<string>)>)
    ensures var lines := Lines(gs);
            (set j | 0 <= j < |lines| :: lines[j].descriptor) == GroupKeys(gs)
  {
    var lines := Lines(gs);
    assert forall j :: 0 <= j < |lines| ==> lines[j].descriptor == gs[j].0;
  }

  lemma {:induction false} KeyedKeys(db: Database, parts: seq<PlacedPart>, partnumKey: string)
    requires Valid(db)
    requires AllTechnologiesKnown(parts)
    ensures ItemKeys(Keyed(db, parts, partnumKey))
              == (set i | 0 <= i < |parts| :: PartDescriptor(db, parts[i], partnumKey))
  {
    var keyed := Keyed(db, parts, partnumKey);
    assert forall i :: 0 <= i < |parts| ==> keyed[i].0 == PartDescriptor(db, parts[i], partnumKey);
  }

  /** The names of the placed parts whose descriptor is `d`, in iteration order. */
  function NamesWith(db: Database, parts: seq<PlacedPart>, partnumKey: string, d: Descriptor): seq<string>
    requires Valid(db)
    requires AllTechnologiesKnown(parts)
  {
    Filter(Keyed(db, parts, partnumKey), d)
  }

  lemma {:induction false} BuildBomIsGroup(db: Database, parts: seq<PlacedPart>, partnumKey: string)
    requires Valid(db)
    requires AllPartsBuild(db, parts, partnumKey)
    ensures BuildBom(db, parts, partnumKey).value == Lines(Group(Keyed(db, parts, partnumKey)))
  {
  }

  /** Every line holds exactly the parts whose descriptor it carries, in
      iteration order; so parts with equal descriptors share one line. */
  lemma {:induction false} BuildBomLines(db: Database, parts: seq<PlacedPart>, partnumKey: string)
    requires Valid(db)
    requires AllPartsBuild(db, parts, partnumKey)
    ensures var lines := BuildBom(db, parts, partnumKey).value;
            forall j :: 0 <= j < |lines| ==>
              lines[j].parts == NamesWith(db, parts, partnumKey, lines[j].descriptor)
  {
    var keyed := Keyed(db, parts, partnumKey);
    BuildBomIsGroup(db, parts, partnumKey);
    GroupContents(keyed);
  }

  /** The lines are exactly one per distinct descriptor of the placed parts. */
  lemma {:induction false} BuildBomDescriptors(db: Database, parts: seq<PlacedPart>, partnumKey: string)
    requires Valid(db)
    requires AllPartsBuild(db, parts, partnumKey)
    ensures var lines := BuildBom(db, parts, partnumKey).value;
            (set j | 0 <= j < |lines| :: lines[j].descriptor)
              == (set i | 0 <= i < |parts| :: PartDescriptor(db, parts[i], partnumKey))
  {
    var keyed := Keyed(db, parts, partnumKey);
    BuildBomIsGroup(db, parts, partnumKey);
    GroupKeysExact(keyed);
    LinesKeys(Group(keyed));
    KeyedKeys(db, parts, partnumKey);
  }

  /** The summed Quantity of all lines. */
  function TotalQuantity(lines: seq<PartLine>): nat
  {
    if |lines| == 0 then 0 else |lines[0].parts| + TotalQuantity(lines[1..])
  }

  lemma {:induction false} TotalOfLines(gs: seq<(Descriptor, seq<string>)>)
    ensures TotalQuantity(Lines(gs)) == Total(gs)
  {
    if |gs| > 0 {
      TotalOfLines(gs[1..]);
      assert Lines(gs)[1..] == Lines(gs[1..]);
    }
  }

  /** Conservation: every placed part is counted on exactly one line, so the
      quantities add up to the number of parts. */
  lemma {:induction false} BuildBomQuantity(db: Database, parts: seq<PlacedPart>, partnumKey: string)
    requires Valid(db)
    requires AllPartsBuild(db, parts, partnumKey)
    ensures TotalQuantity(BuildBom(db, parts, partnumKey).value) == |parts|
  {
    var keyed := Keyed(db, parts, partnumKey);
    BuildBomIsGroup(db, parts, partnumKey);
    GroupTotal(keyed);
    TotalOfLines(Group(keyed));
  }

  /** Every line built from placed parts holds at least one name. */
  lemma {:induction false} BuildBomNonEmpty(db: Database, parts: seq<PlacedPart>, partnumKey: string)
    requires Valid(db)
    requires AllPartsBuild(db, parts, partnumKey)
    ensures var lines := BuildBom(db, parts, partnumKey).value;
            forall j :: 0 <= j < |lines| ==> |lines[j].parts| > 0
  {
    BuildBomIsGroup(db, parts, partnumKey);
    GroupNonEmpty(Keyed(db, parts, partnumKey));
  }
}

=== FILE: results.dfy ===
/** Error taxonomy of the BOM core and the failure-carrying wrappers used by
    every operation that can raise in the Python original.

    The named exceptions of eagle_automation/exceptions.py (BadExtension,
    DatabaseInvalid) sit beside the built-in Python errors the core can hit
    (KeyError, IndexError, ValueError, AttributeError, TypeError,
    AssertionError) and the plain `Exception`s raised with a message. */
module Results {

  /** Why a catalogue record was rejected by validation. */
  datatype Invalidity =
    | InconsistentKeys                 // record key set is not the expected one
    | BadPreferred                     // Preferred does not have exactly Status/Manufacturer/Reference
    | BadAlternative(index: nat)       // the index-th alternative has the wrong key set

  datatype Error =
    | DatabaseInvalid(item: string, why: Invalidity)
    | NotAMapping                      // AttributeError: `.keys()` on a value that is not a dict
    | NotIterable                      // TypeError: iterating a number or a boolean
    | MissingKey(key: string)          // KeyError on a descriptor or attribute lookup
    | UnknownTechnology(technology: string)
    | Unhashable                       // TypeError: hashing a list or a mapping
    | InconsistentPrefixes             // "Prefixes are not identical within a part spec"
    | NoDesignators                    // IndexError on part_prefixes[0]
    | MalformedDesignator(designator: string)  // ValueError from int()
    | UnsupportedFormat(extension: string)     // "File output not supported in the ... format"
    | OpenFailed(path: string)
    | CloseFailed(path: string)
    | BadExtension
    | NotPng(path: string)             // AssertionError: out_path.endswith(".png")
    | NoOutputPath                     // IndexError on out_paths[0], or no output path bound at all
    | QuoteInPath(path: string)        // AssertionError: a double quote in the output path
    | NoSuchAttribute                  // AttributeError raised by a missing library function

  datatype Result<+T> = Ok(value: T) | Err(error: Error) {
    predicate IsFailure() {
      Err?
    }

    function PropagateFailure<U>(): Result<U>
      requires Err?
    {
      Err(error)
    }

    function Extract(): T
      requires Ok?
    {
      value
    }
  }

  /** A check that either passes or fails with a value describing the failure. */
  datatype Outcome<+E> = Pass | Fail(error: E) {
    predicate IsFailure() {
      Fail?
    }

    function PropagateFailure(): Outcome<E>
      requires Fail?
    {
      this
    }
  }

  datatype Option<+T> = None | Some(value: T)

  /** The position of the first `false` in a sequence of checks: where a
      loop that raises on the first failing element stops. */
  function FirstFalse(oks: seq<bool>): (i: nat)
    requires false in oks
    ensures i < |oks| && !oks[i]
    ensures forall j :: 0 <= j < i ==> oks[j]
  {
    if !oks[0] then 0
    else
      assert false in oks[1..] by {
        var k :| 0 <= k < |oks| && !oks[k];
        assert oks[1..][k - 1] == oks[k];
      }
      FirstFalse(oks[1..]) + 1
  }
}

=== FILE: scripts.dfy ===
/** eagle_automation/export.py, the exports that drive the CAD program with a
    command script: each `write_script` builds a list of commands for the
    kind of input file (board `brd`, schematic `sch`, library `lbr`), and
    EagleScriptExport.export appends QUIT, joins the commands with `;` and
    hands the result to the program as one `-C` argument. The constants are
    those of eagle_automation/config.py. */
module Scripts {
  import opened Results
  import opened Text
  import opened Common

  /** The CAD program's executable. */
  const Eagle: string := "eagle"

  /** Resolution of exported images. */
  const Dpi: nat := 400

  /** Layers every PDF page shows besides the requested ones. */
  const DocumentLayers: seq<string> := ["Dimension", "Document"]

  /** The double-quote character, which the part-listing script cannot take in a path. */
  const Quote: char := 34 as char

  predicate EndsWith(s: string, suffix: string)
  {
    |suffix| <= |s| && s[|s| - |suffix|..] == suffix
  }

  /** `zip(xs, ys)`: pairs up to the shorter length. */
  function Zip<A, B>(xs: seq<A>, ys: seq<B>): (r: seq<(A, B)>)
    ensures |r| == if |xs| <= |ys| then |xs| else |ys|
    ensures forall k :: 0 <= k < |r| ==> r[k] == (xs[k], ys[k])
  {
    var n := if |xs| <= |ys| then |xs| else |ys|;
    seq(n, k requires 0 <= k < n => (xs[k], ys[k]))
  }

  /* ---------------------------------------------------------------- layer sets */

  /** The distinct elements of `xs` in first-occurrence order. */
  function Distinct(xs: seq<string>): (r: seq<string>)
    ensures forall a, b :: 0 <= a < b < |r| ==> r[a] != r[b]
    ensures forall x :: x in r <==> x in xs
  {
    if |xs| == 0 then []
    else
      var init := Distinct(xs[..|xs| - 1]);
      assert forall x :: x in xs <==> x in xs[..|xs| - 1] || x == xs[|xs| - 1] by {
        assert xs == xs[..|xs| - 1] + [xs[|xs| - 1]];
      }
      if xs[|xs| - 1] in init then init else init + [xs[|xs| - 1]]
  }

  /** `set(layer) | set(DOCUMENT_LAYERS)` as the names the PDF export lists. */
  function PdfLayers(layer: seq<string>): (r: seq<string>)
    ensures forall a, b :: 0 <= a < b < |r| ==> r[a] != r[b]
    ensures forall x :: x in r <==> x in layer || x in DocumentLayers
  {
    Distinct(layer + DocumentLayers)
  }

  /* ---------------------------------------------------------------- per-layer commands */

  /** The two exports that emit commands per (layer, output path) pair. */
  datatype Picture = PngPicture | PdfPicture

  /** The three commands for one layer and its output file. */
  function LayerCommands(kind: Picture, layer: seq<string>, out: string): (r: seq<string>)
    ensures |r| == 3
  {
    match kind
    case PngPicture =>
      ["DISPLAY None", "DISPLAY " + Join(layer, ' '), "EXPORT IMAGE " + out + " MONOCHROME " + IntToString(Dpi)]
    case PdfPicture =>
      ["DISPLAY None", "DISPLAY " + Join(PdfLayers(layer), ' '), "PRINT FILE " + out + " BLACK SOLID"]
  }

  /** Whether a pair passes the export's check on its output path: a PNG file
      must end in `.png`; the PDF export checks nothing. */
  predicate Accepted(kind: Picture, out: string)
  {
    kind == PdfPicture || EndsWith(out, ".png")
  }

  predicate AllAccepted(kind: Picture, pairs: seq<(seq<string>, string)>)
  {
    forall k :: 0 <= k < |pairs| ==> Accepted(kind, pairs[k].1)
  }

  function FirstRejected(kind: Picture, pairs: seq<(seq<string>, string)>): (i: nat)
    requires !AllAccepted(kind, pairs)
    ensures i < |pairs| && !Accepted(kind, pairs[i].1)
    ensures forall j :: 0 <= j < i ==> Accepted(kind, pairs[j].1)
  {
    if !Accepted(kind, pairs[0].1) then 0
    else
      var i := FirstRejected(kind, pairs[1..]);
      assert forall j :: 1 <= j <= i ==> pairs[j] == pairs[1..][..i][j - 1];
      i + 1
  }

  /** The loop over the pairs: three commands per pair, in pair order; the
      first PNG path without the `.png` suffix fails the assertion. */
  function Body(kind: Picture, pairs: seq<(seq<string>, string)>): (r: Result<seq<string>>)
    ensures r.Ok? <==> AllAccepted(kind, pairs)
    ensures r.Err? ==> r.error == NotPng(pairs[FirstRejected(kind, pairs)].1)
    ensures r.Ok? ==> |r.value| == 3 * |pairs|
    decreases |pairs|
  {
    if |pairs| == 0 then Ok([])
    else if !Accepted(kind, pairs[0].1) then Err(NotPng(pairs[0].1))
    else
      var rest :- Body(kind, pairs[1..]);
      assert forall k :: 1 <= k < |pairs| ==> pairs[1..][k - 1] == pairs[k];
      Ok(LayerCommands(kind, pairs[0].0, pairs[0].1) + rest)
  }

  /** Command `3k + m` of the loop is the `m`-th command for pair `k`. */
  lemma {:induction false} BodyAt(kind: Picture, pairs: seq<(seq<string>, string)>, k: nat, m: nat)
    requires Body(kind, pairs).Ok?
    requires k < |pairs| && m < 3
    ensures Body(kind, pairs).value[3 * k + m] == LayerCommands(kind, pairs[k].0, pairs[k].1)[m]
    decreases k
  {
    var cmds := LayerCommands(kind, pairs[0].0, pairs[0].1);
    var rest := Body(kind, pairs[1..]);
    assert AllAccepted(kind, pairs[1..]) by {
      assert forall j :: 0 <= j < |pairs| - 1 ==> pairs[1..][j] == pairs[j + 1];
    }
    assert Body(kind, pairs).value == cmds + rest.value;
    if k > 0 {
      BodyAt(kind, pairs[1..], k - 1, m);
      assert pairs[1..][k - 1] == pairs[k];
      assert 3 * k + m == 3 + (3 * (k - 1) + m);
    }
  }

  /* ---------------------------------------------------------------- write_script */

  /** The commands before the loop: a board shows everything with the
      ratsnest recalculated, a schematic (PNG only) opens sheet `page`. */
  function Head(kind: Picture, ext: string, page: int): (r: Result<seq<string>>)
    ensures r.Ok? <==> ext == "brd" || (kind == PngPicture && ext == "sch")
    ensures r.Err? ==> r.error == BadExtension
    ensures ext == "brd" ==> r == Ok(["DISPLAY ALL", "RATSNEST"])
  {
    if ext == "brd" then Ok(["DISPLAY ALL", "RATSNEST"])
    else if kind == PngPicture && ext == "sch" then Ok(["EDIT .s" + IntToString(page)])
    else Err(BadExtension)
  }

  /** EaglePNGExport.write_script (`page` is the sheet, 1 unless set) and
      EaglePDFExport.write_script (which ignores `page`). */
  function PictureScript(kind: Picture, ext: string, page: int, layers: seq<seq<string>>, outPaths: seq<string>): (r: Result<seq<string>>)
    ensures r.Ok? <==> (ext == "brd" || (kind == PngPicture && ext == "sch")) && AllAccepted(kind, Zip(layers, outPaths))
    ensures Head(kind, ext, page).Err? ==> r == Err(BadExtension)
    ensures r.Ok? ==> |r.value| == |Head(kind, ext, page).value| + 3 * |Zip(layers, outPaths)|
  {
    var head :- Head(kind, ext, page);
    var body :- Body(kind, Zip(layers, outPaths));
    Ok(head + body)
  }

  /** The script of a successful picture export: the head, then for every
      zipped pair `k` the commands that show only that layer's layers and
      export them to that pair's path. */
  lemma {:induction false} PictureScriptCommands(kind: Picture, ext: string, page: int, layers: seq<seq<string>>, outPaths: seq<string>, k: nat)
    requires PictureScript(kind, ext, page, layers, outPaths).Ok?
    requires k < |layers| && k < |outPaths|
    ensures var r := PictureScript(kind, ext, page, layers, outPaths).value;
            var at := |Head(kind, ext, page).value| + 3 * k;
            && at + 3 <= |r|
            && r[at..at + 3]
               == ["DISPLAY None",
                   "DISPLAY " + Join(if kind == PngPicture then layers[k] else PdfLayers(layers[k]), ' '),
                   if kind == PngPicture then "EXPORT IMAGE " + outPaths[k] + " MONOCHROME 400"
                   else "PRINT FILE " + outPaths[k] + " BLACK SOLID"]
  {
    PictureScriptSlice(kind, ext, page, layers, outPaths, k);
    LayerCommandsText(kind, layers[k], outPaths[k]);
  }

  /** The commands for pair `k` follow the head at offset `3k`. */
  lemma {:induction false} PictureScriptSlice(kind: Picture, ext: string, page: int, layers: seq<seq<string>>, outPaths: seq<string>, k: nat)
    requires PictureScript(kind, ext, page, layers, outPaths).Ok?
    requires k < |layers| && k < |outPaths|
    ensures var r := PictureScript(kind, ext, page, layers, outPaths).value;
            var at := |Head(kind, ext, page).value| + 3 * k;
            && at + 3 <= |r|
            && r[at..at + 3] == LayerCommands(kind, layers[k], outPaths[k])
  {
    var pairs := Zip(layers, outPaths);
    var head := Head(kind, ext, page).value;
    var body := Body(kind, pairs).value;
    assert PictureScript(kind, ext, page, layers, outPaths).value == head + body;
    BodySlice(kind, pairs, k);
    SliceAfter(head, body, 3 * k, 3);
  }

  /** The loop's commands `3k` to `3k + 2` are those of pair `k`. */
  lemma {:induction false} BodySlice(kind: Picture, pairs: seq<(seq<string>, string)>, k: nat)
    requires Body(kind, pairs).Ok?
    requires k < |pairs|
    ensures 3 * k + 3 <= |Body(kind, pairs).value|
    ensures Body(kind, pairs).value[3 * k..3 * k + 3] == LayerCommands(kind, pairs[k].0, pairs[k].1)
  {
    BodyAt(kind, pairs, k, 0);
    BodyAt(kind, pairs, k, 1);
    BodyAt(kind, pairs, k, 2);
    SliceOfThree(Body(kind, pairs).value, 3 * k, LayerCommands(kind, pairs[k].0, pairs[k].1));
  }

  lemma {:induction false} SliceOfThree<T>(r: seq<T>, at: nat, cmds: seq<T>)
    requires |cmds| == 3 && at + 3 <= |r|
    requires r[at] == cmds[0] && r[at + 1] == cmds[1] && r[at + 2] == cmds[2]
    ensures r[at..at + 3] == cmds
  {
    assert r[at..at + 3][0] == r[at] && r[at..at + 3][1] == r[at + 1] && r[at..at + 3][2] == r[at + 2];
  }

  lemma {:induction false} SliceAfter<T>(a: seq<T>, b: seq<T>, i: nat, n: nat)
    requires i + n <= |b|
    ensures (a + b)[|a| + i..|a| + i + n] == b[i..i + n]
  {
    var s := (a + b)[|a| + i..|a| + i + n];
    assert forall j :: 0 <= j < n ==> s[j] == b[i + j];
  }

  /** The three commands of one pair, with the resolution written out. */
  lemma {:induction false} LayerCommandsText(kind: Picture, layer: seq<string>, out: string)
    ensures LayerCommands(kind, layer, out)
         == ["DISPLAY None",
             "DISPLAY " + Join(if kind == PngPicture then layer else PdfLayers(layer), ' '),
             if kind == PngPicture then "EXPORT IMAGE " + out + " MONOCHROME 400"
             else "PRINT FILE " + out + " BLACK SOLID"]
  {
    DpiText();
    var image := "EXPORT IMAGE " + out;
    assert image + " MONOCHROME " + "400" == image + " MONOCHROME 400";
  }

  lemma {:induction false} DpiText()
    ensures IntToString(Dpi) == "400"
  {
    assert NatToString(40) == NatToString(4) + [DigitChar(0)];
    assert NatToString(400) == NatToString(40) + [DigitChar(0)];
  }

  /** The PNG script of a schematic opens the sheet and then writes one image
      per zipped pair: outputs beyond the shorter list are ignored. */
  lemma {:induction false} PngSchematicShape(page: int, layers: seq<seq<string>>, outPaths: seq<string>)
    requires PictureScript(PngPicture, "sch", page, layers, outPaths).Ok?
    ensures var r := PictureScript(PngPicture, "sch", page, layers, outPaths).value;
            && r[0] == "EDIT .s" + IntToString(page)
            && |r| == 1 + 3 * (if |layers| <= |outPaths| then |layers| else |outPaths|)
  {
  }

  /** EagleDirectoryExport.write_script: a library exports its directory to
      the first output path. */
  function DirectoryScript(ext: string, outPaths: seq<string>): (r: Result<seq<string>>)
    ensures r.Ok? <==> ext == "lbr" && |outPaths| > 0
    ensures ext != "lbr" ==> r == Err(BadExtension)
    ensures ext == "lbr" && |outPaths| == 0 ==> r == Err(NoOutputPath)
    ensures r.Ok? ==> |r.value| == 1 && |r.value[0]| >= 17 && r.value[0][..17] == "EXPORT DIRECTORY " && r.value[0][17..] == outPaths[0]
  {
    if ext != "lbr" then Err(BadExtension)
    else if |outPaths| == 0 then Err(NoOutputPath)
    else Ok(["EXPORT DIRECTORY " + outPaths[0]])
  }

  /** EagleScriptBOMExport.write_script: a schematic runs the part-listing
      script at `ulpPath`; the BOM goes to the output paths zipped with the
      layers. The assertion on the path looks at the loop variable after the
      loop, that is the last zipped path only, and with nothing zipped that
      variable is unbound. */
  function LegacyBomScript(ext: string, ulpPath: string, layers: seq<seq<string>>, outPaths: seq<string>): (r: Result<(seq<string>, seq<string>)>)
    ensures var pairs := Zip(layers, outPaths);
            r.Ok? <==> ext == "sch" && |pairs| > 0 && Quote !in pairs[|pairs| - 1].1
    ensures ext != "sch" ==> r == Err(BadExtension)
    ensures ext == "sch" && |Zip(layers, outPaths)| == 0 ==> r == Err(NoOutputPath)
    ensures r.Ok? ==> r.value.0 == ["DISPLAY ALL", "RUN " + ulpPath]
                      && |r.value.1| == |Zip(layers, outPaths)|
                      && forall k :: 0 <= k < |r.value.1| ==> r.value.1[k] == outPaths[k]
  {
    if ext != "sch" then Err(BadExtension)
    else
      var pairs := Zip(layers, outPaths);
      var bomPaths := seq(|pairs|, k requires 0 <= k < |pairs| => pairs[k].1);
      if |pairs| == 0 then Err(NoOutputPath)
      else if Quote in pairs[|pairs| - 1].1 then Err(QuoteInPath(pairs[|pairs| - 1].1))
      else Ok((["DISPLAY ALL", "RUN " + ulpPath], bomPaths))
  }

  /** Only the last zipped path is checked: a quote in an earlier one passes. */
  lemma {:induction false} LegacyBomScriptChecksLast(layers: seq<seq<string>>, outPaths: seq<string>)
    requires |layers| == 2 && outPaths == ["a" + [Quote] + "b.csv", "c.csv"]
    ensures LegacyBomScript("sch", "bom.ulp", layers, outPaths).Ok?
  {
    assert Quote !in outPaths[1];
  }

  /* ---------------------------------------------------------------- the command line */

  /** The export classes that drive the CAD program with a script. */
  datatype Exporter = Png(page: int) | Pdf | Directory | ScriptBom(ulpPath: string)

  /** `write_script` of each exporter. */
  function WriteScript(e: Exporter, ext: string, layers: seq<seq<string>>, outPaths: seq<string>): (r: Result<seq<string>>)
    ensures r.Ok? ==> |r.value| > 0
  {
    match e
    case Png(page) => PictureScript(PngPicture, ext, page, layers, outPaths)
    case Pdf => PictureScript(PdfPicture, ext, 0, layers, outPaths)
    case Directory => DirectoryScript(ext, outPaths)
    case ScriptBom(ulpPath) =>
      var s :- LegacyBomScript(ext, ulpPath, layers, outPaths);
      Ok(s.0)
  }

  /** The `-C` argument: the commands, then QUIT, separated by `;`. */
  function ScriptString(script: seq<string>): string
  {
    Join(script + ["QUIT"], ';')
  }

  /** The script string splits back into the commands and the final QUIT,
      provided no command contains a `;`. */
  lemma {:induction false} ScriptStringRoundTrip(script: seq<string>)
    requires forall k :: 0 <= k < |script| ==> ';' !in script[k]
    ensures Split(ScriptString(script), ';') == script + ["QUIT"]
  {
    var cmds := script + ["QUIT"];
    assert forall k :: 0 <= k < |cmds| ==> ';' !in cmds[k];
    SplitJoin(cmds, ';');
  }

  /** EagleScriptExport.export: the extension of the input path picks the
      script, and the program runs as `eagle -C<script> <input>`. */
  function EagleCommand(e: Exporter, inPath: string, layers: seq<seq<string>>, outPaths: seq<string>): (r: Result<seq<string>>)
    ensures r.Ok? <==> WriteScript(e, GetExtension(inPath), layers, outPaths).Ok?
    ensures r.Ok? ==> |r.value| == 3 && r.value[0] == Eagle && r.value[2] == inPath
                      && |r.value[1]| >= 2 && r.value[1][..2] == "-C"
  {
    var script :- WriteScript(e, GetExtension(inPath), layers, outPaths);
    Ok([Eagle, "-C" + ScriptString(script), inPath])
  }

  /** The `-C` argument ends with QUIT and, when no command contains `;`,
      reads back as exactly the commands `write_script` built. */
  lemma {:induction false} EagleCommandScript(e: Exporter, inPath: string, layers: seq<seq<string>>, outPaths: seq<string>)
    requires EagleCommand(e, inPath, layers, outPaths).Ok?
    requires var s := WriteScript(e, GetExtension(inPath), layers, outPaths).value;
             forall k :: 0 <= k < |s| ==> ';' !in s[k]
    ensures var s := WriteScript(e, GetExtension(inPath), layers, outPaths).value;
            Split(EagleCommand(e, inPath, layers, outPaths).value[1][2..], ';') == s + ["QUIT"]
  {
    var s := WriteScript(e, GetExtension(inPath), layers, outPaths).value;
    assert EagleCommand(e, inPath, layers, outPaths).value[1][2..] == ScriptString(s);
    ScriptStringRoundTrip(s);
  }

  /** `;` never appears in a joined list of `;`-free names. */
  lemma {:induction false} JoinFree(parts: seq<string>, sep: char, x: char)
    requires x != sep
    requires forall k :: 0 <= k < |parts| ==> x !in parts[k]
    ensures x !in Join(parts, sep)
  {
    if |parts| > 1 {
      JoinFree(parts[1..], sep, x);
    }
  }

  /** The three commands for one PNG pair are `;`-free when its layer names
      and its path are. */
  lemma {:induction false} PngCommandsFree(layer: seq<string>, out: string)
    requires forall j :: 0 <= j < |layer| ==> ';' !in layer[j]
    requires ';' !in out
    ensures forall m :: 0 <= m < 3 ==> ';' !in LayerCommands(PngPicture, layer, out)[m]
  {
    JoinFree(layer, ' ', ';');
    var d := NatToString(Dpi);
    assert forall j :: 0 <= j < |d| ==> IsDigit(d[j]);
  }

  /** A PNG script has no `;` inside a command when no layer name and no
      output path has one, so its script string splits back cleanly. */
  lemma {:induction false} PngScriptSeparable(ext: string, page: int, layers: seq<seq<string>>, outPaths: seq<string>)
    requires PictureScript(PngPicture, ext, page, layers, outPaths).Ok?
    requires forall k, j :: 0 <= k < |layers| && 0 <= j < |layers[k]| ==> ';' !in layers[k][j]
    requires forall k :: 0 <= k < |outPaths| ==> ';' !in outPaths[k]
    ensures var s := PictureScript(PngPicture, ext, page, layers, outPaths).value;
            forall k :: 0 <= k < |s| ==> ';' !in s[k]
  {
    var s := PictureScript(PngPicture, ext, page, layers, outPaths).value;
    var head := Head(PngPicture, ext, page).value;
    var pairs := Zip(layers, outPaths);
    var body := Body(PngPicture, pairs).value;
    assert s == head + body;
    assert forall j :: 0 <= j < |head| ==> ';' !in head[j] by {
      var n := NatToString(if page < 0 then -page else page);
      assert forall j :: 0 <= j < |n| ==> IsDigit(n[j]);
    }
    forall i | 0 <= i < |body|
      ensures ';' !in body[i]
    {
      var k := i / 3;
      var m := i % 3;
      assert i == 3 * k + m;
      BodyAt(PngPicture, pairs, k, m);
      PngCommandsFree(pairs[k].0, pairs[k].1);
    }
  }
}

=== FILE: sorting.dfy ===
/** The two uses of Python's `sorted` in the core: ascending integers (the
    designator numbers in `_build_range`) and part lines by their part number
    string (the BOM export). Both are insertion sorts that place a new
    element after every element it does not precede, as a stable sort does. */
module Sorting {
  import opened Text

  /* ---------------------------------------------------------------- integers */

  predicate Ascending(xs: seq<int>)
  {
    forall a, b :: 0 <= a < b < |xs| ==> xs[a] <= xs[b]
  }

  function InsertInt(x: int, xs: seq<int>): (r: seq<int>)
    requires Ascending(xs)
    ensures Ascending(r)
    ensures multiset(r) == multiset(xs) + multiset{x}
    ensures |r| == |xs| + 1 && (r[0] == x || (|xs| > 0 && r[0] == xs[0]))
  {
    if |xs| == 0 || x <= xs[0] then [x] + xs
    else
      assert xs == [xs[0]] + xs[1..];
      [xs[0]] + InsertInt(x, xs[1..])
  }

  /** `sorted(xs)` on integers. */
  function SortInts(xs: seq<int>): (r: seq<int>)
    ensures Ascending(r)
    ensures multiset(r) == multiset(xs)
  {
    if |xs| == 0 then []
    else
      assert xs == [xs[0]] + xs[1..];
      InsertInt(xs[0], SortInts(xs[1..]))
  }

  /** Sorting loses no element and adds none. */
  lemma {:induction false} SortIntsMembers(xs: seq<int>, x: int)
    ensures x in SortInts(xs) <==> x in xs
  {
    assert x in SortInts(xs) <==> x in multiset(SortInts(xs));
    assert x in xs <==> x in multiset(xs);
  }

  /** Ascending distinct values are strictly increasing. */
  lemma {:induction false} AscendingDistinct(xs: seq<int>)
    requires Ascending(xs)
    requires forall a, b :: 0 <= a < b < |xs| ==> xs[a] != xs[b]
    ensures forall a, b :: 0 <= a < b < |xs| ==> xs[a] < xs[b]
  {
  }

  /* ---------------------------------------------------------------- by a string key */

  predicate SortedBy<T>(xs: seq<T>, key: T -> string)
  {
    forall a, b :: 0 <= a < b < |xs| ==> LexLe(key(xs[a]), key(xs[b]))
  }

  function InsertBy<T>(x: T, xs: seq<T>, key: T -> string): (r: seq<T>)
    requires SortedBy(xs, key)
    ensures SortedBy(r, key)
    ensures multiset(r) == multiset(xs) + multiset{x}
    ensures |r| == |xs| + 1 && (r[0] == x || (|xs| > 0 && r[0] == xs[0]))
  {
    if |xs| == 0 || LexLe(key(x), key(xs[0])) then
      LeAllAfter(xs, key, x);
      [x] + xs
    else
      assert xs == [xs[0]] + xs[1..];
      LexLeTotal(key(x), key(xs[0]));
      var r' := InsertBy(x, xs[1..], key);
      FirstLeAll(r', key, xs[0]);
      [xs[0]] + r'
  }

  /** A value that precedes the head of a sorted sequence precedes all of it. */
  lemma {:induction false} LeAllAfter<T>(xs: seq<T>, key: T -> string, x: T)
    requires SortedBy(xs, key)
    requires |xs| > 0 ==> LexLe(key(x), key(xs[0]))
    ensures forall a :: 0 <= a < |xs| ==> LexLe(key(x), key(xs[a]))
  {
    forall a | 0 < a < |xs|
      ensures LexLe(key(x), key(xs[a]))
    {
      LexLeTransitive(key(x), key(xs[0]), key(xs[a]));
    }
  }

  /** A value that precedes the head of a sorted sequence can be put in front of it. */
  lemma {:induction false} FirstLeAll<T>(xs: seq<T>, key: T -> string, y: T)
    requires SortedBy(xs, key)
    requires |xs| > 0 ==> LexLe(key(y), key(xs[0]))
    ensures SortedBy([y] + xs, key)
  {
    LeAllAfter(xs, key, y);
  }

  /** `sorted(xs, key=key)` for a string-valued key. */
  function SortBy<T>(xs: seq<T>, key: T -> string): (r: seq<T>)
    ensures SortedBy(r, key)
    ensures multiset(r) == multiset(xs)
  {
    if |xs| == 0 then []
    else
      assert xs == [xs[0]] + xs[1..];
      InsertBy(xs[0], SortBy(xs[1..], key), key)
  }
}

=== FILE: text.dfy ===
/** String helpers with the semantics of the Python 2 built-ins the core uses:
    `str.split` and `str.join` on a one-character separator, ASCII
    `str.lower`, `str(n)` / `"%d"` on integers, `int()` on a decimal literal,
    and the byte-wise ordering `sorted` applies to strings. */
module Text {
  import opened Results

  /* ---------------------------------------------------------------- split / join */

  /** `s.split(c)`: the maximal separator-free pieces of `s`, in order. */
  function Split(s: string, c: char): (parts: seq<string>)
    ensures |parts| >= 1
    ensures forall i :: 0 <= i < |parts| ==> c !in parts[i]
  {
    if |s| == 0 then [""]
    else if s[0] == c then [""] + Split(s[1..], c)
    else
      var rest := Split(s[1..], c);
      [[s[0]] + rest[0]] + rest[1..]
  }

  /** `c.join(parts)`. */
  function Join(parts: seq<string>, c: char): string
  {
    if |parts| == 0 then ""
    else if |parts| == 1 then parts[0]
    else parts[0] + [c] + Join(parts[1..], c)
  }

  function Last<T>(xs: seq<T>): T
    requires |xs| > 0
  {
    xs[|xs| - 1]
  }

  /** A string without the separator splits into itself. */
  lemma {:induction false} SplitNoSeparator(s: string, c: char)
    requires c !in s
    ensures Split(s, c) == [s]
  {
    if |s| > 0 {
      assert c !in s[1..];
      SplitNoSeparator(s[1..], c);
      assert [s[0]] + s[1..] == s;
    }
  }

  /** Splitting around one separator splits each side independently. */
  lemma {:induction false} SplitAround(x: string, y: string, c: char)
    ensures Split(x + [c] + y, c) == Split(x, c) + Split(y, c)
  {
    if |x| == 0 {
      assert x + [c] + y == [c] + y;
      assert ([c] + y)[1..] == y;
    } else {
      var s := x + [c] + y;
      assert s[0] == x[0];
      assert s[1..] == x[1..] + [c] + y;
      SplitAround(x[1..], y, c);
    }
  }

  /** Joining what was split gives the string back. */
  lemma {:induction false} JoinSplit(s: string, c: char)
    ensures Join(Split(s, c), c) == s
  {
    if |s| > 0 {
      JoinSplit(s[1..], c);
      var rest := Split(s[1..], c);
      if s[0] == c {
        assert Split(s, c) == [""] + rest;
        assert Join(Split(s, c), c) == "" + [c] + Join(rest, c);
        assert [s[0]] + s[1..] == s;
      } else {
        var parts := Split(s, c);
        assert parts == [[s[0]] + rest[0]] + rest[1..];
        if |rest| == 1 {
          assert Join(parts, c) == [s[0]] + rest[0];
          assert [s[0]] + s[1..] == s;
        } else {
          assert parts[1..] == rest[1..];
          assert Join(rest, c) == rest[0] + [c] + Join(rest[1..], c);
          assert Join(parts, c) == ([s[0]] + rest[0]) + [c] + Join(rest[1..], c);
          assert [s[0]] + s[1..] == s;
        }
      }
    }
  }

  /** Splitting what was joined gives the pieces back, when none of them
      contains the separator. */
  lemma {:induction false} SplitJoin(parts: seq<string>, c: char)
    requires |parts| >= 1
    requires forall i :: 0 <= i < |parts| ==> c !in parts[i]
    ensures Split(Join(parts, c), c) == parts
  {
    if |parts| == 1 {
      SplitNoSeparator(parts[0], c);
    } else {
      SplitJoin(parts[1..], c);
      SplitNoSeparator(parts[0], c);
      SplitAround(parts[0], Join(parts[1..], c), c);
      assert [parts[0]] + parts[1..] == parts;
    }
  }

  /** The last piece of `x + c + y` is the last piece of `y`. */
  lemma {:induction false} SplitLastAfter(x: string, y: string, c: char)
    ensures Last(Split(x + [c] + y, c)) == Last(Split(y, c))
  {
    SplitAround(x, y, c);
  }

  /* ---------------------------------------------------------------- lower case */

  /** Python 2 `str.lower` on byte strings: only ASCII capitals change. */
  function LowerChar(ch: char): char
  {
    if 'A' <= ch <= 'Z' then (ch as int + 32) as char else ch
  }

  function Lower(s: string): (r: string)
    ensures |r| == |s|
    ensures forall i :: 0 <= i < |s| ==> r[i] == LowerChar(s[i])
  {
    seq(|s|, i requires 0 <= i < |s| => LowerChar(s[i]))
  }

  lemma {:induction false} LowerIdempotent(s: string)
    ensures Lower(Lower(s)) == Lower(s)
  {
  }

  /** Lower-casing neither adds nor removes a character that is not a capital letter. */
  lemma {:induction false} LowerKeeps(s: string, ch: char)
    requires !('A' <= ch <= 'Z') && !('a' <= ch <= 'z')
    ensures ch in Lower(s) <==> ch in s
  {
    if ch in Lower(s) {
      var i :| 0 <= i < |s| && Lower(s)[i] == ch;
      assert s[i] == ch;
    }
    if ch in s {
      var i :| 0 <= i < |s| && s[i] == ch;
      assert Lower(s)[i] == ch;
    }
  }

  /* ---------------------------------------------------------------- decimal numbers */

  predicate IsDigit(ch: char)
  {
    '0' <= ch <= '9'
  }

  predicate AllDigits(s: string)
  {
    forall i :: 0 <= i < |s| ==> IsDigit(s[i])
  }

  function DigitChar(d: nat): (ch: char)
    requires d < 10
    ensures IsDigit(ch)
  {
    ('0' as int + d) as char
  }

  /** `str(n)` for a natural number: decimal digits without leading zeros. */
  function NatToString(n: nat): (r: string)
    ensures |r| >= 1
    ensures AllDigits(r)
    ensures r[0] == '0' ==> n == 0
  {
    if n < 10 then [DigitChar(n)]
    else NatToString(n / 10) + [DigitChar(n % 10)]
  }

  /** The value of a string of decimal digits. */
  function DigitsValue(s: string): nat
    requires AllDigits(s)
  {
    if |s| == 0 then 0
    else DigitsValue(s[..|s| - 1]) * 10 + (s[|s| - 1] as int - '0' as int)
  }

  lemma {:induction false} DigitsRoundTrip(n: nat)
    ensures DigitsValue(NatToString(n)) == n
  {
    if n >= 10 {
      DigitsRoundTrip(n / 10);
      var s := NatToString(n);
      assert s[..|s| - 1] == NatToString(n / 10);
    }
  }

  /** `str(i)` / `"%d" % i` for any integer. */
  function IntToString(i: int): (r: string)
    ensures |r| >= 1
  {
    if i < 0 then "-" + NatToString(-i) else NatToString(i)
  }

  /** The whitespace of C's `isspace`, which Python 2 uses. */
  predicate IsSpace(ch: char)
  {
    ch == ' ' || ch == '\t' || ch == '\n' || ch == '\r' || ch == '\U{B}' || ch == '\U{C}'
  }

  predicate AllSpace(s: string)
  {
    forall i :: 0 <= i < |s| ==> IsSpace(s[i])
  }

  /** Python 2 `int(s)` on a decimal literal with no surrounding whitespace:
      an optional sign, then at least one digit. After the sign, Python 2
      skips whitespace a second time (`PyOS_strtoul` and `PyLong_FromString`
      both do), so "- 5" reads as -5. Anything else raises ValueError. */
  function ParseInt(s: string): (r: Option<int>)
    ensures r.Some? <==> IsIntLiteral(s)
  {
    if |s| >= 1 && (s[0] == '-' || s[0] == '+') then
      assert !AllDigits(s) by { assert !IsDigit(s[0]); }
      match SpacedValue(s[1..])
      case None => None
      case Some(n) => Some(if s[0] == '-' then -(n as int) else n)
    else if |s| >= 1 && AllDigits(s) then Some(DigitsValue(s))
    else None
  }

  /** A decimal literal: digits alone, or a sign, whitespace and digits. */
  predicate IsIntLiteral(s: string)
  {
    || (|s| >= 1 && AllDigits(s))
    || (|s| >= 2 && (s[0] == '-' || s[0] == '+') && SpacedDigits(s[1..]))
  }

  /** Whitespace followed by at least one digit. */
  predicate SpacedDigits(u: string)
  {
    exists k :: 0 <= k < |u| && AllSpace(u[..k]) && AllDigits(u[k..])
  }

  /** The value of the digits after the whitespace, as `PyOS_strtoul` reads them. */
  function SpacedValue(u: string): (r: Option<nat>)
    ensures r.Some? <==> SpacedDigits(u)
  {
    if |u| > 0 && IsSpace(u[0]) then
      SpacedDigitsCons(u);
      SpacedValue(u[1..])
    else
      SpacedDigitsHead(u);
      if |u| > 0 && AllDigits(u) then Some(DigitsValue(u)) else None
  }

  /** A leading whitespace character can be dropped. */
  lemma {:induction false} SpacedDigitsCons(u: string)
    requires |u| > 0 && IsSpace(u[0])
    ensures SpacedDigits(u) <==> SpacedDigits(u[1..])
  {
    if SpacedDigits(u) {
      var k :| 0 <= k < |u| && AllSpace(u[..k]) && AllDigits(u[k..]);
      assert AllSpace(u[1..][..k - 1]) && AllDigits(u[1..][k - 1..]) by {
        assert u[1..][..k - 1] == u[..k][1..];
        assert u[1..][k - 1..] == u[k..];
      }
    }
    if SpacedDigits(u[1..]) {
      var k :| 0 <= k < |u[1..]| && AllSpace(u[1..][..k]) && AllDigits(u[1..][k..]);
      assert AllSpace(u[..k + 1]) && AllDigits(u[k + 1..]) by {
        assert u[..k + 1] == [u[0]] + u[1..][..k];
        assert u[k + 1..] == u[1..][k..];
      }
    }
  }

  /** Without leading whitespace, only digits remain to be read. */
  lemma {:induction false} SpacedDigitsHead(u: string)
    requires |u| == 0 || !IsSpace(u[0])
    ensures SpacedDigits(u) <==> |u| > 0 && AllDigits(u)
  {
    if SpacedDigits(u) {
      var k :| 0 <= k < |u| && AllSpace(u[..k]) && AllDigits(u[k..]);
      assert u[k..] == u;
    }
    if |u| > 0 && AllDigits(u) {
      assert AllSpace(u[..0]) && AllDigits(u[0..]);
    }
  }

  /** "- 5" is an integer literal in Python 2 and reads as -5. */
  lemma {:induction false} ParseIntSpaceAfterSign()
    ensures ParseInt("- 5") == Some(-5)
  {
    var s := "- 5";
    assert s[1..] == " 5" && " 5"[1..] == "5";
    assert DigitsValue("5") == 5 by { assert "5"[..0] == ""; }
    assert SpacedValue("5") == Some(5) by { assert AllDigits("5"); }
    assert SpacedValue(" 5") == Some(5) by { assert IsSpace(" 5"[0]); }
  }

  lemma {:induction false} ParseIntRoundTrip(i: int)
    ensures ParseInt(IntToString(i)) == Some(i)
  {
    var s := IntToString(i);
    if i < 0 {
      assert s[1..] == NatToString(-i);
      assert !IsSpace(s[1..][0]) by { assert IsDigit(s[1..][0]); }
      DigitsRoundTrip(-i);
    } else {
      assert IsDigit(s[0]);
      assert s[0] != '-' && s[0] != '+';
      DigitsRoundTrip(i);
    }
  }

  /** A natural number prints without a sign, so it parses back from its digits alone. */
  lemma {:induction false} ParseNatString(n: nat)
    ensures ParseInt(NatToString(n)) == Some(n)
  {
    DigitsRoundTrip(n);
  }

  /* ---------------------------------------------------------------- ordering */

  /** Python 2 string comparison: character by character, a proper prefix first. */
  predicate LexLe(a: string, b: string)
  {
    if |a| == 0 then true
    else if |b| == 0 then false
    else if a[0] < b[0] then true
    else if a[0] > b[0] then false
    else LexLe(a[1..], b[1..])
  }

  lemma {:induction false} LexLeTotal(a: string, b: string)
    ensures LexLe(a, b) || LexLe(b, a)
  {
    if |a| > 0 && |b| > 0 && a[0] == b[0] {
      LexLeTotal(a[1..], b[1..]);
    }
  }

  lemma {:induction false} LexLeTransitive(a: string, b: string, c: string)
    requires LexLe(a, b) && LexLe(b, c)
    ensures LexLe(a, c)
  {
    if |a| > 0 && |b| > 0 && |c| > 0 && a[0] == b[0] && b[0] == c[0] {
      LexLeTransitive(a[1..], b[1..], c[1..]);
    }
  }

  lemma {:induction false} LexLeAntisymmetric(a: string, b: string)
    requires LexLe(a, b) && LexLe(b, a)
    ensures a == b
  {
    if |a| > 0 && |b| > 0 {
      LexLeAntisymmetric(a[1..], b[1..]);
      assert a == [a[0]] + a[1..];
      assert b == [b[0]] + b[1..];
    }
  }
}

=== FILE: values.dfy ===
/** The loosely typed data the core moves around: catalogue fields loaded
    from YAML, descriptor values of a part line and the cells of a BOM row. */
module Values {

  datatype Value =
    | Str(s: string)
    | Bool(b: bool)
    | Int(i: int)
    | Dict(d: map<string, Value>)
    | List(l: seq<Value>)

  /** Python truthiness: empty strings, empty containers, zero and False are false. */
  predicate Truthy(v: Value)
  {
    match v
    case Str(s) => |s| > 0
    case Bool(b) => b
    case Int(i) => i != 0
    case Dict(d) => |d| > 0
    case List(l) => |l| > 0
  }

  /** Whether Python's `hash` accepts the value: lists and mappings are
      unhashable, strings, booleans and integers are not. */
  predicate Hashable(v: Value)
  {
    !v.Dict? && !v.List?
  }

  /** A BOM row: the cells handed to a writer in one `writerow` call. */
  type Row = seq<Value>

  /** Wraps every string of a list as a cell. */
  function Cells(names: seq<string>): (r: Row)
    ensures |r| == |names|
    ensures forall i :: 0 <= i < |names| ==> r[i] == Str(names[i])
  {
    seq(|names|, i requires 0 <= i < |names| => Str(names[i]))
  }
}
